=== FILE: README.md ===
# sqlbotsadmin in Dafny

A model of the decision logic of the sqlbotsadmin dashboard, a Next.js admin
panel in front of a hosted PostgREST database. The model covers four parts:

- **The session gate.** This is the signing-secret lookup and token-lifetime
  parsing of `lib/auth.ts`, the cookie and verification steps, the
  path classification and redirect decision of `middleware.ts`, and the
  login, verify and logout handlers.
- **The key generators.** These are the `SQLBots-XXXXXX-XXXX` license keys,
  their format validator, the batch generator that insists on distinct keys,
  and the 32-character API keys.
- **The route handlers.** These are the user, machine and license listings
  (PostgREST query strings and the `content-range` total), user creation
  with its bounded API-key retry loop, bulk license generation, the
  license listing with its projection, expiry extension, notification
  fan-out, license activation and the expiry sweep.
- **The client helpers.** These are the `ProtectedRoute` state machine, the
  list filters of the user, license and machine pages, `formatApiKey`, the
  form checks run before a request, the machine count and the CSV export.

Everything is a pure function over explicit inputs:

- the environment is a `Settings.Env` record;
- a JSON value is a `Js.Value` that includes `undefined`;
- the reply to an outbound `fetch` is a `Js.Remote` (a thrown call, or a
  status with a parsed body or none);
- a handler's answer is a `Js.Response`;
- random bytes are sequence parameters;
- time is integer milliseconds;
- `parseInt` yields `Option<int>`, with None for NaN;
- a conversion to a string that throws (an object with its own `toString`
  key, or an array holding one) is `Js.Printable` being false, and each
  handler that converts a body value answers it with its catch-all 500;
- the JWT library, `encodeURIComponent`, date parsing and `toLocaleString`
  are function parameters.

Modules follow the files. `Auth`, `Middleware`, `LoginRoute`, `VerifyRoute`
and `LogoutRoute` form the session gate. `License`, `ApiKey` and `Bytes` are
the generators. There is one module per route handler, with `Api` and `Query`
holding what the handlers share. `ProtectedRoute`, `UserPage`, `LicensePage`,
`MachinePage` and `PageFilter` are the client helpers. `Js`, `Text`, `Lists`,
`Settings` and `Wrappers` are the JavaScript semantics and library support.

Two things the handlers do not do:

- The login handler answers with a status and a message only. It never
  issues a session cookie (`LoginRoute.Post`).
- No handler singles out a failed API-key check as a distinct 500. The only
  exception is the retry loop running out in user creation.

## Model

| member | source | states |
|---|---|---|
| Auth.GetSecretKey | lib/auth.ts:12-18 | fails with "secret missing" exactly when JWT_SECRET is unset or empty; otherwise yields that secret |
| Auth.ParseLifetime | lib/auth.ts:36-49 | a final h, d, m or s scales `parseInt` of the rest by 3600, 86400, 60 or 1, NaN staying NaN; an empty setting or any other final character gives the 86400-second default |
| Auth.LifetimeBySuffix | lib/auth.ts:36-49 | the lifetime depends on the last character alone: a final h, d, m or s scales the parsed prefix by 3600, 86400, 60 or 1; any other final character gives 86400 seconds |
| Auth.LifetimeDefault | lib/auth.ts:7-40 | an unset or empty JWT_EXPIRES_IN means "24h", i.e. 86400 seconds |
| Auth.LifetimeOfNumber | lib/auth.ts:38-48 | a decimal number followed by a unit is that many units in seconds |
| Auth.NonNumericLifetime | lib/auth.ts:38-48 | a recognised unit after a prefix parseInt reads as NaN gives NaN, not the default |
| Auth.GenerateToken | lib/auth.ts:33-61 | the secret is checked before anything else; on success the claims carry the admin id and username, iat = floor(now/1000) and exp = iat + lifetime; a NaN lifetime fails |
| Auth.VerifyToken | lib/auth.ts:66-75 | never throws: a missing secret gives null, otherwise the library's verdict |
| Auth.GetTokenFromRequest | lib/auth.ts:80-83 | the session cookie's value when present and non-empty, null otherwise |
| Auth.VerifyAuth | lib/auth.ts:97-111 | valid exactly when a token is present and verifies, and then carries the decoded payload; never valid without a secret |
| Auth.NoCookieSkipsVerifier | lib/auth.ts:98-102 | without the cookie the outcome is invalid whatever the token library would say |
| Middleware.Handle | middleware.ts:19-68 | exempt prefixes pass before any session check; protected paths pass with a valid session and otherwise redirect to /login with `redirect` set to the path; /login-prefixed paths redirect to /dashboard with a valid session; other paths pass; a valid session never leads to the login redirect |
| Middleware.ProtectedAndPublicDisjoint | middleware.ts:6-28 | no path starts with both a protected and a public-only prefix, so the order of the two tests does not matter |
| Middleware.ExtensionIsProtected | middleware.ts:23-25 | protection is a prefix test: any extension of a protected route is protected |
| Middleware.DashboardWithoutCookie | middleware.ts:45-51 | /dashboard without cookies redirects to /login?redirect=/dashboard |
| Middleware.AuthApiNeverGated | middleware.ts:31-39 | every /api/auth path passes through whatever the cookies |
| LoginRoute.Interpret | app/api/auth/login/route.ts:84-107 | a truthy is_valid authenticates with the row's id and username; otherwise a missing row or both fields null is an unknown user, both truthy is a wrong password, and anything else is the generic refusal |
| LoginRoute.AmbiguousIsReachable | app/api/auth/login/route.ts:100-106 | the generic refusal is reachable: one of id and username null and the other set |
| LoginRoute.Post | app/api/auth/login/route.ts:11-128 | an unreadable body is the catch-all 500; missing fields give 400 before the configuration check; then 500 without configuration; a failed request is the catch-all 500 and an unparseable reply its own 500, both before the status is looked at; a non-2xx reply gives 401 with the reply's message, else its error, else "Authentication failed"; a non-array or empty 2xx result gives the bad-format 500; then the first row decides: the unknown-user 401 naming the username (the catch-all 500 when the username cannot be written into the message), the wrong-password 401, the generic 401, or 200 with the row's id and username; no cookie is set |
| LoginRoute.MissingFieldsIgnoreEverythingElse | app/api/auth/login/route.ts:16-22 | with a falsy username or password the answer is the same 400 for every configuration and remote reply |
| LoginRoute.LoginPageBodyRejected | app/api/auth/login/route.ts:14-22 | a body with `email` and `password` but no `username` is refused with 400 |
| LoginRoute.UnprintableUnknownUserThrows | app/api/auth/login/route.ts:87-127 | an unknown username that is an object with its own `toString` key cannot be written into the message, so the answer is the catch-all 500 |
| VerifyRoute.Get | app/api/auth/verify/route.ts:4-31 | 200 exactly when the result is valid with a payload, with a body holding authenticated true and an admin of the payload's adminId and username and nothing else; otherwise 401 "Not authenticated", or 500 "Verification failed" when verification threw, both with authenticated false and no admin |
| LogoutRoute.Post | app/api/auth/logout/route.ts:4-28 | always 200 "Logout successful"; the cookie is emptied with max-age 0, path /, httpOnly, SameSite lax, and secure exactly in production |
| LogoutRoute.LogoutClearsSession | app/api/auth/logout/route.ts:12-18 | applying the cookie removes the session from any jar, applying it twice equals once, other cookies are untouched, and the next request carries no token |
| License.KeyAlphabetShape | lib/license.ts:10 | the alphabet has 32 symbols and contains none of I, O, 0, 1 |
| License.KeyAlphabetInClass | lib/license.ts:10-35 | every symbol of the alphabet is in the validator's class [A-Z2-9] |
| License.GenerateRandomString | lib/license.ts:9-17 | one character per byte, each from the alphabet |
| License.GenerateLicenseKey | lib/license.ts:24-29 | 19 characters: "SQLBots-", six alphabet symbols, "-", four alphabet symbols |
| License.LicenseKeyLayout | lib/license.ts:24-29 | a key is "SQLBots-", six symbols chosen by bytes 0-5 (mod 32), "-", four symbols chosen by bytes 6-9: 19 characters |
| License.ValidateLicenseKeyFormat | lib/license.ts:34-37 | a key the pattern accepts has no 0, no 1 and no lower-case letter after its prefix |
| License.GeneratedKeyValidates | lib/license.ts:24-37 | every generated key passes the format validator |
| License.ValidatorAcceptsUngeneratedKey | lib/license.ts:34-37 | the validator accepts a key with I and O that no draw produces |
| License.GenerateMultipleLicenseKeys | lib/license.ts:43-57 | succeeds exactly when the count*100 draws yield at least `count` distinct keys, and then returns exactly `count` pairwise-distinct valid keys, the first distinct ones drawn; otherwise fails having spent the whole budget |
| License.DrawDistinct | lib/license.ts:44-50 | the loop stops when the budget is spent or `count` distinct keys are held, and holds the distinct keys of the draws used |
| License.CollectDistinct | lib/license.ts:47-50 | the set-insertion loop keeps the distinct candidates seen so far in order, never more than `count` |
| License.DistinctKeysValidate | lib/license.ts:43-57 | each distinct key drawn passes the validator |
| License.BudgetDecides | lib/license.ts:47-54 | stopping early never changes whether enough distinct keys exist within the budget |
| ApiKey.ApiKeyAlphabetShape | lib/user.ts:8 | the alphabet has 36 symbols, each an upper-case letter or a digit |
| ApiKey.GenerateApiKey | lib/user.ts:7-15 | 32 characters; character i is the alphabet's entry at byte i mod 36, so always an upper-case letter or digit |
| Query.StatusFilter | app/api/users/route.ts:34-36 | a status filter only when status is given and not "All" |
| Query.Render | app/api/users/route.ts:33-48 | the appended text is an ampersand before the `key=value` pieces joined by ampersands, and empty for no parameters |
| Query.RenderAppend | app/api/users/route.ts:33-48 | appending parameters appends their text, so each condition adds its own `&key=value` |
| Query.RenderReadsBack | app/api/users/route.ts:33-48 | when no key or value holds `&` and no key holds `=`, cutting the text at each `&` and each piece at its first `=` gives back the parameters in order |
| Query.AppendedReadsBack | app/api/users/route.ts:31-50 | a URL is its base followed by the rendered parameters, and the parameters read back from the text after the base |
| Query.Paging | app/api/users/route.ts:42-50 | limit always, parsed or 100 by default; offset only when given |
| Query.PagingOnlyPages | app/api/users/route.ts:42-50 | paging adds no parameter other than limit and offset |
| Query.NumText | app/api/users/route.ts:43-48 | a parsed number is written as its own text: plain digits below 10^21 in magnitude, which read back as the number, and the exponent form from there on, which reads back as its signed first digit; NaN is written "NaN" |
| Query.HeaderField | app/api/users/route.ts:87 | a field after the first slash exists exactly when the header is present and has a slash |
| Query.Total | app/api/users/route.ts:87-93 | the parsed text after the slash when non-empty, else the row count; throws only when neither exists |
| Query.TotalFallsBackToLength | app/api/users/route.ts:87 | without a usable header the total is the row count |
| Query.TotalFromHeader | app/api/users/route.ts:87-93 | a header "range/N" yields N |
| Query.ListResponse | app/api/users/route.ts:15-101 | 500 without configuration before 401 without a session; 200 exactly when both queries answer, the rows are not `null` and the total is computable, with the rows as received, their length as count and the total; a `null` body (whose `length` throws) and every later failure are 500 with the listing's text |
| Query.ListBody | app/api/users/route.ts:89-96 | the success body holds the rows, count and total under their keys |
| UsersRoute.Get | app/api/users/route.ts:15-101 | 500 without configuration before 401; 200 only for a 2xx list reply with a body that is not `null`, holding it under `users` with its length as `count`; every other failure is 500 "Failed to fetch users" |
| UsersRoute.Filters | app/api/users/route.ts:33-40 | the user listing's filters use only the status and username keys |
| UsersRoute.FilterParameters | app/api/users/route.ts:33-40 | the status filter appears only when active, the username filter only for a given search, and never a paging key |
| UsersRoute.ListUrl | app/api/users/route.ts:31-50 | the data query starts with the users base and, when no parameter holds a separator, the server reads back exactly the filter and paging parameters in order |
| UsersRoute.CountUrl | app/api/users/route.ts:71-77 | the count query starts with the head base and the server reads back exactly the filter parameters |
| UsersRoute.CountQueryMatchesList | app/api/users/route.ts:30-77 | the count query carries the same value for every key but limit and offset, which only the data query carries |
| UsersRoute.Validate | app/api/users/route.ts:103-131 | checks run in order: both fields present, username length, password length, plan; the request is accepted exactly when the credentials pass and the plan is readable and reads as at least 1, and then the signup holds the username, password and discord_id as sent and that plan. A string's length is in UTF-16 code units, an object's is its own numeric `length` field, and a value with no length skips the check. A falsy plan is 30; a truthy plan that cannot be converted to a string throws into the catch, which answers 500 "Failed to create user"; one that reads as NaN or below 1 is the plan 400 |
| UsersRoute.PlanOf | app/api/users/route.ts:128 | a falsy plan is 30 and a truthy one is `parseInt` of its text |
| UsersRoute.UnprintablePlanThrows | app/api/users/route.ts:128-221 | a plan object with its own `toString` key makes `parseInt` throw, so the request ends in the 500 rather than the plan 400 |
| UsersRoute.AcceptedSignup | app/api/users/route.ts:111-131 | long enough credentials and plan "7" are accepted as sent, with plan 7 and the given discord_id |
| Text.Utf16Length | app/api/users/route.ts:120-126 | `length` of a string in UTF-16 code units: between the character count and twice it, equal to the count exactly when no character is above U+FFFF and to twice it exactly when all are |
| Js.Length | app/api/users/route.ts:120-126 | a string's UTF-16 length, an array's element count, an object's own numeric `length` field; no length for anything else |
| UsersRoute.AstralCharacterCountsTwice | app/api/users/route.ts:120-122 | a character outside the Basic Multilingual Plane counts twice toward the username minimum |
| UsersRoute.ObjectLengthCounts | app/api/users/route.ts:120-122 | an object username with `length` 1 is refused as too short |
| UsersRoute.NumericUsernameSkipsLengthCheck | app/api/users/route.ts:120-122 | a numeric username has no length and passes the length check |
| UsersRoute.PlanZeroIsDefault | app/api/users/route.ts:128 | plan 0 is falsy and becomes 30 |
| UsersRoute.PlanRefused | app/api/users/route.ts:128-131 | a truthy plan that parses to NaN or below 1 is refused with 400 |
| UsersRoute.NoDigitsIsNaN | app/api/users/route.ts:128-129 | a plan of "x" parses to NaN |
| UsersRoute.FindUniqueApiKey | app/api/users/route.ts:136-169 | at most ten checks; a key is kept after fewer than ten collisions, using the draw after the last collision; ten collisions exhaust the search; a check that throws ends it |
| UsersRoute.NewUserRow | app/api/users/route.ts:180-190 | the inserted row is active, has the three machine names null and discord_id null when not given, and stores the hash, the plan and the key |
| UsersRoute.StripPasswordHash | app/api/users/route.ts:207-208 | the returned user never has password_hash and keeps every other own entry of the row and nothing else: an object's fields, an array's elements or a string's characters under their decimal indices, nothing for a number or boolean; a null user throws |
| UsersRoute.StripKeepsElements | app/api/users/route.ts:207-208 | an array row keeps every element under its index, as no index is password_hash |
| Js.OwnEntries | app/api/users/route.ts:208 | object rest copies an object's fields, an array's elements and a string's characters under exactly their decimal indices, and nothing from a number or boolean |
| UsersRoute.Post | app/api/users/route.ts:103-221 | configuration, then session, then validation, then the insert; a row is inserted only after all three pass |
| UsersRoute.Insert | app/api/users/route.ts:133-216 | a row is inserted exactly when hashing succeeds and the key search found a key; an exhausted search answers 500 "Failed to generate unique API key" |
| UsersRoute.CreateResponse | app/api/users/route.ts:193-216 | a 409 from the insert answers 409 "Username already exists", another failure 500; success is 201 with the first row without its hash |
| MachinesRoute.Filters | app/api/machines/route.ts:33-41 | the machine listing's filters use only the status and or keys |
| MachinesRoute.FilterParameters | app/api/machines/route.ts:33-41 | the status filter only when active; one or=(name.ilike.X,ip.ilike.X) filter, X the encoded %search%, only for a given search; never a paging key |
| MachinesRoute.ListUrl | app/api/machines/route.ts:30-51 | the data query starts with the machines base and, when no parameter holds a separator, the server reads back exactly the filter and paging parameters in order |
| MachinesRoute.CountUrl | app/api/machines/route.ts:72-79 | the count query starts with the head base and the server reads back exactly the filter parameters |
| MachinesRoute.CountQueryMatchesList | app/api/machines/route.ts:30-79 | the count query carries the data query's status and search filters, and only the data query pages |
| MachinesRoute.Get | app/api/machines/route.ts:14-103 | 500 without configuration before 401; 200 only for a 2xx list reply with a body that is not `null`, holding it under `machines` with its length as `count`; every other failure is 500 "Failed to fetch machines" |
| GenerateLicensesRoute.Validate | app/api/licenses/generate/route.ts:16-126 | the session before the body; a falsy quantity or day is "required"; a quantity or day that cannot be converted to a string throws into the catch-all 500; both are read as `parseInt` of their `String` form; then a quantity outside 1..100 or NaN, then a day below 1 or NaN; the configuration last; the order is accepted exactly when all of these pass |
| GenerateLicensesRoute.ZeroQuantityIsMissing | app/api/licenses/generate/route.ts:29-34 | quantity 0 is reported as missing, not out of range |
| GenerateLicensesRoute.ToStringKeyThrows | app/api/licenses/generate/route.ts:36-126 | a quantity object with its own `toString` key makes `quantity.toString()` throw: the answer is the catch-all 500, not a 400 |
| Js.PrintableCases | app/api/licenses/generate/route.ts:36-37 | scalars always convert to a string; an object does exactly when it has no own `toString` key; a one-element array exactly when its element does |
| GenerateLicensesRoute.HugeQuantityReadsAsLeadingDigit | app/api/licenses/generate/route.ts:36-44 | a quantity of 10^21 or more prints in exponent form, reads as its first digit, and the order is accepted with that quantity |
| Text.NumberToString | app/api/licenses/generate/route.ts:36-37 | `String` of a whole number: plain decimal below 10^21 in magnitude, and from there on one digit, the other significant digits after a point, `e+` and the exponent |
| Text.ParseIntOfNumberToString | app/api/licenses/generate/route.ts:36-37 | `parseInt` of `String(n)` is n below 10^21 in magnitude and the signed first digit from there on |
| Js.ParseIntOfNum | app/api/licenses/generate/route.ts:36-37 | `parseInt(x.toString())` of a number x is x below 10^21 in magnitude and its first digit from 10^21 on |
| GenerateLicensesRoute.InsertRows | app/api/licenses/generate/route.ts:73-77 | one inactive row per key, in key order, each with the ordered day |
| GenerateLicensesRoute.InsertResponse | app/api/licenses/generate/route.ts:93-127 | 201 exactly when the insert succeeds with a JSON body that is not `null`, with the success message for the quantity, the created rows and their count; a 409 answers 409 and other refusals the save-failed 500; a failed request, an unparseable body or a `null` body the catch-all 500 |
| GenerateLicensesRoute.RowsOfKeysFulfil | app/api/licenses/generate/route.ts:60-77 | rows built from the generator's distinct keys are `quantity` inactive rows with pairwise-distinct valid keys |
| GenerateLicensesRoute.Post | app/api/licenses/generate/route.ts:13-128 | a refused order inserts nothing; an accepted one inserts rows exactly when the draws within the budget of 100 per key hold `quantity` distinct keys, and then exactly the rows of `quantity` distinct valid keys, answered by the insert; otherwise it answers the generator's 500 |
| LicensesRoute.RpcDefaults | app/api/licenses/route.ts:24-55 | with no parameters the procedure gets status null, limit 100, offset 0, created_at, desc |
| LicensesRoute.RpcPassesGiven | app/api/licenses/route.ts:24-55 | given status and order column pass through; a given limit is sent parsed |
| LicensesRoute.RpcArgs | app/api/licenses/route.ts:38-55 | the procedure gets exactly its five arguments; status is null exactly when none is given; order column and direction are never empty; limit 100 and offset 0 by default |
| LicensesRoute.TotalOf | app/api/licenses/route.ts:81-84 | the first row's total_count through `Number` when it is defined, otherwise the number of rows |
| LicensesRoute.Project | app/api/licenses/route.ts:72-79 | a row keeps exactly the six listed fields with their values, so total_count is dropped; a null row throws |
| LicensesRoute.Get | app/api/licenses/route.ts:12-101 | 401 before the configuration check; a non-2xx reply gives 500; 200 exactly when the reply parses, every row projects and the first row's total_count can go through `Number`, with the projected rows, their count and the total; a failed request, an unparseable reply, a row that does not project or a total_count object with its own `toString` key is 500 "An error occurred while fetching licenses" |
| LicensesRoute.SingleObjectReply | app/api/licenses/route.ts:67-84 | a single object reply is one license, its own total_count is the total, and the projection drops that field |
| LicensesRoute.UnprintableTotalThrows | app/api/licenses/route.ts:81-99 | a total_count object with its own `toString` key makes `Number` throw, and the listing answers the catch-all 500 |
| ExtendExpiryRoute.Validate | app/api/users/extend-expiry/route.ts:28-188 | 500 without configuration before 401; an unreadable body is 500 "Failed to extend expiry."; `days` must be an integer number, then within 1..365 |
| ExtendExpiryRoute.TextualDaysRefused | app/api/users/extend-expiry/route.ts:39-41 | "30" as text and 1.5 are not integer numbers and are refused |
| ExtendExpiryRoute.Targets | app/api/users/extend-expiry/route.ts:49-188 | a truthy user id that `encodeURIComponent` cannot convert is the catch-all 500; otherwise the listing's rows when it answers with a non-empty array; a non-2xx listing is 500; an empty one is 404 for one user and 400 for all; a failed request or an unparseable body is 500 "Failed to extend expiry." |
| ExtendExpiryRoute.ListingUrl | app/api/users/extend-expiry/route.ts:49-80 | a truthy user id is looked up by `id=eq.` and its encoded text, limited to one row; a falsy one lists every user's id and expiry |
| ExtendExpiryRoute.NewExpiry | app/api/users/extend-expiry/route.ts:110-112 | max(current, now) + days*86400000, with current counting only when strictly later than now; so at least now + days and at least current + days |
| ExtendExpiryRoute.ExpiryStartsFromLaterOf | app/api/users/extend-expiry/route.ts:110-112 | a current expiry not after now is ignored; a later one shifts the result by exactly its lead |
| ExtendExpiryRoute.SweepFrom | app/api/users/extend-expiry/route.ts:109-143 | users are patched in order; a `null` row or an id that cannot be put into the URL throws, the first refused patch stops the loop, each with the earlier patches kept; success means every user was patched |
| ExtendExpiryRoute.SweepStep | app/api/users/extend-expiry/route.ts:109-143 | an acknowledged row puts its update in front of the updates of the rows after it |
| ExtendExpiryRoute.SweptAcked | app/api/users/extend-expiry/route.ts:127-133 | every row with a kept update had its PATCH answered with a 2xx |
| ExtendExpiryRoute.Notifications | app/api/users/extend-expiry/route.ts:136-142 | one "Expiry Extended" info notification per patched user, unread, in order |
| ExtendExpiryRoute.Summary | app/api/users/extend-expiry/route.ts:145-185 | always 200 with `updated` and `days`; notificationsCreated is all or nothing; the message gains its suffix only when a non-empty batch failed |
| ExtendExpiryRoute.Post | app/api/users/extend-expiry/route.ts:27-190 | refusals send nothing; after validation and targeting the patches are those of the sweep; a complete sweep answers the summary with one notification per user; a refused patch answers the extend-failed 500 and a thrown one the catch-all 500, with no notifications |
| ExtendExpiryRoute.EveryUserExtended | app/api/users/extend-expiry/route.ts:109-143 | after a complete sweep user i got patch i, for its own id, at least now + days and past its current expiry |
| NotificationsRoute.Validate | app/api/notifications/route.ts:22-104 | 500 before 401; an unreadable body is 500 "Failed to send notification."; a missing, non-string or blank message is 400; a trimmed message over 500 UTF-16 code units is 400; the result is the trimmed message |
| NotificationsRoute.LengthCountsTrimmedText | app/api/notifications/route.ts:37-40 | padding does not count: a message whose trimmed text is exactly 500 code units is accepted |
| NotificationsRoute.AstralCharactersCountTwice | app/api/notifications/route.ts:37-40 | 251 to 500 characters outside the Basic Multilingual Plane are too long |
| NotificationsRoute.Targets | app/api/notifications/route.ts:44-68 | a truthy userId is the only target with no listing; otherwise the listed ids in order, succeeding exactly for a non-empty array of rows that are not `null`; a non-2xx listing is the fetch-failed 500; a non-array or empty array is 400; a failed request, an unparseable body or a `null` row is the catch-all 500 |
| NotificationsRoute.Payload | app/api/notifications/route.ts:70-76 | one unread "Notification" info entry per target, in order, carrying the message |
| NotificationsRoute.InsertBody | app/api/notifications/route.ts:86 | one payload is sent bare, several as an array |
| NotificationsRoute.Deliver | app/api/notifications/route.ts:78-104 | 201 with count equal to the number of targets exactly when the insert succeeds; a refused insert is 500 "Failed to create notifications." and a failed request 500 "Failed to send notification." |
| NotificationsRoute.Post | app/api/notifications/route.ts:22-106 | a refusal sends nothing; otherwise the payload for the resolved targets is sent and its outcome returned |
| ActivateLicenseRoute.Post | app/api/users/activate-license/route.ts:14-82 | 500 without configuration before 401; an unreadable body is the catch-all 500; missing key or user id is 400; a non-2xx reply the activation-failed 500; a failed request, an unparseable reply or a nullish row the catch-all 500; the first element of an array reply is read; for a readable row a falsy success is exactly 400 with the reply's message or the default, and a truthy one 200 with message, license and user |
| ActivateLicenseRoute.SingleRowLikeBare | app/api/users/activate-license/route.ts:58 | a row wrapped in a one-element array is answered exactly like the bare row |
| ActivateLicenseRoute.EmptyReplyThrows | app/api/users/activate-license/route.ts:57-60 | an empty array reply leaves nothing to read and ends in the catch-all 500 |
| CheckExpiredRoute.Post | app/api/licenses/check-expired/route.ts:14-59 | 500 without configuration before 401; a non-2xx reply 500; a failed request, an unparseable reply or a nullish row 500 "An error occurred while checking expired licenses"; otherwise 200 with the first element's message or the default text and its two counts or 0 |
| CheckExpiredRoute.SingleRowLikeBare | app/api/licenses/check-expired/route.ts:42 | a row wrapped in a one-element array is answered exactly like the bare row |
| CheckExpiredRoute.EmptyReplyThrows | app/api/licenses/check-expired/route.ts:42-51 | an empty array reply is read as `undefined` and ends in the catch-all 500 |
| CheckExpiredRoute.EmptyObjectDefaults | app/api/licenses/check-expired/route.ts:42-51 | an empty object reply reports the default message and zero counts |
| ProtectedRoute.AfterCheck | components/protected-route.tsx:23-47 | a check passes exactly when the reply is 2xx, parses and has truthy authenticated and admin; checking ends after every check; a failure keeps the previous admin |
| ProtectedRoute.InitialIsLoading | components/protected-route.tsx:18-20 | the first render is the spinner, with no redirect and no polling |
| ProtectedRoute.Render | components/protected-route.tsx:72-90 | the spinner exactly while checking, the page exactly when the check is over and passed, nothing exactly when the redirect fires |
| ProtectedRoute.ViewsPartition | components/protected-route.tsx:55-90 | the spinner exactly while checking, the page exactly when checked and authenticated, nothing exactly when the redirect fires; polling runs whenever the page shows |
| ProtectedRoute.LastCheckDecides | components/protected-route.tsx:50-70 | after any run of checks the last reply alone decides whether the page shows or the redirect fires |
| ProtectedRoute.AgreesWithVerifyRoute | components/protected-route.tsx:30-40 | the verify route's answers pass the check exactly when it answers 200 |
| UserPage.FilterKeeps | app/user/page.tsx:110-125 | a user is listed exactly when its status matches (or "All") and, for a non-blank query, its lowercased username contains the lowercased query; the list keeps the route's order |
| UserPage.Toggle | app/user/page.tsx:277-282 | toggling flips one user's visibility and leaves the others |
| UserPage.ToggleTwice | app/user/page.tsx:277-282 | toggling twice restores the visibility |
| UserPage.FormatApiKey | app/user/page.tsx:269-275 | "Not set" for a null or empty key; the whole key when revealed or at most 20 characters; otherwise the first 8, "...", the last 8 |
| UserPage.MaskedKeyHidesMiddle | app/user/page.tsx:274 | a masked key differs from the key, and keys that agree on both ends look the same |
| UserPage.GeneratedKeyMasked | app/user/page.tsx:269-275 | a generated API key is masked to 19 characters unless revealed |
| UserPage.Initials | app/user/page.tsx:284-286 | empty exactly for an empty name, otherwise one character |
| UserPage.InitialMatchesName | app/user/page.tsx:284-286 | the initial is the name's first character up to case |
| UserPage.ResetPassword | app/user/page.tsx:202-230 | nothing without a selection; a password under 6 UTF-16 code units is refused before a mismatch; the request goes to the user's reset route with the password only |
| UserPage.ShortBeforeMismatch | app/user/page.tsx:205-217 | a short password is reported as short even when the confirmation differs |
| UserPage.OpenExtendDialog | app/user/page.tsx:298-303 | opening the dialog always sets a target: all users exactly when no user is given, otherwise that user's id |
| UserPage.ExtendExpiry | app/user/page.tsx:350-373 | nothing while no dialog is open; the days must read as a number of at least 1, and exactly such input is sent, with `userId` the chosen user's id or null for all users |
| UserPage.BlankDaysRefused | app/user/page.tsx:353-359 | blank input reads as 0 and is refused |
| UserPage.DecimalDaysSent | app/user/page.tsx:353-359 | any positive count written in decimal is sent as that count, with no upper bound |
| UserPage.ClientSendsWhatRouteRefuses | app/user/page.tsx:353-372 | a count above 365 that the page sends is refused by the extend-expiry route with 400 |
| UserPage.AllUsersExtendsEveryone | app/user/page.tsx:369-372 | the dialog opened without a user posts `userId: null`, and the extend-expiry route then lists every user |
| UserPage.MachineCount | app/user/page.tsx:519-521 | the number of non-empty names among the three slots, at most 3 |
| UserPage.MachineCountBySlot | app/user/page.tsx:519-521 | the count is 0 exactly when no slot is set and 3 exactly when all are; clearing a slot lowers it by one exactly when that slot was set |
| UserPage.MachineLabel | app/user/page.tsx:521 | "machines" except exactly for one |
| UserPage.MachineLabelReadsBack | app/user/page.tsx:521 | the label starts with the count in decimal: `parseInt` of the label is the count |
| LicensePage.FilterKeeps | app/license/page.tsx:85-102 | a license is listed exactly when its status matches (or "All") and, for a non-blank query, its lowercased key contains the lowercased query; order is kept |
| LicensePage.Generate | app/license/page.tsx:110-132 | a request is sent exactly when the quantity parses to at least 1, with that quantity and the parsed plan |
| LicensePage.RouteAcceptsPageOrder | app/license/page.tsx:110-132 | a page order of at most 100 is accepted by the generate route with the same quantity, and the day as `parseInt` of its text, which is the day itself below 10^21 |
| LicensePage.RouteRefusesLargeOrder | app/license/page.tsx:110-132 | quantities above 100 are sent; below 10^21 the route refuses them, and from 10^21 on it reads their first digit and accepts the order, or answers the configuration 500 |
| LicensePage.SentOrder | app/license/page.tsx:111-132 | decimal inputs are sent as numbers that the route reads back unchanged below 10^21 and as their first digit from there on |
| LicensePage.Csv | app/license/page.tsx:210-224 | the export starts with the unquoted header line, and is that line alone when nothing is listed |
| LicensePage.CsvLines | app/license/page.tsx:210-224 | without newlines in cells, the export is the header line then one line per listed license in order |
| LicensePage.RowCells | app/license/page.tsx:213-223 | without commas in cells, a data line splits back into its five quoted cells |
| LicensePage.Quote | app/license/page.tsx:223 | a cell is wrapped in double quotes with nothing escaped |
| MachinePage.FilterKeeps | app/machine/page.tsx:96-114 | a machine is listed exactly when its status matches (or "All") and, for a non-blank query, its name or IP contains the query up to case; order is kept |
| MachinePage.NullStatusHidden | app/machine/page.tsx:100-102 | a machine without a status is hidden whenever a status is selected |
| MachinePage.FormatDate | app/machine/page.tsx:116-119 | "N/A" for a null or empty date, otherwise the locale rendering |
| MachinePage.StatusBadge | app/machine/page.tsx:121-134 | highlighted exactly for "Active"; labelled with the status, or "Unknown" when none |
| MachinePage.DisplayName | app/machine/page.tsx:265 | the name, or "Unnamed Machine" when null or empty |
| MachinePage.FormatDateUsesLocaleOnlyForPresentDates | app/machine/page.tsx:116-119 | two renderings of a date agree exactly when the date is missing or the locales render it alike |
| MachinePage.StatusBadgeStable | app/machine/page.tsx:121-134 | a badge's caption gives back the same badge, and a missing status shows like "Unknown" |
| MachinePage.DisplayNameStable | app/machine/page.tsx:265 | naming a machine by its shown name changes nothing, and a nameless machine shows like "Unnamed Machine" |
| PageFilter.ApplyIsOneFilter | app/user/page.tsx:110-125 | the status step followed by the search step is one filter by both tests |

## Left out

- JWT signing and verification (the `jose` library) are a parameter `jwtVerify(token, secret)`. The token string `generateToken` signs is not produced.
- bcrypt hashing is an input to `UsersRoute.Post` (None when it throws). `verifyPassword` is unused by the handlers.
- Network I/O is left out: every `fetch` reply is an input, and the database's stored procedures are not modelled.
- `crypto.getRandomValues` is left out: the bytes are parameters.
- Dates are left out: `Date.now`, ISO parsing and formatting, `toLocaleString` and `toLocaleDateString` are integer milliseconds or function parameters.
- `encodeURIComponent` is an opaque function parameter, and `URLSearchParams` is a map.
- Only the decision of the Next.js middleware is modelled. Its `matcher` configuration (middleware.ts:71-82) is left out.
- The React side is left out: rendering, toasts, the router, `setInterval` and the Blob download. Only state transitions and the strings the pages compute are modelled.
- Logging (`console.error`) is left out.
- `getTokenFromCookies` (lib/auth.ts:88-92) reads the server-side cookie store the same way as `getTokenFromRequest` and is not modelled separately.
- UserPage.FormatApiKey: compares and slices characters, not UTF-16 code units as `length` and `substring` do. The two differ only for a key with a character above U+FFFF, and a cut through such a character yields a lone surrogate, which a Dafny `char` cannot hold. Generated keys are ASCII.
- UserPage.Initials: takes the first character. For a name starting above U+FFFF, `charAt(0)` gives half of a surrogate pair, which a Dafny `char` cannot hold.
- Strings are sequences of Unicode scalar values. `Js.Length` counts their UTF-16 code units, but strings holding lone surrogates cannot be represented.
- Case mapping beyond ASCII is left out: `toLowerCase` and `toUpperCase` change the ASCII letters only. `trim` uses JavaScript's full whitespace set.
- `parseInt` reads an optional sign and decimal digits after leading whitespace; hexadecimal `0x` prefixes are left out.
- `Number` of a string is modelled for decimal integers. Exponents, hexadecimal, fractions and `Infinity` are NaN (null) in the model.
- Non-integral numbers in bodies are kept as their text (`Fraction`), not as floating point.
- Whole numbers are exact integers. A JavaScript number is a double: from 2^53 on it is rounded to the nearest double, and `String` prints the shortest digits that identify that double. The model keeps the exact integer and prints its exponent form from 10^21 on.
- GenerateLicensesRoute.Validate: reads a quantity or day of 2^53 or more as the exact integer (or, from 10^21 on, its first digit), not as the rounded double.
- Query.NumText: writes a parsed number of 2^53 or more from its exact digits, not those of the rounded double.
- UserPage.DecimalDaysSent: sends a count of 2^53 or more exactly, where JavaScript sends the rounded double.
- LicensePage.Generate: sends a quantity of 2^53 or more exactly, where JavaScript sends the rounded double.
- LicensePage.SentOrder: the read-back is stated for the exact integer. For 2^53 or more, JavaScript reads back the rounded double.
- LicensePage.RouteRefusesLargeOrder: the boundary is the exact 10^21. In JavaScript a quantity just below 10^21 rounds up to 1e21, prints as "1e+21" and is accepted as 1.
- UsersRoute.StripPasswordHash: a string row is split by character. JavaScript splits it by UTF-16 code unit, so a character above U+FFFF takes two indices, each holding half of a surrogate pair, which a Dafny `char` cannot hold.
- Js.OwnEntries: the same per-character split for strings.
- Js.Length: an object's `length` field that is not a number counts as no length. JavaScript would compare it after coercion, so `null` would count as 0 and a numeric string as its number.
- UsersRoute.Validate: follows `Js.Length`, so an object username or password whose `length` field is not a number skips the length check.
- Auth.GenerateToken: "a NaN lifetime fails" relies on the token library refusing a non-finite expiration time.
- VerifyRoute.Get: the 500 branch is modelled by an absent result, because the modelled `verifyAuth` never throws.
- LicensePage.RowCells: holds only for cells without commas. `toLocaleString` dates commonly contain one, and then a data line splits into more than five fields.
- LicensePage.CsvLines: holds only for cells without newlines.
- GenerateLicensesRoute.Post: the generator's error is read through `GenerateMultipleLicenseKeys`, with the draws as a parameter long enough for the whole budget.
- The login page (app/login/page.tsx) is form plumbing and is not part of this model. It posts `email` where the handler reads `username`, which `LoginRoute.LoginPageBodyRejected` shows is refused.
- The static and demo pages, the sidebar, the charts and the header hold fixed data and styling only and are not part of this model.

=== FILE: api.dfy ===
/** What the server route handlers share: the configuration and session
    refusals, the body they destructure, and the JSON coercions they apply to
    remote results. */
module Api {
  import opened Wrappers
  import opened Js
  import Text

  const ConfigErrorText: string := "Server configuration error. Please contact the administrator."
  const UnauthorizedText: string := "Unauthorized. Please login first."

  /** An error response carrying `{ message }`. */
  function Fail(status: int, text: string): (r: Response)
    ensures r.status == status && MessageText(r) == Some(text)
  {
    Response(status, Message(text))
  }

  /** `await request.json()` followed by destructuring succeeds: the body is
      JSON and neither `null` nor absent. */
  predicate BodyReadable(body: Option<Value>) {
    body.Some? && !Nullish(body.value)
  }

  /** A destructured field of a readable body. */
  function Field(body: Option<Value>, key: string): Value {
    if body.Some? then Get(body.value, key) else Undefined
  }

  /** A number the code computed, as `JSON.stringify` writes it: NaN
      (None) becomes `null`. */
  function NumberJson(n: Option<int>): (v: Value)
    ensures n.Some? ==> v == Num(n.value)
    ensures n.None? ==> v == Null
  {
    if n.Some? then Num(n.value) else Null
  }

  /** `x.length` placed in a JSON body: `undefined` (omitted) unless `x` is
      a string or an array. */
  function LengthJson(v: Value): (r: Value)
    ensures Length(v).Some? <==> r.Num?
    ensures r.Num? ==> r.n == Length(v).value
  {
    if Length(v).Some? then Num(Length(v).value) else Undefined
  }

  /** `Array.isArray(r) ? r[0] : r`; an empty array yields `undefined`. */
  function FirstOrSelf(v: Value): (r: Value)
    ensures v.Arr? && |v.items| > 0 ==> r == v.items[0]
    ensures v.Arr? && |v.items| == 0 ==> r == Undefined
    ensures !v.Arr? ==> r == v
  {
    if v.Arr? then (if |v.items| > 0 then v.items[0] else Undefined) else v
  }

  /** `s.trim() !== ""` read the other way round: the text after `trim`. */
  function TrimmedText(v: Value): Option<string> {
    if v.Str? then Some(Text.Trim(v.s)) else None
  }
}

/** PostgREST query strings as the list handlers build them: a base path
    followed by `&key=value` parameters. */
module Query {
  import opened Wrappers
  import opened Js
  import Text
  import Settings
  import Api

  datatype Param = Param(key: string, value: string)

  /** `key=value`, one parameter as it appears between the ampersands. */
  function Piece(p: Param): string {
    p.key + "=" + p.value
  }

  function Pieces(ps: seq<Param>): (r: seq<string>)
    ensures |r| == |ps|
    ensures forall i :: 0 <= i < |r| ==> r[i] == Piece(ps[i])
  {
    seq(|ps|, i requires 0 <= i < |ps| => Piece(ps[i]))
  }

  /** The text appended to the base: `&key=value` for each parameter, that
      is, an ampersand before the pieces joined by ampersands. */
  function Render(ps: seq<Param>): (r: string)
    ensures |ps| == 0 ==> r == ""
    ensures |ps| > 0 ==> r == "&" + Text.Join(Pieces(ps), "&")
  {
    if |ps| == 0 then ""
    else
      var rest := Render(ps[1..]);
      assert |ps| > 1 ==> Pieces(ps)[1..] == Pieces(ps[1..]);
      "&" + Piece(ps[0]) + rest
  }

  /** A parameter that survives the round trip: no `&` anywhere and no `=`
      in its key. The handlers' values are URI-encoded, which leaves no `&`. */
  predicate Separable(p: Param) {
    '&' !in p.key && '=' !in p.key && '&' !in p.value
  }

  /** How the server reads the appended text back: drop the leading `&`,
      cut at every `&`, and cut each piece at its first `=`. */
  function ReadParams(s: string): (ps: seq<Param>)
    ensures |s| == 0 ==> ps == []
  {
    if |s| == 0 then []
    else
      var pieces := Text.Split(s[1..], '&');
      seq(|pieces|, i requires 0 <= i < |pieces| => ReadParam(pieces[i]))
  }

  /** A piece without `=` is a key with an empty value. */
  function ReadParam(piece: string): (p: Param)
    ensures '=' !in p.key
  {
    var key := Text.Before(piece, '=');
    if |key| < |piece| then Param(key, piece[|key| + 1..]) else Param(key, "")
  }

  lemma ReadParamOfPiece(p: Param)
    requires '=' !in p.key
    ensures ReadParam(Piece(p)) == p
  {
    Text.BeforeSeparator(p.key, '=', p.value);
    assert Piece(p) == p.key + ['='] + p.value;
    assert Piece(p)[|p.key| + 1..] == p.value;
  }

  /** The server reads back exactly the parameters rendered, in order. */
  lemma RenderReadsBack(ps: seq<Param>)
    requires forall i :: 0 <= i < |ps| ==> Separable(ps[i])
    ensures ReadParams(Render(ps)) == ps
  {
    if |ps| > 0 {
      var pieces := Pieces(ps);
      var r := Render(ps);
      SplitRendered(ps);
      assert Text.Split(r[1..], '&') == pieces;
      var back := ReadParams(r);
      assert |back| == |ps|;
      forall i | 0 <= i < |ps| ensures back[i] == ps[i] {
        assert back[i] == ReadParam(pieces[i]);
        ReadParamOfPiece(ps[i]);
      }
    }
  }

  predicate AllSeparable(ps: seq<Param>) {
    forall i :: 0 <= i < |ps| ==> Separable(ps[i])
  }

  /** A request URL is a fixed base followed by the rendered parameters; the
      server reads the parameters back from the text after the base. */
  lemma AppendedReadsBack(base: string, ps: seq<Param>)
    ensures Text.StartsWith(base + Render(ps), base)
    ensures AllSeparable(ps) ==> ReadParams((base + Render(ps))[|base|..]) == ps
  {
    assert (base + Render(ps))[..|base|] == base;
    assert (base + Render(ps))[|base|..] == Render(ps);
    if AllSeparable(ps) {
      RenderReadsBack(ps);
    }
  }

  /** Cutting the rendered text after its first `&` at every `&` gives the
      pieces back. */
  lemma SplitRendered(ps: seq<Param>)
    requires |ps| > 0
    requires forall i :: 0 <= i < |ps| ==> Separable(ps[i])
    ensures Text.Split(Render(ps)[1..], '&') == Pieces(ps)
  {
    var pieces := Pieces(ps);
    forall i | 0 <= i < |pieces| ensures '&' !in pieces[i] {
      assert pieces[i] == ps[i].key + ['='] + ps[i].value;
    }
    assert "&" == ['&'];
    Text.SplitJoin(pieces, '&');
    assert Render(ps)[1..] == Text.Join(pieces, "&");
  }

  /** The values the server reads for `key`, in order. */
  function Lookup(ps: seq<Param>, key: string): (vs: seq<string>)
    ensures |vs| <= |ps|
  {
    if |ps| == 0 then []
    else (if ps[0].key == key then [ps[0].value] else []) + Lookup(ps[1..], key)
  }

  lemma {:induction false} LookupAppend(a: seq<Param>, b: seq<Param>, key: string)
    ensures Lookup(a + b, key) == Lookup(a, key) + Lookup(b, key)
    decreases |a|
  {
    if |a| == 0 {
      assert a + b == b;
    } else {
      var head := if a[0].key == key then [a[0].value] else [];
      assert (a + b)[0] == a[0] && (a + b)[1..] == a[1..] + b;
      assert Lookup(a + b, key) == head + Lookup(a[1..] + b, key);
      LookupAppend(a[1..], b, key);
      assert Lookup(a, key) == head + Lookup(a[1..], key);
    }
  }

  /** A query parameter that the code tests with plain truthiness:
      present and non-empty. */
  predicate Given(p: Option<string>) {
    p.Some? && p.value != ""
  }

  /** `${parseInt(x)}` inside a template literal: the number's own text
      (exponent form from 10^21 in magnitude), or "NaN". */
  function NumText(n: Option<int>): (s: string)
    ensures n.Some? ==> Text.ParseInt(s) == Some(Text.Reparse(n.value))
    ensures n.Some? && -Text.ExponentFrom < n.value < Text.ExponentFrom ==> Text.ParseInt(s) == n
    ensures n.None? ==> s == "NaN"
  {
    if n.Some? then
      Text.ParseIntOfNumberToString(n.value);
      Text.NumberToString(n.value)
    else "NaN"
  }

  /** `status && status !== "All"`. */
  predicate StatusFilterActive(status: Option<string>) {
    Given(status) && status.value != "All"
  }

  /** The status filter shared by the user and machine listings. */
  function StatusFilter(status: Option<string>, enc: string -> string): (ps: seq<Param>)
    ensures StatusFilterActive(status) ==> ps == [Param("status", "eq." + enc(status.value))]
    ensures !StatusFilterActive(status) ==> ps == []
  {
    if StatusFilterActive(status) then [Param("status", "eq." + enc(status.value))] else []
  }

  /** `&limit=` (always, 100 by default) then `&offset=` when given. */
  function Paging(limit: Option<string>, offset: Option<string>): (ps: seq<Param>)
    ensures Lookup(ps, "limit") ==
      [if Given(limit) then NumText(Text.ParseInt(limit.value)) else "100"]
    ensures Lookup(ps, "offset") ==
      (if Given(offset) then [NumText(Text.ParseInt(offset.value))] else [])
    ensures forall i :: 0 <= i < |ps| ==> ps[i].key in {"limit", "offset"}
  {
    [Param("limit", if Given(limit) then NumText(Text.ParseInt(limit.value)) else "100")]
    + (if Given(offset) then [Param("offset", NumText(Text.ParseInt(offset.value)))] else [])
  }

  /** Keys outside `Paging`'s two are never produced by it. */
  lemma PagingOnlyPages(limit: Option<string>, offset: Option<string>, key: string)
    requires key != "limit" && key != "offset"
    ensures Lookup(Paging(limit, offset), key) == []
  {
    var ps := Paging(limit, offset);
    if Given(offset) {
      assert ps[1..][1..] == [];
    } else {
      assert ps[1..] == [];
    }
  }

  /** `contentRange?.split("/")[1]`: the text after the first slash. */
  function HeaderField(contentRange: Option<string>): (r: Option<string>)
    ensures r.Some? <==> contentRange.Some? && '/' in contentRange.value
  {
    if contentRange.Some? then Text.FieldAfter(contentRange.value, '/') else None
  }

  /** The total the list handlers report:
      `parseInt(contentRange?.split("/")[1] || rows.length.toString())`.
      `rowsLength` is None when the rows have no `length`; the outer None
      means the expression threw. */
  function Total(contentRange: Option<string>, rowsLength: Option<int>): (r: Option<Option<int>>)
    ensures Given(HeaderField(contentRange)) ==> r == Some(Text.ParseInt(HeaderField(contentRange).value))
    ensures !Given(HeaderField(contentRange)) && rowsLength.Some? ==> r == Some(rowsLength)
    ensures r.None? <==> !Given(HeaderField(contentRange)) && rowsLength.None?
  {
    var header := HeaderField(contentRange);
    if Given(header) then Some(Text.ParseInt(header.value))
    else if rowsLength.Some? then
      Text.ParseIntOfIntToString(rowsLength.value);
      Some(Text.ParseInt(Text.IntToString(rowsLength.value)))
    else None
  }

  /** Without a usable header the total falls back to the row count itself. */
  lemma TotalFallsBackToLength(contentRange: Option<string>, n: nat)
    requires contentRange.None? || !('/' in contentRange.value)
    ensures Total(contentRange, Some(n)) == Some(Some(n))
  {
    Text.ParseIntOfIntToString(n);
  }

  /** A header of the form `a-b/N` yields N. */
  lemma TotalFromHeader(range: string, n: nat, rowsLength: Option<int>)
    requires !('/' in range)
    ensures Total(Some(range + "/" + Text.IntToString(n)), rowsLength) == Some(Some(n))
  {
    var s := range + "/" + Text.IntToString(n);
    var d := Text.IntToString(n);
    assert '/' !in d by {
      forall i | 0 <= i < |d| ensures d[i] != '/' {
        assert Text.IsDigit(d[i]);
      }
    }
    Text.SplitJoin([range, Text.IntToString(n)], '/');
    assert Text.Join([range, Text.IntToString(n)], ['/']) == s;
    Text.ParseIntOfIntToString(n);
  }

  /** The HEAD count request: it threw, or it produced a `content-range`
      header (None when absent). Its status is not looked at. */
  datatype HeadReply = HeadFailed | Head(contentRange: Option<string>)

  /** The GET handlers of the user and machine listings: configuration,
      then the session, then the data query, then the count query. The rows
      are returned as received, `count` is their length and `total` the
      parsed count header or, failing that, the length. Reading `length` of
      a `null` body throws. Every failure after the session check answers
      500 with `failText`. */
  function ListResponse(env: Settings.Env, authed: bool, rowsKey: string, failText: string,
                        list: Remote, head: HeadReply): (r: Response)
    requires rowsKey != "count" && rowsKey != "total"
    ensures !Settings.ServerConfigured(env) ==> r == Api.Fail(500, Api.ConfigErrorText)
    ensures Settings.ServerConfigured(env) && !authed ==> r == Api.Fail(401, Api.UnauthorizedText)
    ensures r.status == 200 <==>
      && Settings.ServerConfigured(env) && authed && OkWithBody(list) && !Nullish(list.body.value)
      && head.Head? && Total(head.contentRange, Length(list.body.value)).Some?
    ensures r.status == 200 ==>
      && Get(r.body, rowsKey) == list.body.value
      && Get(r.body, "count") == Api.LengthJson(list.body.value)
      && Get(r.body, "total") == Api.NumberJson(Total(head.contentRange, Length(list.body.value)).value)
    ensures Settings.ServerConfigured(env) && authed && r.status != 200 ==> r == Api.Fail(500, failText)
    ensures Settings.ServerConfigured(env) && authed && OkWithBody(list) && Nullish(list.body.value) ==>
      r == Api.Fail(500, failText)
  {
    if !Settings.ServerConfigured(env) then Api.Fail(500, Api.ConfigErrorText)
    else if !authed then Api.Fail(401, Api.UnauthorizedText)
    else if !OkWithBody(list) || Nullish(list.body.value) || head.HeadFailed? then Api.Fail(500, failText)
    else
      var rows := list.body.value;
      match Total(head.contentRange, Length(rows))
      case None => Api.Fail(500, failText)
      case Some(total) => Response(200, ListBody(rowsKey, rows, total))
  }

  /** The success body: the rows under `rowsKey`, beside `count` and `total`. */
  function ListBody(rowsKey: string, rows: Value, total: Option<int>): (v: Value)
    requires rowsKey != "count" && rowsKey != "total"
    ensures Get(v, rowsKey) == rows
    ensures Get(v, "count") == Api.LengthJson(rows)
    ensures Get(v, "total") == Api.NumberJson(total)
  {
    Obj(map[rowsKey := rows, "count" := Api.LengthJson(rows), "total" := Api.NumberJson(total)])
  }
}

=== FILE: auth.dfy ===
/** lib/auth.ts: the signing-secret lookup, the token-lifetime setting, the
    claim set a token is issued with, and the request-level verification.
    Signing and checking a JWT belong to a library and are not modelled: the
    library's verifier is a parameter `jwtVerify(token, secret)` that yields
    the decoded claims, or None when it rejects the token. */
module Auth {
  import opened Wrappers
  import opened Js
  import Text
  import Settings

  const AuthCookieName: string := "admin-auth-token"
  const DefaultExpiresIn: string := "24h"
  const DefaultLifetimeSeconds: int := 60 * 60 * 24

  datatype AuthError = SecretMissing | InvalidLifetime

  /** The decoded payload of a JWT, a JSON object. */
  type Claims = map<string, Value>

  /** The claim set a new token is signed with. */
  datatype TokenClaims = TokenClaims(adminId: string, username: string, iat: int, exp: int)

  /** The outcome of `verifyAuth`. */
  datatype AuthResult = AuthResult(valid: bool, payload: Option<Claims>)

  /** `getSecretKey`: the configured secret (its UTF-8 encoding is left
      abstract), failing when JWT_SECRET is unset or empty. */
  function GetSecretKey(env: Settings.Env): (r: Result<string, AuthError>)
    ensures r.Failure? <==> !Settings.IsSet(env.jwtSecret)
    ensures r.Failure? ==> r.error == SecretMissing
    ensures r.Success? ==> r.value != "" && env.jwtSecret == Some(r.value)
  {
    if Settings.IsSet(env.jwtSecret) then Success(env.jwtSecret.value) else Failure(SecretMissing)
  }

  /** `JWT_EXPIRES_IN || "24h"`. */
  function ExpiresInSetting(env: Settings.Env): string {
    if Settings.IsSet(env.jwtExpiresIn) then env.jwtExpiresIn.value else DefaultExpiresIn
  }

  /** Multiplies a parsed number by a unit; NaN stays NaN. */
  function Scale(n: Option<int>, unit: int): Option<int> {
    match n
    case None => None
    case Some(v) => Some(v * unit)
  }

  /** The seconds each recognised suffix stands for. */
  const UnitSeconds: map<char, int> := map['h' := 3600, 'd' := 86400, 'm' := 60, 's' := 1]

  /** The lifetime parsing of `generateToken`: a final `h`, `d`, `m` or `s`
      scales `parseInt` of the rest; any other ending keeps the 24-hour
      default. None is the NaN a non-numeric prefix produces. */
  function ParseLifetime(setting: string): (r: Option<int>)
    ensures |setting| > 0 && setting[|setting| - 1] in UnitSeconds ==>
      r == Scale(Text.ParseInt(setting[..|setting| - 1]), UnitSeconds[setting[|setting| - 1]])
    ensures (|setting| == 0 || setting[|setting| - 1] !in UnitSeconds) ==> r == Some(DefaultLifetimeSeconds)
  {
    var rest := if |setting| > 0 then setting[..|setting| - 1] else "";
    EndsWithChar(setting, 'h');
    EndsWithChar(setting, 'd');
    EndsWithChar(setting, 'm');
    EndsWithChar(setting, 's');
    if Text.EndsWith(setting, "h") then Scale(Text.ParseInt(rest), 60 * 60)
    else if Text.EndsWith(setting, "d") then Scale(Text.ParseInt(rest), 60 * 60 * 24)
    else if Text.EndsWith(setting, "m") then Scale(Text.ParseInt(rest), 60)
    else if Text.EndsWith(setting, "s") then Text.ParseInt(rest)
    else Some(DefaultLifetimeSeconds)
  }

  /** The lifetime is decided by the last character alone: a unit scales the
      parsed prefix, anything else gives 86400 seconds. */
  lemma LifetimeBySuffix(prefix: string, last: char)
    ensures ParseLifetime(prefix + [last]) ==
      if last in UnitSeconds then Scale(Text.ParseInt(prefix), UnitSeconds[last])
      else Some(86400)
  {
    var s := prefix + [last];
    assert s[..|s| - 1] == prefix;
    EndsWithLast(prefix, last, 'h');
    EndsWithLast(prefix, last, 'd');
    EndsWithLast(prefix, last, 'm');
    EndsWithLast(prefix, last, 's');
    if last == 's' {
      match Text.ParseInt(prefix)
      case None =>
      case Some(v) => assert v * 1 == v;
    }
  }

  /** A one-character suffix test looks at the last character alone. */
  lemma EndsWithChar(s: string, c: char)
    ensures Text.EndsWith(s, [c]) <==> |s| > 0 && s[|s| - 1] == c
  {
    if |s| > 0 {
      assert s[|s| - 1..] == [s[|s| - 1]];
    }
  }

  lemma EndsWithLast(prefix: string, last: char, c: char)
    ensures Text.EndsWith(prefix + [last], [c]) <==> last == c
  {
    var s := prefix + [last];
    assert s[|s| - 1..] == [last];
  }

  /** An unset or empty setting means 24 hours. */
  lemma LifetimeDefault(env: Settings.Env)
    requires !Settings.IsSet(env.jwtExpiresIn)
    ensures ParseLifetime(ExpiresInSetting(env)) == Some(86400)
  {
    DefaultHours();
    LifetimeOfNumber(24, 'h');
  }

  lemma DefaultHours()
    ensures DefaultExpiresIn == Text.IntToString(24) + ['h']
  {
    assert Text.DigitChar(2) == '2' && Text.DigitChar(4) == '4';
    assert Text.NatToString(2) == "2";
    assert Text.NatToString(24) == Text.NatToString(2) + [Text.DigitChar(4)];
  }

  /** A number followed by a unit is that many units. */
  lemma LifetimeOfNumber(n: int, unit: char)
    requires unit in UnitSeconds
    ensures ParseLifetime(Text.IntToString(n) + [unit]) == Some(n * UnitSeconds[unit])
  {
    LifetimeBySuffix(Text.IntToString(n), unit);
    Text.ParseIntOfIntToString(n);
  }

  /** A unit after a non-numeric prefix is NaN, not the default; an
      unrecognised final character is the default. */
  lemma NonNumericLifetime(prefix: string, unit: char)
    requires unit in UnitSeconds
    requires |prefix| > 0 && !Text.IsWhite(prefix[0]) && !Text.IsDigit(prefix[0])
    requires prefix[0] != '-' && prefix[0] != '+'
    ensures ParseLifetime(prefix + [unit]) == None
  {
    LifetimeBySuffix(prefix, unit);
    assert Text.TrimStart(prefix) == prefix;
    assert Text.DigitRun(prefix) == 0;
  }

  /** `generateToken` up to signing: the secret is checked first, then the
      lifetime; the claims carry the identity, `iat` is the current time in
      whole seconds and `exp` is `iat` plus the lifetime. */
  function GenerateToken(env: Settings.Env, adminId: string, username: string, nowMs: int)
    : (r: Result<TokenClaims, AuthError>)
    ensures !Settings.IsSet(env.jwtSecret) ==> r == Failure(SecretMissing)
    ensures Settings.IsSet(env.jwtSecret) ==>
      (r.Failure? <==> ParseLifetime(ExpiresInSetting(env)).None?)
    ensures r.Failure? && Settings.IsSet(env.jwtSecret) ==> r.error == InvalidLifetime
    ensures r.Success? ==>
      && r.value.adminId == adminId && r.value.username == username
      && r.value.iat * 1000 <= nowMs < r.value.iat * 1000 + 1000
      && r.value.exp == r.value.iat + ParseLifetime(ExpiresInSetting(env)).value
  {
    match GetSecretKey(env)
    case Failure(e) => Failure(e)
    case Success(_) =>
      match ParseLifetime(ExpiresInSetting(env))
      case None => Failure(InvalidLifetime)
      case Some(ttl) =>
        var iat := nowMs / 1000;
        Success(TokenClaims(adminId, username, iat, iat + ttl))
  }

  /** `verifyToken`: never fails; a missing secret or a rejected token gives None. */
  function VerifyToken(env: Settings.Env, token: string, jwtVerify: (string, string) -> Option<Claims>)
    : (r: Option<Claims>)
    ensures !Settings.IsSet(env.jwtSecret) ==> r.None?
    ensures Settings.IsSet(env.jwtSecret) ==> r == jwtVerify(token, env.jwtSecret.value)
  {
    match GetSecretKey(env)
    case Failure(_) => None
    case Success(key) => jwtVerify(token, key)
  }

  /** `getTokenFromRequest`: the session cookie's value; an empty value counts as absent. */
  function GetTokenFromRequest(cookies: map<string, string>): (t: Option<string>)
    ensures t.Some? <==> AuthCookieName in cookies && cookies[AuthCookieName] != ""
    ensures t.Some? ==> t.value == cookies[AuthCookieName]
  {
    if AuthCookieName in cookies && cookies[AuthCookieName] != "" then Some(cookies[AuthCookieName]) else None
  }

  /** `verifyAuth`: valid with the payload exactly when a token is present and
      verifies. */
  function VerifyAuth(env: Settings.Env, cookies: map<string, string>, jwtVerify: (string, string) -> Option<Claims>)
    : (r: AuthResult)
    ensures r.valid <==> r.payload.Some?
    ensures r.valid <==>
      GetTokenFromRequest(cookies).Some?
      && VerifyToken(env, GetTokenFromRequest(cookies).value, jwtVerify).Some?
    ensures r.valid ==> r.payload == VerifyToken(env, GetTokenFromRequest(cookies).value, jwtVerify)
    ensures !Settings.IsSet(env.jwtSecret) ==> !r.valid
  {
    match GetTokenFromRequest(cookies)
    case None => AuthResult(false, None)
    case Some(token) =>
      match VerifyToken(env, token, jwtVerify)
      case None => AuthResult(false, None)
      case Some(payload) => AuthResult(true, Some(payload))
  }

  /** Without a session cookie the verifier is never consulted: the outcome is
      the same whatever it would say. */
  lemma NoCookieSkipsVerifier(env: Settings.Env, cookies: map<string, string>,
                              f: (string, string) -> Option<Claims>, g: (string, string) -> Option<Claims>)
    requires AuthCookieName !in cookies || cookies[AuthCookieName] == ""
    ensures VerifyAuth(env, cookies, f) == VerifyAuth(env, cookies, g) == AuthResult(false, None)
  {
  }
}

=== FILE: auth_routes.dfy ===
/** app/api/auth/login/route.ts: input validation, the configuration check,
    and the interpretation of the `verify_admin_credentials` reply. The
    handler answers with a status and a message only; it issues no session
    cookie. */
module LoginRoute {
  import opened Wrappers
  import opened Js
  import Settings
  import Api

  /** The four readings of the credential row. */
  datatype CredentialOutcome =
    | Authenticated(id: Value, username: Value)
    | UnknownUser
    | BadPassword
    | Ambiguous

  /** Both identity fields are explicitly null (`=== null`). */
  predicate BothNull(row: Value) {
    Get(row, "id") == Null && Get(row, "username") == Null
  }

  /** How the handler reads the first row of a 2xx reply: the validity flag, then the identity fields. */
  function Interpret(row: Value): (o: CredentialOutcome)
    ensures o.Authenticated? <==> Truthy(Get(row, "is_valid"))
    ensures o.Authenticated? ==> o.id == Get(row, "id") && o.username == Get(row, "username")
    ensures o.UnknownUser? <==> !Truthy(Get(row, "is_valid")) && (!Truthy(row) || BothNull(row))
    ensures o.BadPassword? <==>
      !Truthy(Get(row, "is_valid")) && Truthy(Get(row, "id")) && Truthy(Get(row, "username"))
    ensures o.Ambiguous? <==>
      && !Truthy(Get(row, "is_valid")) && Truthy(row) && !BothNull(row)
      && !(Truthy(Get(row, "id")) && Truthy(Get(row, "username")))
  {
    if !Truthy(Get(row, "is_valid")) then
      if !Truthy(row) || BothNull(row) then UnknownUser
      else if Truthy(Get(row, "id")) && Truthy(Get(row, "username")) then BadPassword
      else Ambiguous
    else Authenticated(Get(row, "id"), Get(row, "username"))
  }

  /** The catch-all branch is reachable: a row whose id is null but whose
      username is set is neither an unknown user nor a wrong password. */
  lemma AmbiguousIsReachable()
    ensures Interpret(Obj(map["is_valid" := Bool(false), "id" := Null, "username" := Str("bob")])).Ambiguous?
    ensures Interpret(Obj(map["is_valid" := Bool(false)])).Ambiguous?
  {
    var r1 := Obj(map["is_valid" := Bool(false), "id" := Null, "username" := Str("bob")]);
    assert Get(r1, "id") == Null && Get(r1, "username") == Str("bob");
    var r2 := Obj(map["is_valid" := Bool(false)]);
    assert Get(r2, "id") == Undefined;
  }

  const CatchAllText: string := "An error occurred during authentication"
  const UnparseableText: string := "Invalid response from authentication service"
  const BadFormatText: string := "Authentication service returned an invalid response. Please try again."
  const WrongPasswordText: string := "The password is incorrect. Please check your password and try again."
  const GenericRejectText: string := "Invalid username or password. Please check your credentials and try again."

  /** The message names the username through a template literal, which
      throws (and lands in the catch-all) unless it is `Printable`. */
  function UnknownUserText(username: Value): string {
    "The username \"" + Display(username) + "\" does not exist. Please check your username and try again."
  }

  /** Both `username` and `password` are truthy. */
  predicate FieldsPresent(body: Option<Value>) {
    Api.BodyReadable(body) && Truthy(Get(body.value, "username")) && Truthy(Get(body.value, "password"))
  }

  /** The first row of a 2xx reply whose body is a non-empty array. */
  function FirstRow(remote: Remote): Option<Value> {
    if OkWithBody(remote) && remote.body.value.Arr? && |remote.body.value.items| > 0
    then Some(remote.body.value.items[0]) else None
  }

  /** The 401 message of a non-2xx reply: `result?.message || result?.error || "Authentication failed"`. */
  function RejectionMessage(result: Value): Value {
    Or(Get(result, "message"), Or(Get(result, "error"), Str("Authentication failed")))
  }

  /** `POST /api/auth/login`. `body` is the parsed request (None when it is
      not JSON) and `remote` the reply of the credential procedure. */
  function Post(env: Settings.Env, body: Option<Value>, remote: Remote): (r: Response)
    ensures !Api.BodyReadable(body) ==> r == Response(500, Message(CatchAllText))
    ensures Api.BodyReadable(body) && !FieldsPresent(body) ==>
      r == Response(400, Message("Username and password are required"))
    ensures FieldsPresent(body) && !Settings.LoginConfigured(env) ==>
      r == Response(500, Message(Api.ConfigErrorText))
    ensures FieldsPresent(body) && Settings.LoginConfigured(env) && remote.Reply? && remote.body.None? ==>
      r == Response(500, Message(UnparseableText))
    ensures r.status == 200 <==>
      FieldsPresent(body) && Settings.LoginConfigured(env)
      && FirstRow(remote).Some? && Interpret(FirstRow(remote).value).Authenticated?
    ensures r.status == 401 <==>
      && FieldsPresent(body) && Settings.LoginConfigured(env) && remote.Reply? && remote.body.Some?
      && (|| !IsOk(remote.status)
          || (&& FirstRow(remote).Some? && !Interpret(FirstRow(remote).value).Authenticated?
              && !(Interpret(FirstRow(remote).value).UnknownUser? && !Printable(Get(body.value, "username")))))
    ensures r.status == 200 ==>
      var row := FirstRow(remote).value;
      r.body == Obj(map["message" := Str("Login successful"),
                        "admin" := Obj(map["id" := Get(row, "id"), "username" := Get(row, "username")])])
    ensures FieldsPresent(body) && Settings.LoginConfigured(env) && remote.NetworkError? ==>
      r == Response(500, Message(CatchAllText))
    ensures FieldsPresent(body) && Settings.LoginConfigured(env) && remote.Reply? && remote.body.Some?
            && !IsOk(remote.status) ==>
      r == Response(401, Obj(map["message" := RejectionMessage(remote.body.value)]))
    ensures FieldsPresent(body) && Settings.LoginConfigured(env) && OkWithBody(remote) && FirstRow(remote).None? ==>
      r == Response(500, Message(BadFormatText))
    ensures FieldsPresent(body) && Settings.LoginConfigured(env) && FirstRow(remote).Some? ==>
      var outcome := Interpret(FirstRow(remote).value);
      && (outcome.UnknownUser? && Printable(Get(body.value, "username")) ==>
            r == Response(401, Message(UnknownUserText(Get(body.value, "username")))))
      && (outcome.UnknownUser? && !Printable(Get(body.value, "username")) ==>
            r == Response(500, Message(CatchAllText)))
      && (outcome.BadPassword? ==> r == Response(401, Message(WrongPasswordText)))
      && (outcome.Ambiguous? ==> r == Response(401, Message(GenericRejectText)))
    ensures r.status in {200, 400, 401, 500}
  {
    if !Api.BodyReadable(body) then Response(500, Message(CatchAllText))
    else
      var username := Get(body.value, "username");
      var password := Get(body.value, "password");
      if !Truthy(username) || !Truthy(password) then
        Response(400, Message("Username and password are required"))
      else if !Settings.LoginConfigured(env) then
        Response(500, Message(Api.ConfigErrorText))
      else
        match remote
        case NetworkError => Response(500, Message(CatchAllText))
        case Reply(status, parsed) =>
          match parsed
          case None => Response(500, Message(UnparseableText))
          case Some(result) =>
            if !IsOk(status) then
              Response(401, Obj(map["message" := RejectionMessage(result)]))
            else if !Truthy(result) || !result.Arr? || |result.items| == 0 then
              Response(500, Message(BadFormatText))
            else
              match Interpret(result.items[0])
              case UnknownUser =>
                if Printable(username) then Response(401, Message(UnknownUserText(username)))
                else Response(500, Message(CatchAllText))
              case BadPassword => Response(401, Message(WrongPasswordText))
              case Ambiguous => Response(401, Message(GenericRejectText))
              case Authenticated(id, name) =>
                Response(200, Obj(map["message" := Str("Login successful"),
                                      "admin" := Obj(map["id" := id, "username" := name])]))
  }

  /** Missing credentials are answered before the configuration or the
      remote reply is looked at. */
  lemma MissingFieldsIgnoreEverythingElse(e1: Settings.Env, e2: Settings.Env, body: Option<Value>,
                                          r1: Remote, r2: Remote)
    requires !FieldsPresent(body)
    ensures Post(e1, body, r1) == Post(e2, body, r2)
  {
  }

  /** The login page posts `email` and `password`; the handler reads
      `username`, so every such request is refused with 400. */
  lemma LoginPageBodyRejected(env: Settings.Env, email: string, password: string, remote: Remote)
    ensures Post(env, Some(Obj(map["email" := Str(email), "password" := Str(password)])), remote).status == 400
  {
    var b := Obj(map["email" := Str(email), "password" := Str(password)]);
    assert Get(b, "username") == Undefined;
  }

  /** An unknown username that is an object with its own `toString` key
      cannot be written into the message: the request ends in the catch-all
      500 instead of the 401. */
  lemma UnprintableUnknownUserThrows(env: Settings.Env)
    requires Settings.LoginConfigured(env)
    ensures Post(env, Some(Obj(map["username" := Obj(map["toString" := Num(1)]), "password" := Str("pw")])),
                 Reply(200, Some(Arr([Null]))))
         == Response(500, Message(CatchAllText))
  {
    var b := Obj(map["username" := Obj(map["toString" := Num(1)]), "password" := Str("pw")]);
    assert Get(b, "username") == Obj(map["toString" := Num(1)]);
    assert Get(b, "password") == Str("pw");
    assert FirstRow(Reply(200, Some(Arr([Null])))) == Some(Null);
  }
}

/** app/api/auth/verify/route.ts: the session check the client calls. */
module VerifyRoute {
  import opened Wrappers
  import opened Js
  import Auth

  /** `payload.key`, `undefined` when the claim is absent. */
  function Claim(payload: Auth.Claims, key: string): Value {
    if key in payload then payload[key] else Undefined
  }

  /** `GET /api/auth/verify`. `auth` is the outcome of `verifyAuth`, None when
      it threw. */
  function Get(auth: Option<Auth.AuthResult>): (r: Response)
    ensures auth.None? ==> r.status == 500
    ensures auth.Some? ==> (r.status == 200 <==> auth.value.valid && auth.value.payload.Some?)
    ensures auth.Some? && r.status != 200 ==> r.status == 401
    ensures Js.Get(r.body, "authenticated") == Bool(r.status == 200)
    ensures r.status == 200 ==>
      var p := auth.value.payload.value;
      r.body == Obj(map["authenticated" := Bool(true),
                        "admin" := Obj(map["id" := Claim(p, "adminId"), "username" := Claim(p, "username")])])
    ensures r.status != 200 ==>
      r.body == Obj(map["authenticated" := Bool(false),
                        "message" := Str(if auth.None? then "Verification failed" else "Not authenticated")])
    ensures r.status != 200 ==> Js.Get(r.body, "admin") == Undefined
  {
    match auth
    case None => Response(500, Obj(map["authenticated" := Bool(false), "message" := Str("Verification failed")]))
    case Some(a) =>
      if !a.valid || a.payload.None? then
        Response(401, Obj(map["authenticated" := Bool(false), "message" := Str("Not authenticated")]))
      else
        var p := a.payload.value;
        Response(200, Obj(map["authenticated" := Bool(true),
                              "admin" := Obj(map["id" := Claim(p, "adminId"), "username" := Claim(p, "username")])]))
  }
}

/** app/api/auth/logout/route.ts: the cookie-clearing response, and what a
    client does with it (section 5.3 of RFC 6265: a cookie whose Max-Age is
    zero or less is removed). */
module LogoutRoute {
  import opened Js
  import Settings
  import Auth

  datatype SameSite = Lax | Strict | NoRestriction

  datatype SetCookie = SetCookie(
    name: string, value: string, httpOnly: bool, secure: bool,
    sameSite: SameSite, maxAge: int, path: string)

  datatype Outcome = Outcome(response: Response, cookie: SetCookie)

  /** `POST /api/auth/logout`: the request plays no part. */
  function Post(env: Settings.Env): (o: Outcome)
    ensures o.response.status == 200
    ensures o.response.body == Message("Logout successful")
    ensures o.cookie.name == Auth.AuthCookieName && o.cookie.value == ""
    ensures o.cookie.maxAge == 0 && o.cookie.path == "/"
    ensures o.cookie.httpOnly && o.cookie.sameSite == Lax
    ensures o.cookie.secure <==> Settings.Production(env)
  {
    Outcome(Response(200, Message("Logout successful")),
            SetCookie(Auth.AuthCookieName, "", true, Settings.Production(env), Lax, 0, "/"))
  }

  /** A client's cookie jar after it processes a Set-Cookie instruction. */
  function Apply(jar: map<string, string>, c: SetCookie): map<string, string> {
    if c.maxAge <= 0 then jar - {c.name} else jar[c.name := c.value]
  }

  /** Logging out removes the session cookie from any jar, doing it twice is
      the same as once, and the next request carries no token. */
  lemma LogoutClearsSession(env: Settings.Env, jar: map<string, string>)
    ensures Auth.AuthCookieName !in Apply(jar, Post(env).cookie)
    ensures Apply(Apply(jar, Post(env).cookie), Post(env).cookie) == Apply(jar, Post(env).cookie)
    ensures Auth.GetTokenFromRequest(Apply(jar, Post(env).cookie)).None?
    ensures forall k :: k in jar && k != Auth.AuthCookieName ==>
      k in Apply(jar, Post(env).cookie) && Apply(jar, Post(env).cookie)[k] == jar[k]
  {
  }
}

=== FILE: extend_expiry_route.dfy ===
/** app/api/users/extend-expiry/route.ts: pushing user expiry dates forward
    by a number of days, one PATCH per user, then one batch of
    notifications. Dates are integer milliseconds; reading a stored date and
    writing an ISO string are parameters. */
module ExtendExpiryRoute {
  import opened Wrappers
  import opened Js
  import Settings
  import Api
  import Text

  const MsPerDay: int := 24 * 60 * 60 * 1000
  const MaxDays: int := 365
  const CatchAllText: string := "Failed to extend expiry."

  // ---------------------------------------------------------------------
  // Validation and target selection

  /** The checks in order: configuration, session, body, then `days`: an integral
      JSON number (anything else is "must be an integer") within 1..365. */
  function Validate(env: Settings.Env, authed: bool, body: Option<Value>): (r: Result<int, Response>)
    ensures !Settings.ServerConfigured(env) ==> r == Failure(Api.Fail(500, Api.ConfigErrorText))
    ensures Settings.ServerConfigured(env) && !authed ==> r == Failure(Api.Fail(401, Api.UnauthorizedText))
    ensures Settings.ServerConfigured(env) && authed && !Api.BodyReadable(body) ==> r == Failure(Api.Fail(500, CatchAllText))
    ensures Settings.ServerConfigured(env) && authed && Api.BodyReadable(body) ==>
      && (!Api.Field(body, "days").Num? ==> r == Failure(Api.Fail(400, "'days' must be an integer.")))
      && (Api.Field(body, "days").Num? && !(1 <= Api.Field(body, "days").n <= MaxDays) ==>
            r == Failure(Api.Fail(400, "'days' must be between 1 and 365.")))
    ensures r.Success? <==>
      && Settings.ServerConfigured(env) && authed && Api.BodyReadable(body)
      && Api.Field(body, "days").Num? && 1 <= Api.Field(body, "days").n <= MaxDays
    ensures r.Success? ==> r.value == Api.Field(body, "days").n
  {
    if !Settings.ServerConfigured(env) then Failure(Api.Fail(500, Api.ConfigErrorText))
    else if !authed then Failure(Api.Fail(401, Api.UnauthorizedText))
    else if !Api.BodyReadable(body) then Failure(Api.Fail(500, CatchAllText))
    else
      var days := Api.Field(body, "days");
      if !days.Num? then Failure(Api.Fail(400, "'days' must be an integer."))
      else if days.n < 1 || days.n > MaxDays then Failure(Api.Fail(400, "'days' must be between 1 and 365."))
      else Success(days.n)
  }

  /** A fractional or textual `days` is refused as not an integer, even
      when it would read as a number in range. */
  lemma TextualDaysRefused(env: Settings.Env)
    requires Settings.ServerConfigured(env)
    ensures Validate(env, true, Some(Obj(map["days" := Str("30")])))
            == Failure(Api.Fail(400, "'days' must be an integer."))
    ensures Validate(env, true, Some(Obj(map["days" := Fraction("1.5")])))
            == Failure(Api.Fail(400, "'days' must be an integer."))
  {
    assert Api.Field(Some(Obj(map["days" := Str("30")])), "days") == Str("30");
    assert Api.Field(Some(Obj(map["days" := Fraction("1.5")])), "days") == Fraction("1.5");
  }

  /** The listing request: one user by id (limit 1) when `userId` is truthy,
      every user otherwise. */
  function ListingUrl(url: string, userId: Value, enc: string -> string): (r: string)
    ensures Text.StartsWith(r, url + "/rest/v1/users?")
    ensures !Truthy(userId) ==> r == url + "/rest/v1/users?select=id,expires_at"
    ensures Truthy(userId) ==>
      Text.EndsWith(r, "&select=id,expires_at&limit=1")
      && r[|url + "/rest/v1/users?"|..] == "id=eq." + enc(Display(userId)) + "&select=id,expires_at&limit=1"
  {
    if Truthy(userId) then url + "/rest/v1/users?id=eq." + enc(Display(userId)) + "&select=id,expires_at&limit=1"
    else url + "/rest/v1/users?select=id,expires_at"
  }

  /** A truthy `userId` goes through `encodeURIComponent`, which throws
      unless it is `Printable`. */
  predicate UserIdReadable(userId: Value) {
    !Truthy(userId) || Printable(userId)
  }

  /** The rows to extend, or the response that ends the
      request. A non-array reply counts as no rows. */
  function Targets(userId: Value, listing: Remote): (r: Result<seq<Value>, Response>)
    ensures !UserIdReadable(userId) ==> r == Failure(Api.Fail(500, CatchAllText))
    ensures UserIdReadable(userId) && listing.Reply? && !IsOk(listing.status) ==>
      r == Failure(Api.Fail(500, if Truthy(userId) then "Failed to fetch user." else "Failed to fetch users."))
    ensures UserIdReadable(userId) && (listing.NetworkError? || (IsOk(listing.status) && listing.body.None?)) ==>
      r == Failure(Api.Fail(500, CatchAllText))
    ensures r.Success? <==>
      UserIdReadable(userId) && OkWithBody(listing) && listing.body.value.Arr? && |listing.body.value.items| > 0
    ensures r.Success? ==> r.value == listing.body.value.items
    ensures UserIdReadable(userId) && OkWithBody(listing) && !(listing.body.value.Arr? && |listing.body.value.items| > 0) ==>
      r == Failure(if Truthy(userId) then Api.Fail(404, "User not found.")
                   else Api.Fail(400, "No users available to extend."))
  {
    if !UserIdReadable(userId) then Failure(Api.Fail(500, CatchAllText))
    else if listing.Reply? && !IsOk(listing.status) then
      Failure(Api.Fail(500, if Truthy(userId) then "Failed to fetch user." else "Failed to fetch users."))
    else if !OkWithBody(listing) then Failure(Api.Fail(500, CatchAllText))
    else
      var users := if listing.body.value.Arr? then listing.body.value.items else [];
      if |users| == 0 then
        Failure(if Truthy(userId) then Api.Fail(404, "User not found.") else Api.Fail(400, "No users available to extend."))
      else Success(users)
  }

  // ---------------------------------------------------------------------
  // Expiry arithmetic

  /** Extend from the stored expiry when it is later than
      now, from now otherwise. */
  function NewExpiry(current: Option<int>, now: int, days: int): (r: int)
    ensures r >= now + days * MsPerDay
    ensures current.Some? ==> r >= current.value + days * MsPerDay
    ensures r == now + days * MsPerDay || (current.Some? && current.value > now && r == current.value + days * MsPerDay)
  {
    var base := if current.Some? && current.value > now then current.value else now;
    base + days * MsPerDay
  }

  /** An expiry in the past (or absent) restarts from now; one in the future
      is carried forward in full. */
  lemma ExpiryStartsFromLaterOf(current: int, now: int, days: int)
    ensures current <= now ==> NewExpiry(Some(current), now, days) == NewExpiry(None, now, days)
    ensures current > now ==> NewExpiry(Some(current), now, days) - NewExpiry(None, now, days) == current - now
  {
  }

  /** `user.expires_at ? new Date(user.expires_at) : null`, with an
      unreadable date (None from `parseDate`) treated like no date, as the
      comparison with now then fails. */
  function CurrentExpiry(user: Value, parseDate: Value -> Option<int>): Option<int> {
    var stored := Get(user, "expires_at");
    if Truthy(stored) then parseDate(stored) else None
  }

  datatype Patch = Patch(userId: Value, expiresAt: int)

  function PatchFor(user: Value, now: int, days: int, parseDate: Value -> Option<int>): Patch {
    Patch(Get(user, "id"), NewExpiry(CurrentExpiry(user, parseDate), now, days))
  }

  /** The update every row of one request gets. */
  function UpdateOf(now: int, days: int, parseDate: Value -> Option<int>): Value -> Patch {
    user => PatchFor(user, now, days, parseDate)
  }

  // ---------------------------------------------------------------------
  // The update loop

  /** Every user was patched; a PATCH was refused; or the loop threw (a
      `null` row, an id that cannot be printed, or a PATCH that could not
      be sent). `patches` are the
      acknowledged updates, in order. */
  datatype Sweep = Swept(patches: seq<Patch>) | PatchRefused(patches: seq<Patch>) | SweepThrew(patches: seq<Patch>)

  /** The loop reads `user.expires_at`, which throws on a `null` row, then
      writes `user.id` into the PATCH URL, which throws unless it is
      `Printable`. */
  predicate Patchable(user: Value) {
    !Nullish(user) && Printable(Get(user, "id"))
  }

  /** `patch(i)` is the reply to the PATCH of `users[i]`. */
  predicate Acked(patch: nat -> Remote, i: nat) {
    patch(i).Reply? && IsOk(patch(i).status)
  }

  /** The update loop, from row `from` on: stops at the first failure.
      `update` is the patch a row gets (`PatchFor` with the request's clock
      and day count). */
  function SweepFrom(users: seq<Value>, from: nat, update: Value -> Patch, patch: nat -> Remote): (r: Sweep)
    requires from <= |users|
    ensures from + |r.patches| <= |users|
    ensures r.Swept? <==> from + |r.patches| == |users|
    ensures |r.patches| > 0 ==> Patchable(users[from]) && Acked(patch, from)
    ensures r.PatchRefused? ==>
      Patchable(users[from + |r.patches|]) && patch(from + |r.patches|).Reply?
      && !IsOk(patch(from + |r.patches|).status)
    ensures r.SweepThrew? ==>
      !Patchable(users[from + |r.patches|]) || patch(from + |r.patches|).NetworkError?
    decreases |users| - from
  {
    if from == |users| then Swept([])
    else if !Patchable(users[from]) then SweepThrew([])
    else
      var reply := patch(from);
      if reply.NetworkError? then SweepThrew([])
      else if !IsOk(reply.status) then PatchRefused([])
      else
        var rest := SweepFrom(users, from + 1, update, patch);
        rest.(patches := [update(users[from])] + rest.patches)
  }

  /** One acknowledged row puts its update in front of the rest. */
  lemma SweepStep(users: seq<Value>, from: nat, update: Value -> Patch, patch: nat -> Remote)
    requires from <= |users| && |SweepFrom(users, from, update, patch).patches| > 0
    ensures from < |users| && Acked(patch, from)
    ensures SweepFrom(users, from, update, patch).patches
         == [update(users[from])] + SweepFrom(users, from + 1, update, patch).patches
  {
  }

  /** The k-th acknowledged update is the update of row `from + k`. */
  lemma {:induction false} SweptPatch(users: seq<Value>, from: nat, update: Value -> Patch,
                                      patch: nat -> Remote, k: nat)
    requires from <= |users|
    requires k < |SweepFrom(users, from, update, patch).patches|
    ensures from + k < |users|
    ensures SweepFrom(users, from, update, patch).patches[k] == update(users[from + k])
    decreases k
  {
    SweepStep(users, from, update, patch);
    if k > 0 {
      var rest := SweepFrom(users, from + 1, update, patch).patches;
      assert SweepFrom(users, from, update, patch).patches[k] == rest[k - 1];
      SweptPatch(users, from + 1, update, patch, k - 1);
    }
  }

  /** The PATCH of every row with an acknowledged update was answered
      with a 2xx. */
  lemma {:induction false} SweptAcked(users: seq<Value>, from: nat, update: Value -> Patch,
                                      patch: nat -> Remote, k: nat)
    requires from <= |users|
    requires k < |SweepFrom(users, from, update, patch).patches|
    ensures Acked(patch, from + k)
    decreases k
  {
    SweepStep(users, from, update, patch);
    if k > 0 {
      SweptAcked(users, from + 1, update, patch, k - 1);
    }
  }

  // ---------------------------------------------------------------------
  // Notifications and the response

  function ExtendedText(days: int, iso: string): string {
    "Your expiry has been extended by " + Text.NumberToString(days) + " day(s). New expiry: " + iso
  }

  /** One notification per acknowledged update, in order. */
  function Notifications(patches: seq<Patch>, days: int, iso: int -> string): (ns: seq<Value>)
    ensures |ns| == |patches|
    ensures forall i :: 0 <= i < |ns| ==>
      && Get(ns[i], "user_id") == patches[i].userId
      && Get(ns[i], "title") == Str("Expiry Extended")
      && Get(ns[i], "message") == Str(ExtendedText(days, iso(patches[i].expiresAt)))
      && Get(ns[i], "type") == Str("info")
      && Get(ns[i], "read") == Bool(false)
  {
    seq(|patches|, i requires 0 <= i < |patches| => Notice(patches[i], days, iso))
  }

  /** The notification of one acknowledged update. */
  function Notice(p: Patch, days: int, iso: int -> string): (n: Value)
    ensures Get(n, "user_id") == p.userId && Get(n, "title") == Str("Expiry Extended")
    ensures Get(n, "message") == Str(ExtendedText(days, iso(p.expiresAt)))
    ensures Get(n, "type") == Str("info") && Get(n, "read") == Bool(false)
  {
    var message := Str(ExtendedText(days, iso(p.expiresAt)));
    Obj(map["user_id" := p.userId, "title" := Str("Expiry Extended"), "message" := message,
            "type" := Str("info"), "read" := Bool(false)])
  }

  const BaseText: string := "Expiry extended successfully"
  const PartialText: string := "Expiry extended successfully, but failed to create some notifications."

  /** The notification insert may fail without failing the
      request; it only changes the message. */
  function Summary(updated: nat, days: int, notify: Remote): (r: Response)
    ensures r.status == 200
    ensures Get(r.body, "updated") == Num(updated) && Get(r.body, "days") == Num(days)
    ensures Get(r.body, "notificationsCreated") == Num(if notify.Reply? && IsOk(notify.status) then updated else 0)
    ensures Get(r.body, "message") == Str(if updated == 0 || (notify.Reply? && IsOk(notify.status)) then BaseText else PartialText)
  {
    var created := if updated > 0 && notify.Reply? && IsOk(notify.status) then updated else 0;
    Response(200, Obj(map["message" := Str(if created == updated then BaseText else PartialText),
                          "updated" := Num(updated), "days" := Num(days),
                          "notificationsCreated" := Num(created)]))
  }

  datatype Outcome = Outcome(response: Response, patches: seq<Patch>, notifications: seq<Value>)

  /** `POST /api/users/extend-expiry`. `listing` answers `ListingUrl`,
      `patch(i)` the i-th PATCH, `notify` the notification insert; `now` is
      the clock in milliseconds. */
  function Post(env: Settings.Env, authed: bool, body: Option<Value>, listing: Remote, now: int,
                parseDate: Value -> Option<int>, iso: int -> string, patch: nat -> Remote, notify: Remote): (o: Outcome)
    ensures Validate(env, authed, body).Failure? ==> o == Outcome(Validate(env, authed, body).error, [], [])
    ensures Validate(env, authed, body).Success? && Targets(Api.Field(body, "userId"), listing).Failure? ==>
      o == Outcome(Targets(Api.Field(body, "userId"), listing).error, [], [])
    ensures o.patches != [] ==>
      && Validate(env, authed, body).Success? && Targets(Api.Field(body, "userId"), listing).Success?
      && o.patches == SweepFrom(Targets(Api.Field(body, "userId"), listing).value, 0,
                                UpdateOf(now, Validate(env, authed, body).value, parseDate), patch).patches
    ensures o.response.status == 200 ==>
      && Validate(env, authed, body).Success? && Targets(Api.Field(body, "userId"), listing).Success?
      && |o.patches| == |Targets(Api.Field(body, "userId"), listing).value| > 0
      && o.notifications == Notifications(o.patches, Validate(env, authed, body).value, iso)
      && o.response == Summary(|o.patches|, Validate(env, authed, body).value, notify)
    ensures o.response.status != 200 ==> o.notifications == []
    ensures Validate(env, authed, body).Success? && Targets(Api.Field(body, "userId"), listing).Success? ==>
      var days := Validate(env, authed, body).value;
      var sweep := SweepFrom(Targets(Api.Field(body, "userId"), listing).value, 0,
                             UpdateOf(now, days, parseDate), patch);
      && o.patches == sweep.patches
      && (sweep.Swept? ==> o == Outcome(Summary(|sweep.patches|, days, notify), sweep.patches,
                                        Notifications(sweep.patches, days, iso)))
      && (sweep.PatchRefused? ==> o.response == Api.Fail(500, "Failed to extend expiry for users."))
      && (sweep.SweepThrew? ==> o.response == Api.Fail(500, CatchAllText))
  {
    match Validate(env, authed, body)
    case Failure(refusal) => Outcome(refusal, [], [])
    case Success(days) =>
      match Targets(Api.Field(body, "userId"), listing)
      case Failure(refusal) => Outcome(refusal, [], [])
      case Success(users) =>
        match SweepFrom(users, 0, UpdateOf(now, days, parseDate), patch)
        case SweepThrew(ps) => Outcome(Api.Fail(500, CatchAllText), ps, [])
        case PatchRefused(ps) => Outcome(Api.Fail(500, "Failed to extend expiry for users."), ps, [])
        case Swept(ps) => Outcome(Summary(|ps|, days, notify), ps, Notifications(ps, days, iso))
  }

  /** After a successful request every listed user's new expiry is at least
      `days` days from now, and at least `days` days past their own stored
      expiry. */
  lemma {:induction false} EveryUserExtended(users: seq<Value>, now: int, days: int,
                                             parseDate: Value -> Option<int>, patch: nat -> Remote)
    requires SweepFrom(users, 0, UpdateOf(now, days, parseDate), patch).Swept?
    ensures forall i :: 0 <= i < |users| ==>
      var p := SweepFrom(users, 0, UpdateOf(now, days, parseDate), patch).patches[i];
      && p.userId == Get(users[i], "id")
      && p.expiresAt >= now + days * MsPerDay
      && (CurrentExpiry(users[i], parseDate).Some? ==>
            p.expiresAt >= CurrentExpiry(users[i], parseDate).value + days * MsPerDay)
  {
    var update := UpdateOf(now, days, parseDate);
    var ps := SweepFrom(users, 0, update, patch).patches;
    assert |ps| == |users|;
    forall i | 0 <= i < |users|
      ensures ps[i].userId == Get(users[i], "id")
      ensures ps[i].expiresAt >= now + days * MsPerDay
      ensures CurrentExpiry(users[i], parseDate).Some? ==>
            ps[i].expiresAt >= CurrentExpiry(users[i], parseDate).value + days * MsPerDay
    {
      SweptPatch(users, 0, update, patch, i);
      assert ps[i] == PatchFor(users[i], now, days, parseDate);
    }
  }
}

=== FILE: js.dfy ===
/** JavaScript values as the route handlers see them after `JSON.parse`, the
    few coercions they apply (truthiness, `?.` reads, `.length`, `String()`),
    and the shapes of remote replies and handler responses. */
module Js {
  import opened Wrappers
  import Text

  /** A JSON value, plus `undefined`. Numbers are integers; a finite
      non-integral number is kept as its decimal text. */
  datatype Value =
    | Undefined
    | Null
    | Bool(b: bool)
    | Num(n: int)
    | Fraction(text: string)
    | Str(s: string)
    | Arr(items: seq<Value>)
    | Obj(fields: map<string, Value>)

  /** JavaScript truthiness. */
  predicate Truthy(v: Value) {
    match v
    case Undefined => false
    case Null => false
    case Bool(b) => b
    case Num(n) => n != 0
    case Fraction(_) => true
    case Str(s) => s != ""
    case Arr(_) => true
    case Obj(_) => true
  }

  predicate Nullish(v: Value) {
    v.Undefined? || v.Null?
  }

  /** `v?.key` for the data keys the handlers read (none of them is a
      built-in property): the field of an object, `undefined` otherwise. */
  function Get(v: Value, key: string): (r: Value)
    ensures !r.Undefined? ==> v.Obj? && key in v.fields
  {
    if v.Obj? && key in v.fields then v.fields[key] else Undefined
  }

  /** `a || b`. */
  function Or(a: Value, b: Value): (r: Value)
    ensures Truthy(a) ==> r == a
    ensures !Truthy(a) ==> r == b
  {
    if Truthy(a) then a else b
  }

  /** `v.length` as a whole number: strings count UTF-16 code units, arrays
      their items, and an object answers with its own `length` field when
      that is a number. None stands for every other value (`undefined` or
      a field that is not a number). */
  function Length(v: Value): (r: Option<int>)
    ensures v.Str? ==> r == Some(Text.Utf16Length(v.s))
    ensures v.Arr? ==> r == Some(|v.items|)
    ensures v.Obj? ==> (r.Some? <==> "length" in v.fields && v.fields["length"].Num?)
    ensures v.Obj? && r.Some? ==> r.value == v.fields["length"].n
    ensures !(v.Str? || v.Arr? || v.Obj?) ==> r.None?
  {
    match v
    case Str(s) => Some(Text.Utf16Length(s))
    case Arr(items) => Some(|items|)
    case Obj(fields) => if "length" in fields && fields["length"].Num? then Some(fields["length"].n) else None
    case _ => None
  }

  /** `String(v)`, as used by template literals, `toString` and `parseInt`. */
  function Display(v: Value): string
    decreases v
  {
    match v
    case Undefined => "undefined"
    case Null => "null"
    case Bool(b) => if b then "true" else "false"
    case Num(n) => Text.NumberToString(n)
    case Fraction(t) => t
    case Str(s) => s
    case Arr(items) =>
      Text.Join(seq(|items|, i requires 0 <= i < |items| =>
        if Nullish(items[i]) then "" else Display(items[i])), ",")
    case Obj(_) => "[object Object]"
  }

  /** Whether `String(v)` returns rather than throws. An object with its own
      `toString` key (which JSON can only make a non-function) has no
      callable conversion, so `String`, `Number`, `toString()`, a template
      literal and `encodeURIComponent` throw a TypeError on it; an array
      throws when one of its elements does, as it joins them. `Display` is
      the text of a printable value. */
  predicate Printable(v: Value)
    decreases v
  {
    match v
    case Obj(fields) => "toString" !in fields
    case Arr(items) => forall i :: 0 <= i < |items| ==> Printable(items[i])
    case _ => true
  }

  /** Scalars always print; an object prints unless it names its own `toString`. */
  lemma PrintableCases(v: Value)
    ensures !(v.Obj? || v.Arr?) ==> Printable(v)
    ensures v.Obj? ==> (Printable(v) <==> "toString" !in v.fields)
    ensures Printable(Arr([v])) <==> Printable(v)
    ensures !Printable(Obj(map["toString" := v]))
  {
    assert Arr([v]).items[0] == v;
  }

  /** The own enumerable properties that object rest (`{ ...rest } = v`)
      copies: an object's fields, an array's elements and a string's
      characters under their decimal indices, and nothing for a boolean
      or a number. */
  function OwnEntries(v: Value): (r: map<string, Value>)
    ensures v.Obj? ==> r == v.fields
    ensures v.Arr? ==>
      && (forall i :: 0 <= i < |v.items| ==> Text.NatToString(i) in r && r[Text.NatToString(i)] == v.items[i])
      && (forall k :: k in r ==> IndexKey(k, |v.items|))
    ensures v.Str? ==>
      && (forall i :: 0 <= i < |v.s| ==> Text.NatToString(i) in r && r[Text.NatToString(i)] == Str([v.s[i]]))
      && (forall k :: k in r ==> IndexKey(k, |v.s|))
    ensures !(v.Obj? || v.Arr? || v.Str?) ==> r == map[]
  {
    match v
    case Obj(fields) => fields
    case Arr(items) => IndexEntries(items)
    case Str(s) => IndexEntries(seq(|s|, i requires 0 <= i < |s| => Str([s[i]])))
    case _ => map[]
  }

  /** `k` is the decimal text of an index below `n`. */
  predicate IndexKey(k: string, n: int) {
    |k| >= 1 && Text.AllDigits(k) && Text.DigitsValue(k) < n && k == Text.NatToString(Text.DigitsValue(k))
  }

  /** Each element under its decimal index, and nothing else. */
  function IndexEntries(items: seq<Value>): (r: map<string, Value>)
    ensures forall i :: 0 <= i < |items| ==> Text.NatToString(i) in r && r[Text.NatToString(i)] == items[i]
    ensures forall k :: k in r ==> IndexKey(k, |items|)
    decreases |items|
  {
    if |items| == 0 then map[]
    else
      var last := |items| - 1;
      var prefix := IndexEntries(items[..last]);
      forall i | 0 <= i < last
        ensures Text.NatToString(i) != Text.NatToString(last)
        ensures prefix[Text.NatToString(i)] == items[i]
      {
        Text.NatToStringInjective(i, last);
        assert items[..last][i] == items[i];
      }
      assert IndexKey(Text.NatToString(last), |items|);
      prefix[Text.NatToString(last) := items[last]]
  }

  /** An index key is all digits, so it is never a name that starts with a letter. */
  lemma IndexKeyIsDigits(i: nat, name: string)
    requires |name| > 0 && !Text.IsDigit(name[0])
    ensures Text.NatToString(i) != name
  {
  }

  /** `parseInt(v)`: the value is converted to a string first. */
  function ParseIntOf(v: Value): Option<int> {
    Text.ParseInt(Display(v))
  }

  /** `parseInt` of a number goes through `String`: it reads the number
      back below 10^21 in magnitude, and only its signed first digit from
      there on (`parseInt(1e21)` is 1). */
  lemma ParseIntOfNum(n: int)
    ensures ParseIntOf(Num(n)) == Some(Text.Reparse(n))
    ensures -Text.ExponentFrom < n < Text.ExponentFrom ==> ParseIntOf(Num(n)) == Some(n)
    ensures n >= Text.ExponentFrom ==> ParseIntOf(Num(n)) == Some(Text.LeadingDigit(n))
  {
    Text.ParseIntOfNumberToString(n);
  }

  /** A string that `Number` reads as an integer: an optional sign and
      decimal digits, nothing else. */
  function StrictDecimal(t: string): (r: Option<int>)
    ensures r.Some? ==> Text.ParseInt(t) == r
  {
    if |t| > 0 && Text.AllDigits(t) then
      Text.DigitRunAll(t);
      assert t[..|t|] == t;
      assert !Text.IsWhite(t[0]);
      Some(Text.DigitsValue(t))
    else if |t| > 1 && (t[0] == '-' || t[0] == '+') && Text.AllDigits(t[1..]) then
      Text.DigitRunAll(t[1..]);
      assert t[1..][..|t| - 1] == t[1..];
      assert !Text.IsWhite(t[0]);
      var magnitude: int := Text.DigitsValue(t[1..]);
      Some(if t[0] == '-' then -magnitude else magnitude)
    else None
  }

  /** `Number` reads back what `toString` writes. */
  lemma StrictDecimalOfIntToString(n: int)
    ensures StrictDecimal(Text.IntToString(n)) == Some(n)
  {
    var s := Text.IntToString(n);
    if n < 0 {
      assert s[1..] == Text.NatToString(-n);
    }
  }

  /** `Number(v)` as it lands in a JSON body: an integer, a non-integral
      number kept as text, or `null` for NaN. Strings are trimmed; the
      empty string is 0; arrays and objects go through `String()`. */
  function NumberOf(v: Value): (r: Value)
    ensures v.Num? ==> r == v
    ensures v.Null? || v == Bool(false) || v == Str("") ==> r == Num(0)
    ensures v.Obj? || v.Undefined? ==> r == Null
    ensures r.Num? || r.Null? || r.Fraction?
  {
    match v
    case Undefined => Null
    case Null => Num(0)
    case Bool(b) => Num(if b then 1 else 0)
    case Num(_) => v
    case Fraction(_) => v
    case Str(s) => StringNumber(s)
    case Arr(_) => StringNumber(Display(v))
    case Obj(_) => Null
  }

  function StringNumber(s: string): Value {
    var t := Text.Trim(s);
    if t == "" then Num(0)
    else match StrictDecimal(t)
      case Some(n) => Num(n)
      case None => Null
  }

  /** A reply to an outbound `fetch`: the call itself threw, or a status
      with the parsed JSON body (None when the body is not JSON). */
  datatype Remote = NetworkError | Reply(status: int, body: Option<Value>)

  /** `response.ok`. */
  predicate IsOk(status: int) {
    200 <= status <= 299
  }

  /** The reply parsed as JSON and the status was 2xx. */
  predicate OkWithBody(r: Remote) {
    r.Reply? && IsOk(r.status) && r.body.Some?
  }

  /** What a route handler returns: a status and a JSON body. */
  datatype Response = Response(status: int, body: Value)

  /** The `{ message }` body every handler uses for errors. */
  function Message(text: string): (v: Value)
    ensures Get(v, "message") == Str(text)
  {
    Obj(map["message" := Str(text)])
  }

  /** The text a response carries under `message`, when it is a string. */
  function MessageText(r: Response): Option<string> {
    var m := Get(r.body, "message");
    if m.Str? then Some(m.s) else None
  }
}

=== FILE: keys.dfy ===
/** Mapping random bytes onto an alphabet, the step shared by the license-key
    and API-key generators. The bytes stand for what `crypto.getRandomValues`
    fills in. */
module Bytes {
  type byte = x: int | 0 <= x < 256

  /** `Array.from(bytes).map(b => alphabet[b % alphabet.length]).join("")`. */
  function Encode(alphabet: string, bytes: seq<byte>): (r: string)
    requires |alphabet| > 0
    ensures |r| == |bytes|
    ensures forall i :: 0 <= i < |bytes| ==> r[i] == alphabet[bytes[i] % |alphabet|]
    decreases |bytes|
  {
    if |bytes| == 0 then ""
    else [alphabet[bytes[0] % |alphabet|]] + Encode(alphabet, bytes[1..])
  }

  /** Every character of an encoding is drawn from the alphabet. */
  lemma EncodeInAlphabet(alphabet: string, bytes: seq<byte>)
    requires |alphabet| > 0
    ensures forall i :: 0 <= i < |bytes| ==> Encode(alphabet, bytes)[i] in alphabet
  {
  }
}

/** License keys of the form `SQLBots-XXXXXX-XXXX`: the generator, the format
    validator and the batch generator that insists on distinct keys. */
module License {
  import opened Wrappers
  import opened Bytes
  import Lists
  import Text

  /** The key alphabet: A-Z and 2-9 without I and O. */
  const KeyAlphabet: string := "ABCDEFGHJKLMNPQRSTUVWXYZ23456789"
  const KeyPrefix: string := "SQLBots-"

  /** Thirty-two symbols, none of them I, O, 0 or 1. */
  lemma KeyAlphabetShape()
    ensures |KeyAlphabet| == 32
    ensures 'I' !in KeyAlphabet && 'O' !in KeyAlphabet
    ensures '0' !in KeyAlphabet && '1' !in KeyAlphabet
  {
    assert forall i :: 0 <= i < |KeyAlphabet| ==> KeyAlphabet[i] != 'I' && KeyAlphabet[i] != 'O';
    assert forall i :: 0 <= i < |KeyAlphabet| ==> KeyAlphabet[i] != '0' && KeyAlphabet[i] != '1';
  }

  /** Every symbol of the alphabet is in the validator's class `[A-Z2-9]`. */
  lemma KeyAlphabetInClass()
    ensures forall c :: c in KeyAlphabet ==> InKeyClass(c)
  {
    assert forall i :: 0 <= i < |KeyAlphabet| ==> InKeyClass(KeyAlphabet[i]);
  }

  /** `generateRandomString(n)` given the `n` random bytes it draws. */
  function GenerateRandomString(bytes: seq<byte>): (r: string)
    ensures |r| == |bytes|
    ensures forall i :: 0 <= i < |r| ==> r[i] in KeyAlphabet
  {
    EncodeInAlphabet(KeyAlphabet, bytes);
    Encode(KeyAlphabet, bytes)
  }

  /** The ten random bytes one `generateLicenseKey()` call consumes. */
  type KeyDraw = b: seq<byte> | |b| == 10 witness seq(10, i => 0)

  /** `generateLicenseKey()` given its ten random bytes: six for the first
      group, four for the second. */
  function GenerateLicenseKey(bytes: seq<byte>): (k: string)
    requires |bytes| == 10
    ensures |k| == 19 && k[..8] == KeyPrefix && k[14] == '-'
    ensures forall c :: c in k[8..14] || c in k[15..] ==> c in KeyAlphabet
  {
    var first := GenerateRandomString(bytes[..6]);
    var second := GenerateRandomString(bytes[6..]);
    var k := KeyPrefix + first + "-" + second;
    assert k[8..14] == first && k[15..] == second;
    k
  }

  /** A generated key is the prefix, six symbols from the first six bytes, a
      dash and four symbols from the last four: nineteen characters. */
  lemma LicenseKeyLayout(bytes: seq<byte>)
    requires |bytes| == 10
    ensures var k := GenerateLicenseKey(bytes);
      && |k| == 19
      && k[..8] == KeyPrefix && k[14] == '-'
      && (forall i :: 8 <= i < 14 ==> k[i] == KeyAlphabet[bytes[i - 8] % 32])
      && (forall i :: 15 <= i < 19 ==> k[i] == KeyAlphabet[bytes[i - 9] % 32])
  {
    var k := GenerateLicenseKey(bytes);
    assert |KeyAlphabet| == 32;
    var first := GenerateRandomString(bytes[..6]);
    var second := GenerateRandomString(bytes[6..]);
    assert forall i :: 8 <= i < 14 ==> k[i] == first[i - 8];
    assert forall i :: 15 <= i < 19 ==> k[i] == second[i - 15];
  }

  /** The character class `[A-Z2-9]` of the validator's pattern. */
  predicate InKeyClass(c: char) {
    'A' <= c <= 'Z' || '2' <= c <= '9'
  }

  /** `validateLicenseKeyFormat`: the pattern `^SQLBots-[A-Z2-9]{6}-[A-Z2-9]{4}$`. */
  predicate ValidateLicenseKeyFormat(k: string)
    ensures ValidateLicenseKeyFormat(k) ==> forall i :: 8 <= i < |k| ==> k[i] != '0' && k[i] != '1' && !('a' <= k[i] <= 'z')
  {
    && |k| == 19
    && k[..8] == KeyPrefix
    && (forall i :: 8 <= i < 14 ==> InKeyClass(k[i]))
    && k[14] == '-'
    && (forall i :: 15 <= i < 19 ==> InKeyClass(k[i]))
  }

  /** Every key the generator can produce passes the validator. */
  lemma GeneratedKeyValidates(bytes: seq<byte>)
    requires |bytes| == 10
    ensures ValidateLicenseKeyFormat(GenerateLicenseKey(bytes))
  {
    var k := GenerateLicenseKey(bytes);
    KeyAlphabetInClass();
    LicenseKeyLayout(bytes);
    var first := GenerateRandomString(bytes[..6]);
    var second := GenerateRandomString(bytes[6..]);
    forall i | 8 <= i < 14 ensures InKeyClass(k[i]) {
      assert k[i] == first[i - 8];
    }
    forall i | 15 <= i < 19 ensures InKeyClass(k[i]) {
      assert k[i] == second[i - 15];
    }
  }

  /** The validator is looser than the generator: it accepts I and O, which
      the generator never emits. */
  lemma ValidatorAcceptsUngeneratedKey()
    ensures ValidateLicenseKeyFormat("SQLBots-IOIOIO-OIOI")
    ensures forall bytes: seq<byte> | |bytes| == 10 :: GenerateLicenseKey(bytes) != "SQLBots-IOIOIO-OIOI"
  {
    var k := "SQLBots-IOIOIO-OIOI";
    assert k[..8] == KeyPrefix;
    forall bytes: seq<byte> | |bytes| == 10 ensures GenerateLicenseKey(bytes) != k {
      var g := GenerateLicenseKey(bytes);
      assert g[8] == GenerateRandomString(bytes[..6])[0];
      KeyAlphabetShape();
      assert k[8] == 'I';
    }
  }

  /** The keys drawn from a sequence of ten-byte blocks, in order. */
  function KeysOf(draws: seq<KeyDraw>): (keys: seq<string>)
    ensures |keys| == |draws|
  {
    seq(|draws|, i requires 0 <= i < |draws| => GenerateLicenseKey(draws[i]))
  }

  /** The keys of the first `n` draws are the first `n` keys. */
  lemma KeysOfPrefix(draws: seq<KeyDraw>, n: nat)
    requires n <= |draws|
    ensures KeysOf(draws[..n]) == KeysOf(draws)[..n]
  {
  }

  /** Every distinct key drawn passes the validator. */
  lemma DistinctKeysValidate(draws: seq<KeyDraw>)
    ensures forall j :: 0 <= j < |Lists.Dedup(KeysOf(draws))| ==> ValidateLicenseKeyFormat(Lists.Dedup(KeysOf(draws))[j])
  {
    var d := Lists.Dedup(KeysOf(draws));
    forall j | 0 <= j < |d| ensures ValidateLicenseKeyFormat(d[j]) {
      var keys := KeysOf(draws);
      assert d[j] in keys by {
        assert d[j] in d;
      }
      var k :| 0 <= k < |keys| && keys[k] == d[j];
      GeneratedKeyValidates(draws[k]);
    }
  }

  /** The distinct keys of a shorter run of draws begin those of a longer one. */
  lemma DrawMoreKeepsPrefix(draws: seq<KeyDraw>, i: nat, n: nat)
    requires i <= n <= |draws|
    ensures |Lists.Dedup(KeysOf(draws[..i]))| <= |Lists.Dedup(KeysOf(draws[..n]))|
    ensures Lists.Dedup(KeysOf(draws[..n]))[..|Lists.Dedup(KeysOf(draws[..i]))|]
         == Lists.Dedup(KeysOf(draws[..i]))
  {
    var a := KeysOf(draws[..i]);
    var b := KeysOf(draws[..n]);
    assert a + b[i..] == b;
    Lists.DedupPrefix(a, b[i..]);
  }

  /** The attempt budget `count * 100`, read as a number of draws. */
  function MaxAttempts(count: int): nat {
    if count > 0 then count * 100 else 0
  }

  /** The error thrown when the budget runs out. */
  function ShortfallMessage(count: int, attempts: int): string {
    "Failed to generate " + Text.IntToString(count)
    + " unique license keys after " + Text.IntToString(attempts) + " attempts"
  }

  /** `generateMultipleLicenseKeys(count)`. `draws` holds the random bytes of
      successive `generateLicenseKey` calls; `drawn` says how many were used.
      The result is exactly `count` distinct valid keys, the first `count`
      distinct ones drawn, or an error when the attempt budget yields fewer. */
  method GenerateMultipleLicenseKeys(count: int, draws: seq<KeyDraw>)
    returns (r: Result<seq<string>, string>, drawn: nat)
    requires |draws| >= MaxAttempts(count)
    ensures drawn <= MaxAttempts(count)
    ensures r.Success? <==> |Lists.Dedup(KeysOf(draws[..MaxAttempts(count)]))| >= count
    ensures r.Success? ==> |r.value| == (if count > 0 then count else 0)
    ensures r.Success? ==> Lists.Distinct(r.value)
    ensures r.Success? ==> forall i :: 0 <= i < |r.value| ==> ValidateLicenseKeyFormat(r.value[i])
    ensures r.Success? ==> r.value == Lists.Dedup(KeysOf(draws[..drawn]))
    ensures r.Failure? ==> drawn == MaxAttempts(count)
  {
    var keys, i := DrawDistinct(count, draws);
    drawn := i;
    BudgetDecides(draws, count, i);
    if |keys| < count {
      r := Failure(ShortfallMessage(count, count * 100));
    } else {
      DistinctKeysValidate(draws[..i]);
      r := Success(keys);
    }
  }

  /** The loop of `generateMultipleLicenseKeys`: draw keys until `count`
      distinct ones are collected or `count * 100` draws are spent. `keys`
      are the distinct keys of the first `drawn` draws. */
  method DrawDistinct(count: int, draws: seq<KeyDraw>) returns (keys: seq<string>, drawn: nat)
    requires |draws| >= MaxAttempts(count)
    ensures drawn <= MaxAttempts(count)
    ensures keys == Lists.Dedup(KeysOf(draws[..drawn]))
    ensures |keys| <= (if count > 0 then count else 0)
    ensures drawn == MaxAttempts(count) || |keys| >= count
  {
    keys, drawn := CollectDistinct(KeysOf(draws), count, MaxAttempts(count));
    KeysOfPrefix(draws, drawn);
  }

  /** Walks `candidates` in order, keeping each one not yet kept, until
      `count` are kept or `budget` candidates have been looked at. */
  method CollectDistinct(candidates: seq<string>, count: int, budget: nat) returns (keys: seq<string>, used: nat)
    requires budget <= |candidates|
    ensures used <= budget
    ensures keys == Lists.Dedup(candidates[..used])
    ensures |keys| <= (if count > 0 then count else 0)
    ensures used == budget || |keys| >= count
  {
    keys := [];
    used := 0;
    while used < budget && |keys| < count
      invariant used <= budget
      invariant keys == Lists.Dedup(candidates[..used])
      invariant |keys| <= (if count > 0 then count else 0)
    {
      var key := candidates[used];
      assert Lists.Dedup(candidates[..used + 1]) == if key in keys then keys else keys + [key] by {
        assert candidates[..used + 1] == candidates[..used] + [key];
        Lists.DedupSnoc(candidates[..used], key);
      }
      if key !in keys {
        keys := keys + [key];
      }
      used := used + 1;
    }
  }

  /** Once the draws stop — the budget is spent or enough distinct keys
      were found — whether there are enough is what the whole budget would
      give. */
  lemma BudgetDecides(draws: seq<KeyDraw>, count: int, i: nat)
    requires i <= MaxAttempts(count) <= |draws|
    requires i == MaxAttempts(count) || |Lists.Dedup(KeysOf(draws[..i]))| >= count
    ensures |Lists.Dedup(KeysOf(draws[..i]))| >= count
        <==> |Lists.Dedup(KeysOf(draws[..MaxAttempts(count)]))| >= count
  {
    DrawMoreKeepsPrefix(draws, i, MaxAttempts(count));
  }
}

/** `generateApiKey` of lib/user.ts. */
module ApiKey {
  import opened Bytes

  const ApiKeyAlphabet: string := "ABCDEFGHIJKLMNOPQRSTUVWXYZ0123456789"

  /** One draw of `crypto.getRandomValues(new Uint8Array(32))`. */
  type KeyBytes = b: seq<byte> | |b| == 32 witness seq(32, i => 0)

  predicate UpperAlnum(c: char) {
    'A' <= c <= 'Z' || '0' <= c <= '9'
  }

  /** Thirty-six symbols, each an upper-case letter or a digit. */
  lemma ApiKeyAlphabetShape()
    ensures |ApiKeyAlphabet| == 36
    ensures forall c :: c in ApiKeyAlphabet ==> UpperAlnum(c)
  {
    assert forall i :: 0 <= i < |ApiKeyAlphabet| ==> UpperAlnum(ApiKeyAlphabet[i]);
  }

  /** A 32-character key over A-Z and 0-9, character i chosen by byte i. */
  function GenerateApiKey(bytes: seq<byte>): (k: string)
    requires |bytes| == 32
    ensures |k| == 32
    ensures forall i :: 0 <= i < |k| ==> UpperAlnum(k[i])
    ensures forall i :: 0 <= i < |k| ==> k[i] == ApiKeyAlphabet[bytes[i] % 36]
  {
    ApiKeyAlphabetShape();
    EncodeInAlphabet(ApiKeyAlphabet, bytes);
    Encode(ApiKeyAlphabet, bytes)
  }
}

=== FILE: license_page.dfy ===
/** app/license/page.tsx: the pure parts of the licenses page — the list
    filter, the quantity check before a generate request, and the CSV
    export text. */
module LicensePage {
  import opened Wrappers
  import opened Js
  import Text
  import Lists
  import PageFilter
  import Settings
  import Api
  import GenerateLicensesRoute

  /** The fields of a listed license the page reads. */
  datatype License = License(
    id: string, licenseKey: string, status: string, day: int,
    createdAt: string, updatedAt: string)

  function StatusOf(l: License): Option<string> {
    Some(l.status)
  }

  /** The search test: the lowercased key contains the query. */
  predicate KeyHit(l: License, query: string) {
    Text.Contains(Text.ToLower(l.licenseKey), query)
  }

  /** The filter effect over the licenses the list route returned. */
  function Filtered(licenses: seq<License>, statusFilter: string, searchQuery: string): seq<License> {
    PageFilter.Apply(licenses, StatusOf, statusFilter, searchQuery, KeyHit)
  }

  /** A license is listed exactly when its status is the selected one (or
      "All" is selected) and, for a non-blank query, its key contains the
      query up to ASCII case; the list keeps the route's order. */
  lemma FilterKeeps(licenses: seq<License>, statusFilter: string, searchQuery: string, l: License)
    ensures l in Filtered(licenses, statusFilter, searchQuery) <==>
      && l in licenses
      && (statusFilter == "All" || l.status == statusFilter)
      && (Text.Trim(searchQuery) == "" || Text.Contains(Text.ToLower(l.licenseKey), Text.ToLower(searchQuery)))
    ensures Lists.IsSubsequence(Filtered(licenses, statusFilter, searchQuery), licenses)
  {
    PageFilter.ApplyMembers(licenses, StatusOf, statusFilter, searchQuery, KeyHit, l);
    PageFilter.ApplyIsSubsequence(licenses, StatusOf, statusFilter, searchQuery, KeyHit);
  }

  // ---------------------------------------------------------------------
  // Generate

  /** What `handleGenerate` does: a toast, or the request body. */
  datatype GenerateAction = InvalidQuantity | SendGenerate(body: Value)

  /** The quantity must `parseInt` to at least 1; the plan is sent as
      `parseInt(plan)`, which serialises to `null` when it is NaN. There is
      no upper bound on the quantity here. */
  function Generate(quantity: string, plan: string): (r: GenerateAction)
    ensures r.SendGenerate? <==> Text.ParseInt(quantity).Some? && Text.ParseInt(quantity).value >= 1
    ensures r.SendGenerate? ==>
      r.body == Obj(map["quantity" := Num(Text.ParseInt(quantity).value),
                        "day" := Api.NumberJson(Text.ParseInt(plan))])
  {
    var quantityNum := Text.ParseInt(quantity);
    if quantity == "" || quantityNum.None? || quantityNum.value < 1 then InvalidQuantity
    else SendGenerate(Obj(map["quantity" := Num(quantityNum.value), "day" := Api.NumberJson(Text.ParseInt(plan))]))
  }

  /** A request the page sends with a quantity of at most 100 and one of its
      plans passes the generate route's validation, and the route reads
      back the same quantity, and the day as `parseInt` of its text. */
  lemma RouteAcceptsPageOrder(env: Settings.Env, quantity: int, day: int)
    requires 1 <= quantity <= GenerateLicensesRoute.MaxQuantity && day >= 1
    requires Settings.ServerConfigured(env)
    ensures Generate(Text.IntToString(quantity), Text.IntToString(day)).SendGenerate?
    ensures var body := Generate(Text.IntToString(quantity), Text.IntToString(day)).body;
      GenerateLicensesRoute.Validate(env, true, Some(body))
        == Success(GenerateLicensesRoute.Order(quantity, Text.Reparse(day)))
    ensures day < Text.ExponentFrom ==>
      var body := Generate(Text.IntToString(quantity), Text.IntToString(day)).body;
      GenerateLicensesRoute.Validate(env, true, Some(body)) == Success(GenerateLicensesRoute.Order(quantity, day))
  {
    SentOrder(quantity, day);
  }

  /** The page sends quantities above 100. The route refuses them while
      they print as plain digits; from 10^21 on they print in exponent
      form, the route reads only the first digit, and the order passes. */
  lemma RouteRefusesLargeOrder(env: Settings.Env, quantity: int, day: int)
    requires quantity > GenerateLicensesRoute.MaxQuantity && day >= 1
    ensures Generate(Text.IntToString(quantity), Text.IntToString(day)).SendGenerate?
    ensures var body := Generate(Text.IntToString(quantity), Text.IntToString(day)).body;
      quantity < Text.ExponentFrom ==>
        GenerateLicensesRoute.Validate(env, true, Some(body)) == Failure(Api.Fail(400, "Quantity must be between 1 and 100"))
    ensures var body := Generate(Text.IntToString(quantity), Text.IntToString(day)).body;
      quantity >= Text.ExponentFrom ==>
        GenerateLicensesRoute.Validate(env, true, Some(body))
          == if Settings.ServerConfigured(env)
             then Success(GenerateLicensesRoute.Order(Text.LeadingDigit(quantity), Text.Reparse(day)))
             else Failure(Api.Fail(500, Api.ConfigErrorText))
  {
    SentOrder(quantity, day);
    var body := Obj(map["quantity" := Num(quantity), "day" := Num(day)]);
    assert Generate(Text.IntToString(quantity), Text.IntToString(day)).body == body;
    if quantity < Text.ExponentFrom {
      PlainLargeOrderRefused(env, body, quantity);
    } else {
      HugeOrderPasses(env, body, quantity, day);
    }
  }

  lemma HugeOrderPasses(env: Settings.Env, body: Value, quantity: int, day: int)
    requires quantity >= Text.ExponentFrom && day >= 1
    requires Api.BodyReadable(Some(body))
    requires Truthy(Api.Field(Some(body), "quantity")) && Truthy(Api.Field(Some(body), "day"))
    requires Printable(Api.Field(Some(body), "quantity")) && Printable(Api.Field(Some(body), "day"))
    requires ParseIntOf(Api.Field(Some(body), "quantity")) == Some(Text.Reparse(quantity))
    requires ParseIntOf(Api.Field(Some(body), "day")) == Some(Text.Reparse(day))
    ensures GenerateLicensesRoute.Validate(env, true, Some(body))
          == if Settings.ServerConfigured(env)
             then Success(GenerateLicensesRoute.Order(Text.LeadingDigit(quantity), Text.Reparse(day)))
             else Failure(Api.Fail(500, Api.ConfigErrorText))
  {
    assert Text.Reparse(quantity) == Text.LeadingDigit(quantity);
  }

  lemma PlainLargeOrderRefused(env: Settings.Env, body: Value, quantity: int)
    requires GenerateLicensesRoute.MaxQuantity < quantity < Text.ExponentFrom
    requires Api.BodyReadable(Some(body))
    requires Truthy(Api.Field(Some(body), "quantity")) && Truthy(Api.Field(Some(body), "day"))
    requires Printable(Api.Field(Some(body), "quantity")) && Printable(Api.Field(Some(body), "day"))
    requires ParseIntOf(Api.Field(Some(body), "quantity")) == Some(Text.Reparse(quantity))
    ensures GenerateLicensesRoute.Validate(env, true, Some(body)) == Failure(Api.Fail(400, "Quantity must be between 1 and 100"))
  {
  }

  /** The body the page sends for decimal quantity and plan texts, and how
      the route reads its two fields. */
  lemma SentOrder(quantity: int, day: int)
    requires quantity >= 1 && day >= 1
    ensures var body := Obj(map["quantity" := Num(quantity), "day" := Num(day)]);
      && Generate(Text.IntToString(quantity), Text.IntToString(day)) == SendGenerate(body)
      && Api.BodyReadable(Some(body))
      && Truthy(Api.Field(Some(body), "quantity")) && Truthy(Api.Field(Some(body), "day"))
      && Printable(Api.Field(Some(body), "quantity")) && Printable(Api.Field(Some(body), "day"))
      && ParseIntOf(Api.Field(Some(body), "quantity")) == Some(Text.Reparse(quantity))
      && ParseIntOf(Api.Field(Some(body), "day")) == Some(Text.Reparse(day))
  {
    SentBody(quantity, day);
    ReadBack(quantity, day);
  }

  lemma ReadBack(quantity: int, day: int)
    requires quantity >= 1 && day >= 1
    ensures var body := Obj(map["quantity" := Num(quantity), "day" := Num(day)]);
      && Api.BodyReadable(Some(body))
      && Truthy(Api.Field(Some(body), "quantity")) && Truthy(Api.Field(Some(body), "day"))
      && Printable(Api.Field(Some(body), "quantity")) && Printable(Api.Field(Some(body), "day"))
      && ParseIntOf(Api.Field(Some(body), "quantity")) == Some(Text.Reparse(quantity))
      && ParseIntOf(Api.Field(Some(body), "day")) == Some(Text.Reparse(day))
  {
    var body := Obj(map["quantity" := Num(quantity), "day" := Num(day)]);
    assert Api.BodyReadable(Some(body));
    ReadField(body, "quantity", quantity);
    ReadField(body, "day", day);
  }

  /** A positive whole number stored under `key` reads back as itself
      below 10^21, and as its first digit from there on. */
  lemma ReadField(body: Value, key: string, n: int)
    requires n >= 1 && body.Obj? && key in body.fields && body.fields[key] == Num(n)
    ensures Truthy(Api.Field(Some(body), key)) && Printable(Api.Field(Some(body), key))
    ensures ParseIntOf(Api.Field(Some(body), key)) == Some(Text.Reparse(n))
  {
    assert Api.Field(Some(body), key) == Num(n);
    ParseIntOfNum(n);
  }

  lemma SentBody(quantity: int, day: int)
    requires quantity >= 1 && day >= 1
    ensures Generate(Text.IntToString(quantity), Text.IntToString(day))
         == SendGenerate(Obj(map["quantity" := Num(quantity), "day" := Num(day)]))
  {
    var q := Text.IntToString(quantity);
    var d := Text.IntToString(day);
    Text.ParseIntOfIntToString(quantity);
    Text.ParseIntOfIntToString(day);
    assert Api.NumberJson(Text.ParseInt(d)) == Num(day);
    assert Generate(q, d).SendGenerate?;
  }

  // ---------------------------------------------------------------------
  // CSV export

  const CsvHeaders: seq<string> := ["License Key", "Status", "Days", "Created At", "Updated At"]

  /** `"${cell}"`: wrapped in double quotes, nothing escaped. */
  function Quote(cell: string): (r: string)
    ensures |r| == |cell| + 2 && r[0] == '"' && r[|r| - 1] == '"'
    ensures r[1..|r| - 1] == cell
  {
    "\"" + cell + "\""
  }

  /** The five cells of a license's row. `locale` is `toLocaleString` of the
      date parsed from the stored timestamp. */
  function Cells(l: License, locale: string -> string): (r: seq<string>)
    ensures |r| == |CsvHeaders|
  {
    [l.licenseKey, l.status, Text.NumberToString(l.day), locale(l.createdAt), locale(l.updatedAt)]
  }

  function QuoteAll(cells: seq<string>): (r: seq<string>)
    ensures |r| == |cells|
    ensures forall i :: 0 <= i < |r| ==> r[i] == Quote(cells[i])
  {
    seq(|cells|, i requires 0 <= i < |cells| => Quote(cells[i]))
  }

  function Row(l: License, locale: string -> string): string {
    Text.Join(QuoteAll(Cells(l, locale)), ",")
  }

  function Rows(licenses: seq<License>, locale: string -> string): (r: seq<string>)
    ensures |r| == |licenses|
    ensures forall i :: 0 <= i < |r| ==> r[i] == Row(licenses[i], locale)
  {
    seq(|licenses|, i requires 0 <= i < |licenses| => Row(licenses[i], locale))
  }

  /** `handleExportLicenses`: the unquoted header line, then one line per
      listed license, joined by newlines. */
  function Csv(licenses: seq<License>, locale: string -> string): (r: string)
    ensures |licenses| == 0 ==> r == Text.Join(CsvHeaders, ",")
    ensures Text.StartsWith(r, Text.Join(CsvHeaders, ","))
  {
    Text.Join([Text.Join(CsvHeaders, ",")] + Rows(licenses, locale), "\n")
  }

  /** A license none of whose cells holds a newline. */
  predicate SingleLine(l: License, locale: string -> string) {
    forall i :: 0 <= i < |Cells(l, locale)| ==> '\n' !in Cells(l, locale)[i]
  }

  /** A license none of whose cells holds a comma. */
  predicate CommaFree(l: License, locale: string -> string) {
    forall i :: 0 <= i < |Cells(l, locale)| ==> ',' !in Cells(l, locale)[i]
  }

  /** When no cell holds a newline, the export has the header line and then
      exactly one line per license, in the list's order. */
  lemma CsvLines(licenses: seq<License>, locale: string -> string)
    requires forall k :: 0 <= k < |licenses| ==> SingleLine(licenses[k], locale)
    ensures Text.Split(Csv(licenses, locale), '\n') == [Text.Join(CsvHeaders, ",")] + Rows(licenses, locale)
    ensures |Text.Split(Csv(licenses, locale), '\n')| == |licenses| + 1
  {
    var lines := [Text.Join(CsvHeaders, ",")] + Rows(licenses, locale);
    JoinWithout(CsvHeaders, ",", '\n');
    forall k | 0 <= k < |licenses| ensures '\n' !in Row(licenses[k], locale) {
      RowWithout(licenses[k], locale, '\n');
    }
    assert forall i :: 0 <= i < |lines| ==> '\n' !in lines[i] by {
      forall i | 0 <= i < |lines| ensures '\n' !in lines[i] {
        if i > 0 {
          assert lines[i] == Row(licenses[i - 1], locale);
        }
      }
    }
    assert "\n" == ['\n'];
    Text.SplitJoin(lines, '\n');
  }

  /** When no cell holds a comma, splitting a data line at commas gives back
      the five quoted cells. */
  lemma RowCells(l: License, locale: string -> string)
    requires CommaFree(l, locale)
    ensures Text.Split(Row(l, locale), ',') == QuoteAll(Cells(l, locale))
    ensures |Text.Split(Row(l, locale), ',')| == |CsvHeaders|
  {
    var quoted := QuoteAll(Cells(l, locale));
    forall i | 0 <= i < |quoted| ensures ',' !in quoted[i] {
      QuoteWithout(Cells(l, locale)[i], ',');
    }
    assert "," == [','];
    Text.SplitJoin(quoted, ',');
  }

  /** Quoting adds no character other than `"`. */
  lemma QuoteWithout(cell: string, c: char)
    requires c != '"' && c !in cell
    ensures c !in Quote(cell)
  {
    var q := Quote(cell);
    forall i | 0 <= i < |q| ensures q[i] != c {
      if 0 < i < |q| - 1 {
        assert q[i] == cell[i - 1];
      }
    }
  }

  /** A line joined from cells that lack `c` (neither a quote nor a comma)
      lacks `c`. */
  lemma RowWithout(l: License, locale: string -> string, c: char)
    requires c != '"' && c != ','
    requires forall i :: 0 <= i < |Cells(l, locale)| ==> c !in Cells(l, locale)[i]
    ensures c !in Row(l, locale)
  {
    var quoted := QuoteAll(Cells(l, locale));
    forall i | 0 <= i < |quoted| ensures c !in quoted[i] {
      QuoteWithout(Cells(l, locale)[i], c);
    }
    JoinWithout(quoted, ",", c);
  }

  lemma {:induction false} JoinWithout(parts: seq<string>, sep: string, c: char)
    requires c !in sep
    requires forall i :: 0 <= i < |parts| ==> c !in parts[i]
    ensures c !in Text.Join(parts, sep)
    decreases |parts|
  {
    if |parts| > 1 {
      JoinWithout(parts[1..], sep, c);
      assert Text.Join(parts, sep) == parts[0] + sep + Text.Join(parts[1..], sep);
    }
  }
}

=== FILE: license_routes.dfy ===
/** app/api/licenses/generate/route.ts: bulk license creation. */
module GenerateLicensesRoute {
  import opened Wrappers
  import opened Js
  import Settings
  import Api
  import License
  import Lists
  import Text

  const CatchAllText: string := "An error occurred while generating licenses"
  const MaxQuantity: int := 100

  /** The parsed request: how many keys, and their duration in days. */
  datatype Order = Order(quantity: int, day: int)

  predicate QuantityOk(q: Option<int>) {
    q.Some? && 1 <= q.value <= MaxQuantity
  }

  predicate DayOk(d: Option<int>) {
    d.Some? && d.value >= 1
  }

  /** The checks in order: the session first, then the body, then the two numbers,
      and the configuration last. */
  function Validate(env: Settings.Env, authed: bool, body: Option<Value>): (r: Result<Order, Response>)
    ensures !authed ==> r == Failure(Api.Fail(401, Api.UnauthorizedText))
    ensures authed && !Api.BodyReadable(body) ==> r == Failure(Api.Fail(500, CatchAllText))
    ensures authed && Api.BodyReadable(body)
            && !(Truthy(Api.Field(body, "quantity")) && Truthy(Api.Field(body, "day"))) ==>
      r == Failure(Api.Fail(400, "Quantity and day are required"))
    ensures authed && Api.BodyReadable(body) && Truthy(Api.Field(body, "quantity")) && Truthy(Api.Field(body, "day"))
            && !(Printable(Api.Field(body, "quantity")) && Printable(Api.Field(body, "day"))) ==>
      r == Failure(Api.Fail(500, CatchAllText))
    ensures authed && Api.BodyReadable(body) && Truthy(Api.Field(body, "quantity")) && Truthy(Api.Field(body, "day"))
            && Printable(Api.Field(body, "quantity")) && Printable(Api.Field(body, "day")) ==>
      && (!QuantityOk(ParseIntOf(Api.Field(body, "quantity"))) ==>
            r == Failure(Api.Fail(400, "Quantity must be between 1 and 100")))
      && (QuantityOk(ParseIntOf(Api.Field(body, "quantity"))) && !DayOk(ParseIntOf(Api.Field(body, "day"))) ==>
            r == Failure(Api.Fail(400, "Day must be a positive integer")))
    ensures r.Success? <==>
      && authed && Api.BodyReadable(body) && Truthy(Api.Field(body, "quantity")) && Truthy(Api.Field(body, "day"))
      && Printable(Api.Field(body, "quantity")) && Printable(Api.Field(body, "day"))
      && QuantityOk(ParseIntOf(Api.Field(body, "quantity"))) && DayOk(ParseIntOf(Api.Field(body, "day")))
      && Settings.ServerConfigured(env)
    ensures r.Success? ==>
      && Some(r.value.quantity) == ParseIntOf(Api.Field(body, "quantity"))
      && Some(r.value.day) == ParseIntOf(Api.Field(body, "day"))
      && 1 <= r.value.quantity <= MaxQuantity && r.value.day >= 1
  {
    if !authed then Failure(Api.Fail(401, Api.UnauthorizedText))
    else if !Api.BodyReadable(body) then Failure(Api.Fail(500, CatchAllText))
    else
      var quantity := Api.Field(body, "quantity");
      var day := Api.Field(body, "day");
      if !Truthy(quantity) || !Truthy(day) then Failure(Api.Fail(400, "Quantity and day are required"))
      else if !Printable(quantity) || !Printable(day) then Failure(Api.Fail(500, CatchAllText))
      else
        var q := ParseIntOf(quantity);
        var d := ParseIntOf(day);
        if !QuantityOk(q) then Failure(Api.Fail(400, "Quantity must be between 1 and 100"))
        else if !DayOk(d) then Failure(Api.Fail(400, "Day must be a positive integer"))
        else if !Settings.ServerConfigured(env) then Failure(Api.Fail(500, Api.ConfigErrorText))
        else Success(Order(q.value, d.value))
  }

  /** A quantity of 10^21 or more prints in exponent form ("1e+21"), so
      `parseInt` of its text is its first digit, which is in range. */
  lemma HugeQuantityReadsAsLeadingDigit(env: Settings.Env, quantity: int, day: int)
    requires quantity >= Text.ExponentFrom && 1 <= day < Text.ExponentFrom
    requires Settings.ServerConfigured(env)
    ensures Validate(env, true, Some(Obj(map["quantity" := Num(quantity), "day" := Num(day)])))
            == Success(Order(Text.LeadingDigit(quantity), day))
  {
    HugeOrderFields(quantity, day);
  }

  lemma HugeOrderFields(quantity: int, day: int)
    requires quantity >= Text.ExponentFrom && 1 <= day < Text.ExponentFrom
    ensures var b := Some(Obj(map["quantity" := Num(quantity), "day" := Num(day)]));
      && Api.BodyReadable(b) && Truthy(Api.Field(b, "quantity")) && Truthy(Api.Field(b, "day"))
      && ParseIntOf(Api.Field(b, "quantity")) == Some(Text.LeadingDigit(quantity))
      && ParseIntOf(Api.Field(b, "day")) == Some(day)
  {
    var b := Obj(map["quantity" := Num(quantity), "day" := Num(day)]);
    assert Api.Field(Some(b), "quantity") == Num(quantity);
    assert Api.Field(Some(b), "day") == Num(day);
    ParseIntOfNum(quantity);
    ParseIntOfNum(day);
  }

  /** `quantity.toString()` throws on an object with its own `toString`
      key, which the handler's catch answers with a 500, not a 400. */
  lemma ToStringKeyThrows(env: Settings.Env, day: Value)
    requires Truthy(day)
    ensures Validate(env, true, Some(Obj(map["quantity" := Obj(map["toString" := Num(1)]), "day" := day])))
            == Failure(Api.Fail(500, CatchAllText))
  {
    var b := Obj(map["quantity" := Obj(map["toString" := Num(1)]), "day" := day]);
    assert Api.Field(Some(b), "quantity") == Obj(map["toString" := Num(1)]);
    assert Api.Field(Some(b), "day") == day;
  }

  /** A quantity of 0 is falsy, so it is "required" rather than out of range. */
  lemma ZeroQuantityIsMissing(env: Settings.Env, day: Value)
    ensures Validate(env, true, Some(Obj(map["quantity" := Num(0), "day" := day])))
            == Failure(Api.Fail(400, "Quantity and day are required"))
  {
    var b := Obj(map["quantity" := Num(0), "day" := day]);
    assert Api.Field(Some(b), "quantity") == Num(0);
  }

  /** One inserted row per key, in key order. */
  function InsertRows(keys: seq<string>, day: int): (rows: seq<Value>)
    ensures |rows| == |keys|
    ensures forall i :: 0 <= i < |rows| ==>
      && Get(rows[i], "license_key") == Str(keys[i])
      && Get(rows[i], "status") == Str("Inactive")
      && Get(rows[i], "day") == Num(day)
  {
    seq(|keys|, i requires 0 <= i < |keys| =>
      Obj(map["license_key" := Str(keys[i]), "status" := Str("Inactive"), "day" := Num(day)]))
  }

  /** The reply to the insert turned into the response: 409 and other
      refusals have their own texts; a 2xx reply whose body is not JSON, or
      is `null` (whose `length` throws), falls to the catch-all 500. */
  function InsertResponse(quantity: int, insert: Remote): (r: Response)
    ensures insert.Reply? && !IsOk(insert.status) ==>
      r == (if insert.status == 409
            then Api.Fail(409, "One or more license keys already exist. Please try again.")
            else Api.Fail(500, "Failed to save licenses to database. Please try again."))
    ensures r.status == 201 <==> OkWithBody(insert) && !Nullish(insert.body.value)
    ensures r.status == 201 ==>
      && Get(r.body, "message") == Str(SuccessText(quantity))
      && Get(r.body, "licenses") == insert.body.value
      && Get(r.body, "count") == Api.LengthJson(insert.body.value)
    ensures OkWithBody(insert) && Nullish(insert.body.value) ==> r == Api.Fail(500, CatchAllText)
    ensures insert.NetworkError? || (IsOk(insert.status) && insert.body.None?) ==> r == Api.Fail(500, CatchAllText)
    ensures r.status != 201 ==> r.status in {409, 500}
  {
    if insert.Reply? && !IsOk(insert.status) then
      if insert.status == 409 then Api.Fail(409, "One or more license keys already exist. Please try again.")
      else Api.Fail(500, "Failed to save licenses to database. Please try again.")
    else if !OkWithBody(insert) || Nullish(insert.body.value) then Api.Fail(500, CatchAllText)
    else
      var created := insert.body.value;
      Response(201, Obj(map["message" := Str(SuccessText(quantity)), "licenses" := created,
                            "count" := Api.LengthJson(created)]))
  }

  function SuccessText(quantity: int): string {
    "Successfully generated " + Text.IntToString(quantity) + " license(s)"
  }

  /** Enough ten-byte draws for the largest order. */
  predicate DrawsSuffice(draws: seq<License.KeyDraw>) {
    |draws| >= License.MaxAttempts(MaxQuantity)
  }

  /** The rows of an order: `quantity` of them, each an inactive license of
      `day` days whose key passes the validator, no key twice. */
  predicate RowsFulfil(rows: seq<Value>, order: Order) {
    && |rows| == order.quantity
    && (forall i :: 0 <= i < |rows| ==>
          && Get(rows[i], "license_key").Str?
          && License.ValidateLicenseKeyFormat(Get(rows[i], "license_key").s)
          && Get(rows[i], "status") == Str("Inactive")
          && Get(rows[i], "day") == Num(order.day))
    && (forall i, j :: 0 <= i < j < |rows| ==> Get(rows[i], "license_key") != Get(rows[j], "license_key"))
  }

  lemma RowsOfKeysFulfil(keys: seq<string>, order: Order)
    requires |keys| == order.quantity && Lists.Distinct(keys)
    requires forall i :: 0 <= i < |keys| ==> License.ValidateLicenseKeyFormat(keys[i])
    ensures RowsFulfil(InsertRows(keys, order.day), order)
  {
    var rows := InsertRows(keys, order.day);
    forall i, j | 0 <= i < j < |rows| ensures Get(rows[i], "license_key") != Get(rows[j], "license_key") {
      assert keys[i] != keys[j];
    }
  }

  /** `POST /api/licenses/generate`. `draws` are the random bytes of
      successive key draws and `insert` the reply to the bulk insert;
      `rows` is what was sent to it (empty when nothing was sent). */
  method Post(env: Settings.Env, authed: bool, body: Option<Value>, draws: seq<License.KeyDraw>, insert: Remote)
    returns (r: Response, rows: seq<Value>)
    requires DrawsSuffice(draws)
    ensures Validate(env, authed, body).Failure? ==> r == Validate(env, authed, body).error && rows == []
    ensures rows != [] ==>
      && Validate(env, authed, body).Success?
      && RowsFulfil(rows, Validate(env, authed, body).value)
      && r == InsertResponse(Validate(env, authed, body).value.quantity, insert)
    ensures Validate(env, authed, body).Success? && rows == [] ==>
      r == Api.Fail(500, "Failed to generate license keys. Please try again.")
    ensures Validate(env, authed, body).Success? ==>
      var q := Validate(env, authed, body).value.quantity;
      rows != [] <==> |Lists.Dedup(License.KeysOf(draws[..License.MaxAttempts(q)]))| >= q
  {
    var v := Validate(env, authed, body);
    if v.Failure? {
      return v.error, [];
    }
    var order := v.value;
    var keys, _ := License.GenerateMultipleLicenseKeys(order.quantity, draws);
    if keys.Failure? {
      return Api.Fail(500, "Failed to generate license keys. Please try again."), [];
    }
    rows := InsertRows(keys.value, order.day);
    RowsOfKeysFulfil(keys.value, order);
    r := InsertResponse(order.quantity, insert);
  }
}

/** app/api/licenses/route.ts: the license listing through the
    `get_licenses` procedure. */
module LicensesRoute {
  import opened Wrappers
  import opened Js
  import Settings
  import Api
  import Query
  import Text

  const CatchAllText: string := "An error occurred while fetching licenses"

  /** The `searchParams.get` values; None is `null`. */
  datatype LicenseParams = LicenseParams(
    status: Option<string>, limit: Option<string>, offset: Option<string>,
    orderBy: Option<string>, order: Option<string>)

  /** `x || fallback` on a query parameter. */
  function OrDefault(p: Option<string>, fallback: string): (r: string)
    ensures fallback != "" ==> r != ""
    ensures Query.Given(p) ==> r == p.value
    ensures !Query.Given(p) ==> r == fallback
  {
    if Query.Given(p) then p.value else fallback
  }

  /** The five named arguments of the procedure call. */
  function ArgsObject(status: Value, limit: Value, offset: Value, orderBy: string, direction: string): (v: Value)
    ensures v.Obj? && v.fields.Keys == {"p_status", "p_limit", "p_offset", "p_order_by", "p_order_direction"}
    ensures Js.Get(v, "p_status") == status && Js.Get(v, "p_limit") == limit && Js.Get(v, "p_offset") == offset
    ensures Js.Get(v, "p_order_by") == Str(orderBy) && Js.Get(v, "p_order_direction") == Str(direction)
  {
    Obj(map["p_status" := status, "p_limit" := limit, "p_offset" := offset,
            "p_order_by" := Str(orderBy), "p_order_direction" := Str(direction)])
  }

  /** The arguments sent to `get_licenses`. */
  function RpcArgs(p: LicenseParams): (v: Value)
    ensures v.Obj? && v.fields.Keys == {"p_status", "p_limit", "p_offset", "p_order_by", "p_order_direction"}
    ensures Js.Get(v, "p_status").Null? <==> !Query.Given(p.status)
    ensures Js.Get(v, "p_order_by").Str? && Js.Get(v, "p_order_by").s != ""
    ensures Js.Get(v, "p_order_direction").Str? && Js.Get(v, "p_order_direction").s != ""
    ensures !Query.Given(p.limit) ==> Js.Get(v, "p_limit") == Num(100)
    ensures !Query.Given(p.offset) ==> Js.Get(v, "p_offset") == Num(0)
  {
    var status := if Query.Given(p.status) then Str(p.status.value) else Null;
    var limit := Api.NumberJson(if Query.Given(p.limit) then Text.ParseInt(p.limit.value) else Some(100));
    var offset := Api.NumberJson(if Query.Given(p.offset) then Text.ParseInt(p.offset.value) else Some(0));
    ArgsObject(status, limit, offset, OrDefault(p.orderBy, "created_at"), OrDefault(p.order, "desc"))
  }

  /** With no parameters the procedure is asked for the 100 newest licenses
      of any status. */
  lemma RpcDefaults()
    ensures RpcArgs(LicenseParams(None, None, None, None, None)) == Obj(map[
      "p_status" := Null, "p_limit" := Num(100), "p_offset" := Num(0),
      "p_order_by" := Str("created_at"), "p_order_direction" := Str("desc")])
  {
    assert Api.NumberJson(Some(100)) == Num(100) && Api.NumberJson(Some(0)) == Num(0);
  }

  /** Given parameters are passed through, `limit` as a parsed number. */
  lemma RpcPassesGiven(p: LicenseParams)
    ensures Query.Given(p.status) ==> Js.Get(RpcArgs(p), "p_status") == Str(p.status.value)
    ensures Query.Given(p.limit) ==> Js.Get(RpcArgs(p), "p_limit") == Api.NumberJson(Text.ParseInt(p.limit.value))
    ensures Query.Given(p.orderBy) ==> Js.Get(RpcArgs(p), "p_order_by") == Str(p.orderBy.value)
  {
  }

  const LicenseFields: set<string> := {"id", "license_key", "status", "day", "created_at", "updated_at"}

  /** The procedure's rows: `Array.isArray(result) ? result : [result]`. */
  function Rows(result: Value): (rows: seq<Value>)
    ensures result.Arr? ==> rows == result.items
    ensures !result.Arr? ==> rows == [result]
  {
    if result.Arr? then result.items else [result]
  }

  /** The six listed fields of a row and nothing else, so
      `total_count` is dropped. None when the row is `null` or `undefined`
      (reading a field throws). */
  function Project(item: Value): (r: Option<Value>)
    ensures r.Some? <==> !Nullish(item)
    ensures r.Some? ==> r.value.Obj? && r.value.fields.Keys == LicenseFields
    ensures r.Some? ==> forall f :: f in LicenseFields ==> Js.Get(r.value, f) == Js.Get(item, f)
  {
    if Nullish(item) then None
    else Some(Obj(map f | f in LicenseFields :: Js.Get(item, f)))
  }

  predicate AllProjectable(rows: seq<Value>) {
    forall i :: 0 <= i < |rows| ==> !Nullish(rows[i])
  }

  function ProjectAll(rows: seq<Value>): (r: seq<Value>)
    requires AllProjectable(rows)
    ensures |r| == |rows|
    ensures forall i :: 0 <= i < |r| ==> Some(r[i]) == Project(rows[i])
  {
    seq(|rows|, i requires 0 <= i < |rows| => Project(rows[i]).value)
  }

  /** The first row's `total_count` through `Number`, when it
      is defined; otherwise the number of rows. */
  function TotalOf(rows: seq<Value>): (r: Value)
    ensures |rows| > 0 && !Js.Get(rows[0], "total_count").Undefined? ==> r == NumberOf(Js.Get(rows[0], "total_count"))
    ensures (|rows| == 0 || Js.Get(rows[0], "total_count").Undefined?) ==> r == Num(|rows|)
  {
    if |rows| > 0 && !Js.Get(rows[0], "total_count").Undefined? then NumberOf(Js.Get(rows[0], "total_count"))
    else Num(|rows|)
  }

  /** `Number(total_count)` returns: the first row's count, when there is
      one, is `Printable`. */
  predicate TotalReadable(rows: seq<Value>) {
    |rows| == 0 || Printable(Js.Get(rows[0], "total_count"))
  }

  /** `GET /api/licenses`. `remote` answers `RpcArgs(p)`. */
  function Get(env: Settings.Env, authed: bool, remote: Remote): (r: Response)
    ensures !authed ==> r == Api.Fail(401, Api.UnauthorizedText)
    ensures authed && !Settings.ServerConfigured(env) ==> r == Api.Fail(500, Api.ConfigErrorText)
    ensures authed && Settings.ServerConfigured(env) && remote.Reply? && !IsOk(remote.status) ==>
      r == Api.Fail(500, "Failed to fetch licenses. Please try again.")
    ensures authed && Settings.ServerConfigured(env)
            && (remote.NetworkError? || (IsOk(remote.status) && remote.body.None?)) ==>
      r == Api.Fail(500, CatchAllText)
    ensures authed && Settings.ServerConfigured(env) && OkWithBody(remote)
            && !(AllProjectable(Rows(remote.body.value)) && TotalReadable(Rows(remote.body.value))) ==>
      r == Api.Fail(500, CatchAllText)
    ensures r.status == 200 <==>
      && authed && Settings.ServerConfigured(env) && OkWithBody(remote)
      && AllProjectable(Rows(remote.body.value)) && TotalReadable(Rows(remote.body.value))
    ensures r.status == 200 ==>
      var rows := Rows(remote.body.value);
      && Js.Get(r.body, "licenses") == Arr(ProjectAll(rows))
      && Js.Get(r.body, "count") == Num(|rows|)
      && Js.Get(r.body, "total") == TotalOf(rows)
    ensures r.status in {200, 401, 500}
  {
    if !authed then Api.Fail(401, Api.UnauthorizedText)
    else if !Settings.ServerConfigured(env) then Api.Fail(500, Api.ConfigErrorText)
    else if remote.Reply? && !IsOk(remote.status) then Api.Fail(500, "Failed to fetch licenses. Please try again.")
    else if !OkWithBody(remote) then Api.Fail(500, CatchAllText)
    else
      var rows := Rows(remote.body.value);
      if !AllProjectable(rows) || !TotalReadable(rows) then Api.Fail(500, CatchAllText)
      else
        var licenses := ProjectAll(rows);
        Response(200, Obj(map["licenses" := Arr(licenses), "count" := Num(|licenses|),
                              "total" := TotalOf(rows)]))
  }

  /** A single object reply is listed as one license, and its own
      `total_count` is the total. */
  lemma SingleObjectReply(fields: map<string, Value>, n: int)
    requires "total_count" in fields && fields["total_count"] == Num(n)
    ensures Rows(Obj(fields)) == [Obj(fields)]
    ensures TotalOf(Rows(Obj(fields))) == Num(n)
    ensures "total_count" !in Project(Obj(fields)).value.fields
  {
  }

  /** A `total_count` object with its own `toString` key makes `Number`
      throw, and the listing fails with the catch-all 500. */
  lemma UnprintableTotalThrows(env: Settings.Env)
    requires Settings.ServerConfigured(env)
    ensures var row := Obj(map["total_count" := Obj(map["toString" := Null])]);
      Get(env, true, Reply(200, Some(Arr([row])))) == Api.Fail(500, CatchAllText)
  {
    var row := Obj(map["total_count" := Obj(map["toString" := Null])]);
    assert Rows(Arr([row])) == [row];
    assert Js.Get(row, "total_count") == Obj(map["toString" := Null]);
  }
}

=== FILE: lists.dfy ===
/** Order-preserving filtering, subsequences and de-duplication, shared by
    the list pages and the key generators. */
module Lists {

  /** `s.filter(p)`. */
  function Filter<T>(s: seq<T>, p: T -> bool): (r: seq<T>)
    ensures |r| <= |s|
    ensures forall i :: 0 <= i < |r| ==> p(r[i])
    decreases |s|
  {
    if |s| == 0 then []
    else (if p(s[0]) then [s[0]] else []) + Filter(s[1..], p)
  }

  /** An element is kept by the filter exactly when it is in the list and
      satisfies the predicate. */
  lemma {:induction false} FilterMembers<T>(s: seq<T>, p: T -> bool, x: T)
    ensures x in Filter(s, p) <==> x in s && p(x)
    decreases |s|
  {
    if |s| > 0 {
      FilterMembers(s[1..], p, x);
      assert s == [s[0]] + s[1..];
    }
  }

  /** `idx` lists, in increasing order, positions of `b` that spell out `a`. */
  ghost predicate Embeds<T>(idx: seq<int>, a: seq<T>, b: seq<T>) {
    && |idx| == |a|
    && (forall k :: 0 <= k < |idx| ==> 0 <= idx[k] < |b| && a[k] == b[idx[k]])
    && (forall k, l :: 0 <= k < l < |idx| ==> idx[k] < idx[l])
  }

  /** `a` is an order-preserving subsequence of `b`. */
  ghost predicate IsSubsequence<T>(a: seq<T>, b: seq<T>) {
    exists idx :: Embeds(idx, a, b)
  }

  /** The positions of the kept elements witness that a filter is an
      order-preserving subsequence of its input. */
  lemma {:induction false} FilterEmbedding<T>(s: seq<T>, p: T -> bool) returns (idx: seq<int>)
    ensures Embeds(idx, Filter(s, p), s)
    decreases |s|
  {
    if |s| == 0 {
      idx := [];
    } else {
      var tail := FilterEmbedding(s[1..], p);
      var shifted := EmbedShift(tail, Filter(s[1..], p), s);
      if p(s[0]) {
        idx := [0] + shifted;
        EmbedCons(shifted, Filter(s[1..], p), s);
      } else {
        idx := shifted;
      }
    }
  }

  /** Positions in `b[1..]` are positions in `b`, one further on. */
  lemma EmbedShift<T>(tail: seq<int>, a: seq<T>, b: seq<T>) returns (shifted: seq<int>)
    requires |b| > 0 && Embeds(tail, a, b[1..])
    ensures Embeds(shifted, a, b)
    ensures forall k :: 0 <= k < |shifted| ==> shifted[k] > 0
  {
    shifted := seq(|tail|, k requires 0 <= k < |tail| => tail[k] + 1);
    forall k | 0 <= k < |shifted| ensures a[k] == b[shifted[k]] {
      assert b[1..][tail[k]] == b[tail[k] + 1];
    }
  }

  /** Position 0 can be put in front of positions that all come after it. */
  lemma EmbedCons<T>(idx: seq<int>, a: seq<T>, b: seq<T>)
    requires |b| > 0 && Embeds(idx, a, b)
    requires forall k :: 0 <= k < |idx| ==> idx[k] > 0
    ensures Embeds([0] + idx, [b[0]] + a, b)
  {
    var idx' := [0] + idx;
    var a' := [b[0]] + a;
    forall k | 0 <= k < |idx'| ensures 0 <= idx'[k] < |b| && a'[k] == b[idx'[k]] {
      if k > 0 {
        assert idx'[k] == idx[k - 1] && a'[k] == a[k - 1];
      }
    }
    forall k, l | 0 <= k < l < |idx'| ensures idx'[k] < idx'[l] {
      if k > 0 {
        assert idx'[k] == idx[k - 1] && idx'[l] == idx[l - 1];
      }
    }
  }

  lemma FilterIsSubsequence<T>(s: seq<T>, p: T -> bool)
    ensures IsSubsequence(Filter(s, p), s)
  {
    var idx := FilterEmbedding(s, p);
  }

  /** Filtering twice is filtering once by the conjunction. */
  lemma {:induction false} FilterFilter<T>(s: seq<T>, p: T -> bool, q: T -> bool)
    ensures Filter(Filter(s, p), q) == Filter(s, x => p(x) && q(x))
    decreases |s|
  {
    if |s| > 0 {
      FilterFilter(s[1..], p, q);
      var head: seq<T> := if p(s[0]) then [s[0]] else [];
      FilterAppend(head, Filter(s[1..], p), q);
    }
  }

  lemma {:induction false} FilterAppend<T>(a: seq<T>, b: seq<T>, p: T -> bool)
    ensures Filter(a + b, p) == Filter(a, p) + Filter(b, p)
    decreases |a|
  {
    if |a| > 0 {
      FilterAppend(a[1..], b, p);
      assert (a + b)[1..] == a[1..] + b;
    } else {
      assert a + b == b;
    }
  }

  /** Every element of `s` occurs once. */
  predicate Distinct<T(==)>(s: seq<T>) {
    forall i, j :: 0 <= i < j < |s| ==> s[i] != s[j]
  }

  /** The elements of `s` in order of first occurrence, as `Array.from(new Set(s))`. */
  function Dedup<T(==,!new)>(s: seq<T>): (r: seq<T>)
    ensures Distinct(r)
    ensures |r| <= |s|
    ensures forall x :: x in r <==> x in s
    decreases |s|
  {
    if |s| == 0 then []
    else
      var init := s[..|s| - 1];
      var last := s[|s| - 1];
      var d := Dedup(init);
      assert s == init + [last];
      if last in d then d else d + [last]
  }

  /** Appending one element extends the de-duplicated list by it exactly
      when it is new. */
  lemma DedupSnoc<T(!new)>(s: seq<T>, x: T)
    ensures Dedup(s + [x]) == if x in Dedup(s) then Dedup(s) else Dedup(s) + [x]
  {
    assert (s + [x])[..|s|] == s;
  }

  /** Drawing more only ever appends to the de-duplicated list. */
  lemma {:induction false} DedupPrefix<T(!new)>(s: seq<T>, t: seq<T>)
    ensures |Dedup(s)| <= |Dedup(s + t)|
    ensures Dedup(s + t)[..|Dedup(s)|] == Dedup(s)
    decreases |t|
  {
    if |t| == 0 {
      assert s + t == s;
    } else {
      var u := t[..|t| - 1];
      DedupPrefix(s, u);
      assert (s + t)[..|s + t| - 1] == s + u;
    }
  }
}

=== FILE: machine_page.dfy ===
/** app/machine/page.tsx: the pure parts of the machines page — the list
    filter and the fallbacks used when a machine's date, status or name is
    missing. */
module MachinePage {
  import opened Wrappers
  import Text
  import Lists
  import PageFilter

  /** The fields of a listed machine the page reads; None is `null`. */
  datatype Machine = Machine(
    id: string, name: Option<string>, ip: Option<string>, status: Option<string>,
    lastHeartbeat: Option<string>, createdAt: Option<string>)

  function StatusOf(m: Machine): Option<string> {
    m.status
  }

  /** `field?.toLowerCase().includes(query)`: false when the field is null. */
  predicate FieldHit(field: Option<string>, query: string) {
    field.Some? && Text.Contains(Text.ToLower(field.value), query)
  }

  /** The search test: the name matches, or failing that the IP does. */
  predicate NameOrIpHit(m: Machine, query: string) {
    FieldHit(m.name, query) || FieldHit(m.ip, query)
  }

  /** The filter effect over the machines the list route returned. */
  function Filtered(machines: seq<Machine>, statusFilter: string, searchQuery: string): seq<Machine> {
    PageFilter.Apply(machines, StatusOf, statusFilter, searchQuery, NameOrIpHit)
  }

  /** A machine is listed exactly when its status is the selected one (or
      "All" is selected) and, for a non-blank query, its name or its IP
      contains the query up to ASCII case; the list keeps the route's order. */
  lemma FilterKeeps(machines: seq<Machine>, statusFilter: string, searchQuery: string, m: Machine)
    ensures m in Filtered(machines, statusFilter, searchQuery) <==>
      && m in machines
      && (statusFilter == "All" || m.status == Some(statusFilter))
      && (Text.Trim(searchQuery) == ""
          || (m.name.Some? && Text.Contains(Text.ToLower(m.name.value), Text.ToLower(searchQuery)))
          || (m.ip.Some? && Text.Contains(Text.ToLower(m.ip.value), Text.ToLower(searchQuery))))
    ensures Lists.IsSubsequence(Filtered(machines, statusFilter, searchQuery), machines)
  {
    PageFilter.ApplyMembers(machines, StatusOf, statusFilter, searchQuery, NameOrIpHit, m);
    PageFilter.ApplyIsSubsequence(machines, StatusOf, statusFilter, searchQuery, NameOrIpHit);
  }

  /** A machine without a status is hidden whenever a status is selected. */
  lemma NullStatusHidden(machines: seq<Machine>, statusFilter: string, searchQuery: string, m: Machine)
    requires m.status.None? && statusFilter != "All"
    ensures m !in Filtered(machines, statusFilter, searchQuery)
  {
    FilterKeeps(machines, statusFilter, searchQuery, m);
  }

  // ---------------------------------------------------------------------
  // Fallbacks

  /** `value || fallback` on a nullable string: null and "" fall back. */
  function OrElse(value: Option<string>, fallback: string): (r: string)
    ensures value.Some? && value.value != "" ==> r == value.value
    ensures value.None? || value == Some("") ==> r == fallback
    ensures fallback != "" ==> r != ""
  {
    if value.Some? && value.value != "" then value.value else fallback
  }

  const NoDate: string := "N/A"
  const UnknownStatus: string := "Unknown"
  const Unnamed: string := "Unnamed Machine"
  const ActiveStatus: string := "Active"

  /** `formatDate`: "N/A" for a missing date, otherwise `toLocaleString` of
      the parsed date, given here as `locale`. */
  function FormatDate(date: Option<string>, locale: string -> string): (r: string)
    ensures date.None? || date == Some("") ==> r == NoDate
    ensures date.Some? && date.value != "" ==> r == locale(date.value)
  {
    if date.None? || date.value == "" then NoDate else locale(date.value)
  }

  /** `getStatusBadge`: the highlighted badge for "Active", otherwise the
      plain badge labelled with the status or "Unknown". */
  datatype Badge = Badge(highlighted: bool, caption: string)

  function StatusBadge(status: Option<string>): (r: Badge)
    ensures r.highlighted <==> status == Some(ActiveStatus)
    ensures r.caption != ""
    ensures status.Some? && status.value != "" ==> r.caption == status.value
    ensures status.None? || status == Some("") ==> r.caption == UnknownStatus
  {
    if status == Some(ActiveStatus) then Badge(true, ActiveStatus)
    else Badge(false, OrElse(status, UnknownStatus))
  }

  /** The name shown in the table and in the delete dialog. */
  function DisplayName(m: Machine): (r: string)
    ensures r != ""
    ensures m.name.Some? && m.name.value != "" ==> r == m.name.value
    ensures m.name.None? || m.name == Some("") ==> r == Unnamed
  {
    OrElse(m.name, Unnamed)
  }

  /** The locale is consulted only for a present date: two renderings of
      the same date agree exactly when the date is missing or the two
      locales render it alike. */
  lemma FormatDateUsesLocaleOnlyForPresentDates(date: Option<string>, l1: string -> string, l2: string -> string)
    ensures FormatDate(date, l1) == FormatDate(date, l2) <==>
      date.None? || date == Some("") || l1(date.value) == l2(date.value)
  {
  }

  /** Feeding a badge's caption back in gives the same badge, and a
      missing status shows exactly like the status "Unknown". */
  lemma StatusBadgeStable(status: Option<string>)
    ensures StatusBadge(Some(StatusBadge(status).caption)) == StatusBadge(status)
    ensures StatusBadge(None) == StatusBadge(Some(UnknownStatus))
  {
  }

  /** Naming a machine by its shown name changes nothing on screen, and a
      nameless machine shows exactly like one named "Unnamed Machine". */
  lemma DisplayNameStable(m: Machine)
    ensures DisplayName(m.(name := Some(DisplayName(m)))) == DisplayName(m)
    ensures DisplayName(m.(name := None)) == DisplayName(m.(name := Some(Unnamed)))
  {
  }
}

=== FILE: machines_route.dfy ===
/** app/api/machines/route.ts: the machine listing, built like the user
    listing but searching name and IP through one `or=` filter. */
module MachinesRoute {
  import opened Wrappers
  import opened Js
  import Settings
  import opened Query
  import Text

  const ListBase: string :=
    "/rest/v1/machines?select=id,user_id,apikey,ram,core,ip,status,last_heartbeat,created_at,updated_at,name,users(username)&order=created_at.desc"
  const CountBase: string := "/rest/v1/machines?select=id&head=true"
  const FetchFailedText: string := "Failed to fetch machines"

  datatype ListParams = ListParams(
    status: Option<string>, search: Option<string>, limit: Option<string>, offset: Option<string>)

  /** The `or=` value: name or IP matching the encoded `%search%`. */
  function SearchFilter(search: string, enc: string -> string): string {
    var pattern := enc("%" + search + "%");
    "(name.ilike." + pattern + ",ip.ilike." + pattern + ")"
  }

  function Filters(p: ListParams, enc: string -> string): (ps: seq<Param>)
    ensures forall i :: 0 <= i < |ps| ==> ps[i].key in {"status", "or"}
  {
    StatusFilter(p.status, enc)
    + (if Given(p.search) then [Param("or", SearchFilter(p.search.value, enc))] else [])
  }

  function ListParamsOf(p: ListParams, enc: string -> string): seq<Param> {
    Filters(p, enc) + Paging(p.limit, p.offset)
  }

  function CountParamsOf(p: ListParams, enc: string -> string): seq<Param> {
    Filters(p, enc)
  }

  /** The data query: the fixed base, then the filter and paging
      parameters, which the server reads back in order. */
  function ListUrl(url: string, p: ListParams, enc: string -> string): (r: string)
    ensures Text.StartsWith(r, url + ListBase)
    ensures AllSeparable(ListParamsOf(p, enc)) ==> ReadParams(r[|url + ListBase|..]) == ListParamsOf(p, enc)
  {
    AppendedReadsBack(url + ListBase, ListParamsOf(p, enc));
    url + ListBase + Render(ListParamsOf(p, enc))
  }

  /** The count query: the same filters, and no paging. */
  function CountUrl(url: string, p: ListParams, enc: string -> string): (r: string)
    ensures Text.StartsWith(r, url + CountBase)
    ensures AllSeparable(CountParamsOf(p, enc)) ==> ReadParams(r[|url + CountBase|..]) == CountParamsOf(p, enc)
  {
    AppendedReadsBack(url + CountBase, CountParamsOf(p, enc));
    url + CountBase + Render(CountParamsOf(p, enc))
  }

  /** The status filter only when given and not "All"; one `or` filter
      naming both columns only when a search is given. */
  lemma {:induction false} FilterParameters(p: ListParams, enc: string -> string)
    ensures Lookup(Filters(p, enc), "status") ==
      (if StatusFilterActive(p.status) then ["eq." + enc(p.status.value)] else [])
    ensures Lookup(Filters(p, enc), "or") ==
      (if Given(p.search) then [SearchFilter(p.search.value, enc)] else [])
    ensures Lookup(Filters(p, enc), "limit") == [] && Lookup(Filters(p, enc), "offset") == []
  {
    var s := StatusFilter(p.status, enc);
    var o := if Given(p.search) then [Param("or", SearchFilter(p.search.value, enc))] else [];
    LookupAppend(s, o, "status");
    LookupAppend(s, o, "or");
    LookupAppend(s, o, "limit");
    LookupAppend(s, o, "offset");
  }

  /** The count query carries the data query's status and search filters,
      and only the data query pages. */
  lemma {:induction false} CountQueryMatchesList(p: ListParams, enc: string -> string)
    ensures forall key :: key != "limit" && key != "offset" ==>
      Lookup(ListParamsOf(p, enc), key) == Lookup(CountParamsOf(p, enc), key)
    ensures Lookup(ListParamsOf(p, enc), "limit") ==
      [if Given(p.limit) then NumText(Text.ParseInt(p.limit.value)) else "100"]
    ensures Lookup(ListParamsOf(p, enc), "offset") ==
      (if Given(p.offset) then [NumText(Text.ParseInt(p.offset.value))] else [])
    ensures Lookup(CountParamsOf(p, enc), "limit") == [] && Lookup(CountParamsOf(p, enc), "offset") == []
  {
    var f := Filters(p, enc);
    FilterParameters(p, enc);
    forall key | key != "limit" && key != "offset"
      ensures Lookup(ListParamsOf(p, enc), key) == Lookup(CountParamsOf(p, enc), key)
    {
      LookupAppend(f, Paging(p.limit, p.offset), key);
      PagingOnlyPages(p.limit, p.offset, key);
    }
    LookupAppend(f, Paging(p.limit, p.offset), "limit");
    LookupAppend(f, Paging(p.limit, p.offset), "offset");
  }

  /** `GET /api/machines`. `list` answers `ListUrl`, `head` answers `CountUrl`. */
  function Get(env: Settings.Env, authed: bool, list: Remote, head: HeadReply): (r: Response)
    ensures !Settings.ServerConfigured(env) ==> r == Api.Fail(500, Api.ConfigErrorText)
    ensures Settings.ServerConfigured(env) && !authed ==> r == Api.Fail(401, Api.UnauthorizedText)
    ensures Settings.ServerConfigured(env) && authed && r.status != 200 ==> r == Api.Fail(500, FetchFailedText)
    ensures r.status == 200 ==>
      && OkWithBody(list) && !Nullish(list.body.value)
      && Js.Get(r.body, "machines") == list.body.value
      && Js.Get(r.body, "count") == Api.LengthJson(list.body.value)
  {
    ListResponse(env, authed, "machines", FetchFailedText, list, head)
  }
}

=== FILE: middleware.dfy ===
/** middleware.ts: the per-request gate. A path is classified by prefix as
    exempt (auth API and static assets), protected (dashboard pages),
    public-only (the login page) or unclassified; the session is checked for
    every non-exempt path; the gate then passes the request on or redirects. */
module Middleware {
  import opened Wrappers
  import Text
  import Settings
  import Auth

  const ProtectedRoutes: seq<string> :=
    ["/dashboard", "/user", "/license", "/version", "/logs", "/security-logs", "/team-manage"]
  const PublicRoutes: seq<string> := ["/login"]
  const ExemptPrefixes: seq<string> := ["/api/auth", "/_next", "/favicon.ico", "/icon", "/apple-icon"]

  /** `prefixes.some(p => path.startsWith(p))`. */
  predicate StartsWithAny(path: string, prefixes: seq<string>) {
    exists i :: 0 <= i < |prefixes| && Text.StartsWith(path, prefixes[i])
  }

  datatype Class = Exempt | Protected | PublicOnly | Unclassified

  /** The classification in the order the gate applies it: exemption first,
      then the protected prefixes, then the public ones. */
  function Classify(path: string): Class {
    if StartsWithAny(path, ExemptPrefixes) then Exempt
    else if StartsWithAny(path, ProtectedRoutes) then Protected
    else if StartsWithAny(path, PublicRoutes) then PublicOnly
    else Unclassified
  }

  /** `NextResponse.next()` or a redirect to a path with query parameters. */
  datatype Decision = Next | Redirect(location: string, query: seq<(string, string)>)

  /** The redirect to the login page, remembering where the user was going. */
  function LoginRedirect(path: string): Decision {
    Redirect("/login", [("redirect", path)])
  }

  /** `middleware(request)`: `cookies` are the request's cookies and
      `jwtVerify` the token library. */
  function Handle(env: Settings.Env, path: string, cookies: map<string, string>,
                  jwtVerify: (string, string) -> Option<Auth.Claims>): (d: Decision)
    ensures StartsWithAny(path, ExemptPrefixes) ==> d == Next
    ensures var valid := Auth.VerifyAuth(env, cookies, jwtVerify).valid;
      (!StartsWithAny(path, ExemptPrefixes) && StartsWithAny(path, ProtectedRoutes) ==>
        d == (if valid then Next else LoginRedirect(path)))
    ensures var valid := Auth.VerifyAuth(env, cookies, jwtVerify).valid;
      (!StartsWithAny(path, ExemptPrefixes) && StartsWithAny(path, PublicRoutes) ==>
        d == (if valid then Redirect("/dashboard", []) else Next))
    ensures (!StartsWithAny(path, ExemptPrefixes) && !StartsWithAny(path, ProtectedRoutes)
             && !StartsWithAny(path, PublicRoutes)) ==> d == Next
    ensures Auth.VerifyAuth(env, cookies, jwtVerify).valid ==> d != LoginRedirect(path)
  {
    ProtectedAndPublicDisjoint(path);
    match Classify(path)
    case Exempt => Next
    case Protected =>
      var auth := Auth.VerifyAuth(env, cookies, jwtVerify);
      if !auth.valid then LoginRedirect(path) else Next
    case PublicOnly =>
      var auth := Auth.VerifyAuth(env, cookies, jwtVerify);
      if auth.valid then Redirect("/dashboard", []) else Next
    case Unclassified => Next
  }

  /** Two prefixes that differ at some position cannot both start a path. */
  lemma DivergentPrefixes(path: string, p: string, q: string, k: nat)
    requires k < |p| && k < |q| && p[k] != q[k]
    ensures !(Text.StartsWith(path, p) && Text.StartsWith(path, q))
  {
  }

  /** No path is both protected and public-only, so the order of the two
      tests never matters. */
  lemma ProtectedAndPublicDisjoint(path: string)
    ensures !(StartsWithAny(path, ProtectedRoutes) && StartsWithAny(path, PublicRoutes))
  {
    if StartsWithAny(path, ProtectedRoutes) && StartsWithAny(path, PublicRoutes) {
      var i :| 0 <= i < |ProtectedRoutes| && Text.StartsWith(path, ProtectedRoutes[i]);
      var j :| 0 <= j < |PublicRoutes| && Text.StartsWith(path, PublicRoutes[j]);
      var login := PublicRoutes[j];
      assert login == "/login";
      var p := ProtectedRoutes[i];
      var k: nat := if p == "/license" then 2 else if p == "/logs" then 4 else 1;
      assert p[k] != login[k];
      DivergentPrefixes(path, p, login, k);
      assert false;
    }
  }

  /** Protection is a prefix test: anything extending a protected route is
      protected too. */
  lemma ExtensionIsProtected(route: string, suffix: string)
    requires route in ProtectedRoutes
    ensures StartsWithAny(route + suffix, ProtectedRoutes)
  {
    var i :| 0 <= i < |ProtectedRoutes| && ProtectedRoutes[i] == route;
    assert (route + suffix)[..|route|] == route;
  }

  /** The dashboard without a session goes to the login page, which is told to
      send the user back. */
  lemma DashboardWithoutCookie(env: Settings.Env, jwtVerify: (string, string) -> Option<Auth.Claims>)
    ensures Handle(env, "/dashboard", map[], jwtVerify) == Redirect("/login", [("redirect", "/dashboard")])
  {
    assert Text.StartsWith("/dashboard", ProtectedRoutes[0]);
    assert !StartsWithAny("/dashboard", ExemptPrefixes) by {
      forall i | 0 <= i < |ExemptPrefixes| ensures !Text.StartsWith("/dashboard", ExemptPrefixes[i]) {
        assert ExemptPrefixes[i][1] != "/dashboard"[1];
        DivergentPrefixes("/dashboard", ExemptPrefixes[i], "/dashboard", 1);
      }
    }
  }

  /** The auth API is never gated, whatever the cookies say. */
  lemma AuthApiNeverGated(env: Settings.Env, rest: string, cookies: map<string, string>,
                          jwtVerify: (string, string) -> Option<Auth.Claims>)
    ensures Handle(env, "/api/auth" + rest, cookies, jwtVerify) == Next
  {
    assert ("/api/auth" + rest)[..|"/api/auth"|] == "/api/auth";
    assert Text.StartsWith("/api/auth" + rest, ExemptPrefixes[0]);
  }
}

=== FILE: notifications_route.dfy ===
/** app/api/notifications/route.ts: one message sent to one user or to
    every user. */
module NotificationsRoute {
  import opened Wrappers
  import opened Js
  import Settings
  import Api
  import Text

  const MaxMessageLength: int := 500
  const CatchAllText: string := "Failed to send notification."

  /** The checks in order: configuration, session, body, then the message: a
      string that is not blank once trimmed, at most 500 UTF-16 code units
      after trimming. The result is the trimmed text. */
  function Validate(env: Settings.Env, authed: bool, body: Option<Value>): (r: Result<string, Response>)
    ensures !Settings.ServerConfigured(env) ==> r == Failure(Api.Fail(500, Api.ConfigErrorText))
    ensures Settings.ServerConfigured(env) && !authed ==> r == Failure(Api.Fail(401, Api.UnauthorizedText))
    ensures Settings.ServerConfigured(env) && authed && !Api.BodyReadable(body) ==> r == Failure(Api.Fail(500, CatchAllText))
    ensures Settings.ServerConfigured(env) && authed && Api.BodyReadable(body) ==>
      && (!Api.Field(body, "message").Str? || Text.Trim(Api.Field(body, "message").s) == "" ==>
            r == Failure(Api.Fail(400, "Notification message is required.")))
      && (Api.Field(body, "message").Str? && Text.Utf16Length(Text.Trim(Api.Field(body, "message").s)) > MaxMessageLength ==>
            r == Failure(Api.Fail(400, "Notification message is too long (max 500 characters).")))
    ensures r.Success? <==>
      && Settings.ServerConfigured(env) && authed && Api.BodyReadable(body) && Api.Field(body, "message").Str?
      && Text.Trim(Api.Field(body, "message").s) != ""
      && Text.Utf16Length(Text.Trim(Api.Field(body, "message").s)) <= MaxMessageLength
    ensures r.Success? ==> r.value == Text.Trim(Api.Field(body, "message").s)
  {
    if !Settings.ServerConfigured(env) then Failure(Api.Fail(500, Api.ConfigErrorText))
    else if !authed then Failure(Api.Fail(401, Api.UnauthorizedText))
    else if !Api.BodyReadable(body) then Failure(Api.Fail(500, CatchAllText))
    else
      var message := Api.Field(body, "message");
      if !Truthy(message) || !message.Str? || Text.Trim(message.s) == "" then
        Failure(Api.Fail(400, "Notification message is required."))
      else if Text.Utf16Length(Text.Trim(message.s)) > MaxMessageLength then
        Failure(Api.Fail(400, "Notification message is too long (max 500 characters)."))
      else Success(Text.Trim(message.s))
  }

  /** The bound applies after trimming and is inclusive: a message whose
      trimmed text has exactly 500 code units is accepted, however much
      whitespace surrounds it. */
  lemma LengthCountsTrimmedText(env: Settings.Env, message: string)
    requires Settings.ServerConfigured(env)
    requires Text.Utf16Length(Text.Trim(message)) == MaxMessageLength
    ensures Validate(env, true, Some(Obj(map["message" := Str(message)]))) == Success(Text.Trim(message))
  {
    var body := Some(Obj(map["message" := Str(message)]));
    assert Api.BodyReadable(body);
    assert Api.Field(body, "message") == Str(message);
    assert Text.Utf16Length("") == 0;
  }

  /** The bound counts code units, not characters: 251 to 500 characters
      outside the Basic Multilingual Plane make a message that is too long. */
  lemma AstralCharactersCountTwice(env: Settings.Env, message: string)
    requires Settings.ServerConfigured(env)
    requires MaxMessageLength / 2 < |message| <= MaxMessageLength
    requires forall i :: 0 <= i < |message| ==> Text.Astral(message[i])
    ensures Validate(env, true, Some(Obj(map["message" := Str(message)])))
         == Failure(Api.Fail(400, "Notification message is too long (max 500 characters)."))
  {
    var body := Some(Obj(map["message" := Str(message)]));
    assert Api.Field(body, "message") == Str(message);
    Text.TrimExact(message, 0, |message|);
    assert message[0..|message|] == message;
  }

  /** `trim` removes exactly the padding around a text that neither starts
      nor ends with whitespace. */
  lemma TrimOfPadded(text: string)
    requires |text| > 0 && !Text.IsWhite(text[0]) && !Text.IsWhite(text[|text| - 1])
    ensures Text.Trim(" " + text + " ") == text
  {
    var padded := " " + text + " ";
    assert Text.IsWhite(padded[0]) && Text.IsWhite(padded[|padded| - 1]);
    assert padded[1] == text[0] && padded[|padded| - 2] == text[|text| - 1];
    Text.TrimExact(padded, 1, |padded| - 1);
    assert padded[1..|padded| - 1] == text;
  }

  /** The recipients. A truthy `userId` is the only target and no listing
      is made; otherwise the ids of every listed user. Reading `id` of a
      `null` row throws, which ends in the catch-all 500. */
  function Targets(userId: Value, listing: Remote): (r: Result<seq<Value>, Response>)
    ensures Truthy(userId) ==> r == Success([userId])
    ensures !Truthy(userId) && listing.Reply? && !IsOk(listing.status) ==> r == Failure(Api.Fail(500, "Failed to fetch users."))
    ensures !Truthy(userId) && r.Success? ==>
      && OkWithBody(listing) && listing.body.value.Arr?
      && |r.value| == |listing.body.value.items| > 0
      && forall i :: 0 <= i < |r.value| ==> r.value[i] == Get(listing.body.value.items[i], "id")
    ensures !Truthy(userId) && OkWithBody(listing) && !listing.body.value.Arr? ==>
      r == Failure(Api.Fail(400, "No users available to receive notifications."))
    ensures !Truthy(userId) && OkWithBody(listing) && listing.body.value == Arr([]) ==>
      r == Failure(Api.Fail(400, "No users available to receive notifications."))
    ensures !Truthy(userId) && (listing.NetworkError? || (IsOk(listing.status) && listing.body.None?)) ==>
      r == Failure(Api.Fail(500, CatchAllText))
    ensures !Truthy(userId) && OkWithBody(listing) && listing.body.value.Arr? ==>
      var users := listing.body.value.items;
      && ((exists i :: 0 <= i < |users| && Nullish(users[i])) ==> r == Failure(Api.Fail(500, CatchAllText)))
      && (|users| > 0 && (forall i :: 0 <= i < |users| ==> !Nullish(users[i])) ==> r.Success?)
  {
    if Truthy(userId) then Success([userId])
    else if listing.Reply? && !IsOk(listing.status) then Failure(Api.Fail(500, "Failed to fetch users."))
    else if !OkWithBody(listing) then Failure(Api.Fail(500, CatchAllText))
    else if !listing.body.value.Arr? then Failure(Api.Fail(400, "No users available to receive notifications."))
    else
      var users := listing.body.value.items;
      if exists i :: 0 <= i < |users| && Nullish(users[i]) then Failure(Api.Fail(500, CatchAllText))
      else if |users| == 0 then Failure(Api.Fail(400, "No users available to receive notifications."))
      else Success(seq(|users|, i requires 0 <= i < |users| => Get(users[i], "id")))
  }

  /** One payload per target, in order. */
  function Payload(targets: seq<Value>, message: string): (ps: seq<Value>)
    ensures |ps| == |targets|
    ensures forall i :: 0 <= i < |ps| ==>
      && Get(ps[i], "user_id") == targets[i]
      && Get(ps[i], "title") == Str("Notification")
      && Get(ps[i], "message") == Str(message)
      && Get(ps[i], "type") == Str("info")
      && Get(ps[i], "read") == Bool(false)
  {
    seq(|targets|, i requires 0 <= i < |targets| =>
      Obj(map["user_id" := targets[i], "title" := Str("Notification"), "message" := Str(message),
              "type" := Str("info"), "read" := Bool(false)]))
  }

  /** The insert body: a single payload is sent bare, several as an array. */
  function InsertBody(payload: seq<Value>): (v: Value)
    ensures |payload| == 1 ==> v == payload[0]
    ensures |payload| != 1 ==> v == Arr(payload)
  {
    if |payload| == 1 then payload[0] else Arr(payload)
  }

  datatype Outcome = Outcome(response: Response, sent: Option<Value>)

  /** The insert and its answer, once message and targets are settled. */
  function Deliver(targets: seq<Value>, message: string, insert: Remote): (o: Outcome)
    ensures o.sent == Some(InsertBody(Payload(targets, message)))
    ensures o.response.status == 201 <==> insert.Reply? && IsOk(insert.status)
    ensures o.response.status == 201 ==>
      o.response.body == Obj(map["message" := Str("Notification sent successfully"), "count" := Num(|targets|)])
    ensures o.response.status != 201 ==> o.response.status == 500
    ensures insert.Reply? && !IsOk(insert.status) ==> o.response == Api.Fail(500, "Failed to create notifications.")
    ensures insert.NetworkError? ==> o.response == Api.Fail(500, CatchAllText)
  {
    var payload := Payload(targets, message);
    var sent := Some(InsertBody(payload));
    if insert.NetworkError? then Outcome(Api.Fail(500, CatchAllText), sent)
    else if !IsOk(insert.status) then Outcome(Api.Fail(500, "Failed to create notifications."), sent)
    else Outcome(Response(201, Obj(map["message" := Str("Notification sent successfully"),
                                        "count" := Num(|payload|)])), sent)
  }

  /** `POST /api/notifications`. `listing` answers the user listing (used
      only for a broadcast) and `insert` the notification insert. */
  function Post(env: Settings.Env, authed: bool, body: Option<Value>, listing: Remote, insert: Remote): (o: Outcome)
    ensures Validate(env, authed, body).Failure? ==> o == Outcome(Validate(env, authed, body).error, None)
    ensures Validate(env, authed, body).Success? && Targets(Api.Field(body, "userId"), listing).Failure? ==>
      o == Outcome(Targets(Api.Field(body, "userId"), listing).error, None)
    ensures Validate(env, authed, body).Success? && Targets(Api.Field(body, "userId"), listing).Success? ==>
      o == Deliver(Targets(Api.Field(body, "userId"), listing).value, Validate(env, authed, body).value, insert)
  {
    match Validate(env, authed, body)
    case Failure(refusal) => Outcome(refusal, None)
    case Success(message) =>
      match Targets(Api.Field(body, "userId"), listing)
      case Failure(refusal) => Outcome(refusal, None)
      case Success(targets) => Deliver(targets, message, insert)
  }
}

=== FILE: page_filter.dfy ===
/** The filter effect the three list pages share: an optional exact status
    match, then an optional case-insensitive search, each applied with
    `Array.prototype.filter` to what the previous step kept. */
module PageFilter {
  import opened Wrappers
  import Text
  import Lists

  /** The status select's value that switches the status filter off. */
  const AllStatuses: string := "All"

  /** `statusFilter !== "All"` keeps the items whose status is exactly the
      selected one; a missing status never matches. */
  predicate StatusKeeps(status: Option<string>, statusFilter: string) {
    statusFilter == AllStatuses || status == Some(statusFilter)
  }

  /** The search applies only when the query is not blank once trimmed, and
      then compares against the lowercased query as typed, untrimmed. */
  predicate SearchKeeps<T>(x: T, searchQuery: string, hit: (T, string) -> bool) {
    Text.Trim(searchQuery) == "" || hit(x, Text.ToLower(searchQuery))
  }

  /** The effect: `filtered` starts as a copy of `items`, is narrowed by
      status when a status is selected, then by the search. `statusOf` and
      `hit` are the page's field read and match test. */
  function Apply<T>(items: seq<T>, statusOf: T -> Option<string>, statusFilter: string,
                    searchQuery: string, hit: (T, string) -> bool): seq<T>
  {
    var byStatus :=
      if statusFilter != AllStatuses then Lists.Filter(items, x => statusOf(x) == Some(statusFilter))
      else items;
    if Text.Trim(searchQuery) != "" then
      var query := Text.ToLower(searchQuery);
      Lists.Filter(byStatus, x => hit(x, query))
    else byStatus
  }

  /** The two steps amount to one filter by the conjunction of the two tests. */
  lemma ApplyIsOneFilter<T>(items: seq<T>, statusOf: T -> Option<string>, statusFilter: string,
                            searchQuery: string, hit: (T, string) -> bool)
    ensures Apply(items, statusOf, statusFilter, searchQuery, hit)
         == Lists.Filter(items, x => StatusKeeps(statusOf(x), statusFilter) && SearchKeeps(x, searchQuery, hit))
  {
    var keep := x => StatusKeeps(statusOf(x), statusFilter) && SearchKeeps(x, searchQuery, hit);
    var query := Text.ToLower(searchQuery);
    var byStatus := x => statusOf(x) == Some(statusFilter);
    var bySearch := x => hit(x, query);
    if statusFilter != AllStatuses {
      if Text.Trim(searchQuery) != "" {
        Lists.FilterFilter(items, byStatus, bySearch);
        FilterExtensional(items, x => byStatus(x) && bySearch(x), keep);
      } else {
        FilterExtensional(items, byStatus, keep);
      }
    } else {
      if Text.Trim(searchQuery) != "" {
        FilterExtensional(items, bySearch, keep);
      } else {
        FilterKeepsAll(items, keep);
      }
    }
  }

  /** An item survives exactly when it is in the list and passes both the
      status and the search test. */
  lemma ApplyMembers<T>(items: seq<T>, statusOf: T -> Option<string>, statusFilter: string,
                        searchQuery: string, hit: (T, string) -> bool, x: T)
    ensures x in Apply(items, statusOf, statusFilter, searchQuery, hit) <==>
      x in items && StatusKeeps(statusOf(x), statusFilter) && SearchKeeps(x, searchQuery, hit)
  {
    ApplyIsOneFilter(items, statusOf, statusFilter, searchQuery, hit);
    Lists.FilterMembers(items, x => StatusKeeps(statusOf(x), statusFilter) && SearchKeeps(x, searchQuery, hit), x);
  }

  /** The result keeps the items in their original order. */
  lemma ApplyIsSubsequence<T>(items: seq<T>, statusOf: T -> Option<string>, statusFilter: string,
                              searchQuery: string, hit: (T, string) -> bool)
    ensures Lists.IsSubsequence(Apply(items, statusOf, statusFilter, searchQuery, hit), items)
  {
    ApplyIsOneFilter(items, statusOf, statusFilter, searchQuery, hit);
    Lists.FilterIsSubsequence(items, x => StatusKeeps(statusOf(x), statusFilter) && SearchKeeps(x, searchQuery, hit));
  }

  /** Filters by predicates that agree on the list's elements agree. */
  lemma {:induction false} FilterExtensional<T>(s: seq<T>, p: T -> bool, q: T -> bool)
    requires forall i :: 0 <= i < |s| ==> p(s[i]) == q(s[i])
    ensures Lists.Filter(s, p) == Lists.Filter(s, q)
    decreases |s|
  {
    if |s| > 0 {
      FilterExtensional(s[1..], p, q);
    }
  }

  /** A filter whose test every element passes keeps the whole list. */
  lemma {:induction false} FilterKeepsAll<T>(s: seq<T>, p: T -> bool)
    requires forall i :: 0 <= i < |s| ==> p(s[i])
    ensures Lists.Filter(s, p) == s
    decreases |s|
  {
    if |s| > 0 {
      FilterKeepsAll(s[1..], p);
      assert s == [s[0]] + s[1..];
    }
  }
}

=== FILE: protected_route.dfy ===
/** components/protected-route.tsx: the wrapper every dashboard page renders
    inside. It asks `/api/auth/verify` whether the session is valid, shows a
    spinner while asking, redirects to `/login` when the answer is no, and
    re-asks every five minutes while the answer is yes. Only the state
    transitions are modelled; the timer and the router are not. */
module ProtectedRoute {
  import opened Wrappers
  import opened Js
  import VerifyRoute
  import Auth

  /** The component's three pieces of state: `isAuthenticated` (None for the
      initial `null`), the admin the last successful check returned, and
      whether a check is in progress. */
  datatype State = State(authenticated: Option<bool>, admin: Value, checking: bool)

  /** What the component renders. */
  datatype View = Loading | Nothing | Children

  /** Authentication unknown, no admin, a check in progress. */
  const Initial: State := State(None, Null, true)

  /** A check succeeds when the reply is 2xx, its body parses, and both
      `data.authenticated` and `data.admin` are truthy. A failed fetch or a
      body that is not JSON lands in the `catch`. */
  predicate CheckPasses(reply: Remote) {
    && reply.Reply? && IsOk(reply.status) && reply.body.Some?
    && Truthy(Js.Get(reply.body.value, "authenticated"))
    && Truthy(Js.Get(reply.body.value, "admin"))
  }

  /** `checkAuth` completing with `reply`. A failing check leaves the
      previously stored admin in place; only `isAuthenticated` changes. */
  function AfterCheck(s: State, reply: Remote): (r: State)
    ensures !r.checking
    ensures r.authenticated == Some(CheckPasses(reply))
    ensures CheckPasses(reply) ==> r.admin == Js.Get(reply.body.value, "admin") && Truthy(r.admin)
    ensures !CheckPasses(reply) ==> r.admin == s.admin
  {
    if CheckPasses(reply) then State(Some(true), Js.Get(reply.body.value, "admin"), false)
    else State(Some(false), s.admin, false)
  }

  /** The render: the spinner while checking, nothing while not
      authenticated, the page otherwise. */
  function Render(s: State): (v: View)
    ensures v == Loading <==> s.checking
    ensures v == Children <==> !s.checking && s.authenticated == Some(true)
    ensures v == Nothing <==> Redirects(s)
  {
    if s.checking then Loading
    else if s.authenticated != Some(true) then Nothing
    else Children
  }

  /** The redirect effect fires when not checking and `!isAuthenticated`. */
  predicate Redirects(s: State) {
    !s.checking && s.authenticated != Some(true)
  }

  /** The interval effect installs its timer only while `isAuthenticated`. */
  predicate PollActive(s: State) {
    s.authenticated == Some(true)
  }

  /** The first render shows the spinner, neither redirecting nor polling. */
  lemma InitialIsLoading()
    ensures Render(Initial) == Loading
    ensures !Redirects(Initial) && !PollActive(Initial)
  {
  }

  /** The three views partition the states: the page shows exactly when the
      check is over and passed, and the redirect fires exactly when nothing
      is rendered. */
  lemma ViewsPartition(s: State)
    ensures Render(s) == Loading <==> s.checking
    ensures Render(s) == Children <==> !s.checking && s.authenticated == Some(true)
    ensures Render(s) == Nothing <==> Redirects(s)
    ensures Render(s) == Children ==> PollActive(s)
  {
  }

  /** The checks run one after another: on mount, then from the timer. */
  function Run(s: State, replies: seq<Remote>): (r: State)
    decreases |replies|
  {
    if |replies| == 0 then s else Run(AfterCheck(s, replies[0]), replies[1..])
  }

  /** After any non-empty run of checks, the last reply alone decides
      whether the page shows or redirects: an earlier success does not keep
      a session that a later check refuses. */
  lemma {:induction false} LastCheckDecides(s: State, replies: seq<Remote>)
    requires |replies| > 0
    ensures !Run(s, replies).checking
    ensures Run(s, replies).authenticated == Some(CheckPasses(replies[|replies| - 1]))
    ensures Render(Run(s, replies)) == Children <==> CheckPasses(replies[|replies| - 1])
    ensures Redirects(Run(s, replies)) <==> !CheckPasses(replies[|replies| - 1])
    decreases |replies|
  {
    if |replies| > 1 {
      LastCheckDecides(AfterCheck(s, replies[0]), replies[1..]);
      assert replies[1..][|replies| - 2] == replies[|replies| - 1];
    }
  }

  /** The verify route's success reply passes the check, and each of its
      refusals fails it, so the wrapper shows the page exactly when the
      route says the session is valid. */
  lemma AgreesWithVerifyRoute(auth: Option<Auth.AuthResult>)
    ensures var resp := VerifyRoute.Get(auth);
      CheckPasses(Reply(resp.status, Some(resp.body))) <==> resp.status == 200
  {
  }
}

=== FILE: rpc_routes.dfy ===
/** app/api/users/activate-license/route.ts: binding a license to a user
    through the `activate_license_key` procedure. */
module ActivateLicenseRoute {
  import opened Wrappers
  import opened Js
  import Settings
  import Api

  const FailedText: string := "Failed to activate license key"
  const CatchAllText: string := "An error occurred while activating the license"

  predicate FieldsPresent(body: Option<Value>) {
    Api.BodyReadable(body) && Truthy(Api.Field(body, "license_key")) && Truthy(Api.Field(body, "user_id"))
  }

  /** The arguments sent to the procedure, copied from the body. */
  function RpcArgs(body: Option<Value>): Value {
    Obj(map["p_license_key" := Api.Field(body, "license_key"), "p_user_id" := Api.Field(body, "user_id")])
  }

  /** `POST /api/users/activate-license`. `remote` answers `RpcArgs(body)`. */
  function Post(env: Settings.Env, authed: bool, body: Option<Value>, remote: Remote): (r: Response)
    ensures !Settings.ServerConfigured(env) ==> r == Api.Fail(500, Api.ConfigErrorText)
    ensures Settings.ServerConfigured(env) && !authed ==> r == Api.Fail(401, Api.UnauthorizedText)
    ensures Settings.ServerConfigured(env) && authed && Api.BodyReadable(body) && !FieldsPresent(body) ==>
      r == Api.Fail(400, "License key and user ID are required")
    ensures Settings.ServerConfigured(env) && authed && !Api.BodyReadable(body) ==> r == Api.Fail(500, CatchAllText)
    ensures Settings.ServerConfigured(env) && authed && FieldsPresent(body) && remote.Reply? && !IsOk(remote.status) ==>
      r == Api.Fail(500, FailedText)
    ensures Settings.ServerConfigured(env) && authed && FieldsPresent(body)
            && (!OkWithBody(remote) || Nullish(Api.FirstOrSelf(remote.body.value)))
            && !(remote.Reply? && !IsOk(remote.status)) ==>
      r == Api.Fail(500, CatchAllText)
    ensures r.status == 200 || (r.status == 400 && FieldsPresent(body)) ==>
      && Settings.ServerConfigured(env) && authed && OkWithBody(remote)
      && !Nullish(Api.FirstOrSelf(remote.body.value))
    ensures r.status == 200 <==>
      && Settings.ServerConfigured(env) && authed && FieldsPresent(body) && OkWithBody(remote)
      && Truthy(Get(Api.FirstOrSelf(remote.body.value), "success"))
    ensures r.status == 200 ==>
      var data := Api.FirstOrSelf(remote.body.value);
      r.body == Obj(map["message" := Get(data, "message"), "license" := Get(data, "license"),
                        "user" := Get(data, "user")])
    ensures r.status == 400 && FieldsPresent(body) ==>
      Get(r.body, "message") == Or(Get(Api.FirstOrSelf(remote.body.value), "message"), Str(FailedText))
    ensures Settings.ServerConfigured(env) && authed && FieldsPresent(body) && OkWithBody(remote)
            && !Nullish(Api.FirstOrSelf(remote.body.value)) ==>
      var data := Api.FirstOrSelf(remote.body.value);
      && (!Truthy(Get(data, "success")) ==>
            r == Response(400, Obj(map["message" := Or(Get(data, "message"), Str(FailedText))])))
      && (Truthy(Get(data, "success")) ==> r.status == 200)
    ensures r.status in {200, 400, 401, 500}
  {
    if !Settings.ServerConfigured(env) then Api.Fail(500, Api.ConfigErrorText)
    else if !authed then Api.Fail(401, Api.UnauthorizedText)
    else if !Api.BodyReadable(body) then Api.Fail(500, CatchAllText)
    else if !FieldsPresent(body) then Api.Fail(400, "License key and user ID are required")
    else if remote.Reply? && !IsOk(remote.status) then Api.Fail(500, FailedText)
    else if !OkWithBody(remote) then Api.Fail(500, CatchAllText)
    else
      var data := Api.FirstOrSelf(remote.body.value);
      if Nullish(data) then Api.Fail(500, CatchAllText)
      else if !Truthy(Get(data, "success")) then
        Response(400, Obj(map["message" := Or(Get(data, "message"), Str(FailedText))]))
      else
        Response(200, Obj(map["message" := Get(data, "message"), "license" := Get(data, "license"),
                              "user" := Get(data, "user")]))
  }

  /** The procedure may answer with its row bare or wrapped in a
      one-element array: the handler answers both alike. */
  lemma SingleRowLikeBare(env: Settings.Env, authed: bool, body: Option<Value>, status: int, row: Value)
    requires !row.Arr?
    ensures Post(env, authed, body, Reply(status, Some(Arr([row])))) == Post(env, authed, body, Reply(status, Some(row)))
  {
    assert Api.FirstOrSelf(Arr([row])) == row == Api.FirstOrSelf(row);
  }

  /** An empty array reply leaves nothing to read `success` from: the
      handler throws and answers with its catch-all 500. */
  lemma EmptyReplyThrows(env: Settings.Env, body: Option<Value>, status: int)
    requires Settings.ServerConfigured(env) && FieldsPresent(body) && IsOk(status)
    ensures Post(env, true, body, Reply(status, Some(Arr([])))) == Api.Fail(500, CatchAllText)
  {
  }
}

/** app/api/licenses/check-expired/route.ts: the expiry sweep through the
    `check_and_expire_licenses` procedure. */
module CheckExpiredRoute {
  import opened Wrappers
  import opened Js
  import Settings
  import Api

  const CatchAllText: string := "An error occurred while checking expired licenses"
  const DefaultText: string := "Expired licenses checked successfully"

  /** `POST /api/licenses/check-expired`; the request plays no part. */
  function Post(env: Settings.Env, authed: bool, remote: Remote): (r: Response)
    ensures !Settings.ServerConfigured(env) ==> r == Api.Fail(500, Api.ConfigErrorText)
    ensures Settings.ServerConfigured(env) && !authed ==> r == Api.Fail(401, Api.UnauthorizedText)
    ensures Settings.ServerConfigured(env) && authed && remote.Reply? && !IsOk(remote.status) ==>
      r == Api.Fail(500, "Failed to check expired licenses")
    ensures r.status == 200 <==>
      Settings.ServerConfigured(env) && authed && OkWithBody(remote) && !Nullish(Api.FirstOrSelf(remote.body.value))
    ensures r.status == 200 ==>
      var data := Api.FirstOrSelf(remote.body.value);
      && Get(r.body, "message") == Or(Get(data, "message"), Str(DefaultText))
      && Get(r.body, "expired_licenses") == Or(Get(data, "expired_licenses"), Num(0))
      && Get(r.body, "suspended_users") == Or(Get(data, "suspended_users"), Num(0))
    ensures Settings.ServerConfigured(env) && authed
            && (remote.NetworkError? || (IsOk(remote.status) && remote.body.None?)
                || (OkWithBody(remote) && Nullish(Api.FirstOrSelf(remote.body.value)))) ==>
      r == Api.Fail(500, CatchAllText)
    ensures r.status != 200 ==> r.status in {401, 500}
  {
    if !Settings.ServerConfigured(env) then Api.Fail(500, Api.ConfigErrorText)
    else if !authed then Api.Fail(401, Api.UnauthorizedText)
    else if remote.Reply? && !IsOk(remote.status) then Api.Fail(500, "Failed to check expired licenses")
    else if !OkWithBody(remote) then Api.Fail(500, CatchAllText)
    else
      var data := Api.FirstOrSelf(remote.body.value);
      if Nullish(data) then Api.Fail(500, CatchAllText)
      else
        Response(200, Obj(map[
          "message" := Or(Get(data, "message"), Str(DefaultText)),
          "expired_licenses" := Or(Get(data, "expired_licenses"), Num(0)),
          "suspended_users" := Or(Get(data, "suspended_users"), Num(0))]))
  }

  /** The procedure may answer with its row bare or wrapped in a
      one-element array: the handler answers both alike. */
  lemma SingleRowLikeBare(env: Settings.Env, authed: bool, status: int, row: Value)
    requires !row.Arr?
    ensures Post(env, authed, Reply(status, Some(Arr([row])))) == Post(env, authed, Reply(status, Some(row)))
  {
    assert Api.FirstOrSelf(Arr([row])) == row == Api.FirstOrSelf(row);
  }

  /** An empty array reply is read as `undefined` and throws. */
  lemma EmptyReplyThrows(env: Settings.Env, status: int)
    requires Settings.ServerConfigured(env) && IsOk(status)
    ensures Post(env, true, Reply(status, Some(Arr([])))) == Api.Fail(500, CatchAllText)
  {
  }

  /** An object reply without the three fields reports the defaults. */
  lemma EmptyObjectDefaults(env: Settings.Env, status: int)
    requires Settings.ServerConfigured(env) && IsOk(status)
    ensures Post(env, true, Reply(status, Some(Obj(map[])))) ==
      Response(200, Obj(map["message" := Str(DefaultText), "expired_licenses" := Num(0), "suspended_users" := Num(0)]))
  {
  }
}

=== FILE: settings.dfy ===
/** The process environment the server code reads, as one immutable record. */
module Settings {
  import opened Wrappers

  datatype Env = Env(
    jwtSecret: Option<string>,          // JWT_SECRET
    jwtExpiresIn: Option<string>,       // JWT_EXPIRES_IN
    nodeEnv: Option<string>,            // NODE_ENV
    publicSupabaseUrl: Option<string>,  // NEXT_PUBLIC_SUPABASE_URL
    publicAnonKey: Option<string>,      // NEXT_PUBLIC_SUPABASE_ANON_KEY
    supabaseUrl: Option<string>,        // SUPABASE_URL
    serviceRoleKey: Option<string>)     // SUPABASE_SERVICE_ROLE_KEY

  /** An environment variable is usable when it is set to a non-empty string
      (the code tests it with `!VAR`). */
  predicate IsSet(v: Option<string>) {
    v.Some? && v.value != ""
  }

  /** The login handler needs the public URL and the anonymous key. */
  predicate LoginConfigured(e: Env) {
    IsSet(e.publicSupabaseUrl) && IsSet(e.publicAnonKey)
  }

  /** Every other handler needs the server URL and the service-role key. */
  predicate ServerConfigured(e: Env) {
    IsSet(e.supabaseUrl) && IsSet(e.serviceRoleKey)
  }

  predicate Production(e: Env) {
    e.nodeEnv == Some("production")
  }
}

=== FILE: text.dfy ===
/** String operations of the JavaScript runtime that the dashboard relies on:
    prefix and suffix tests, `includes`, ASCII case mapping, `trim`,
    `split`/`join`, number-to-string conversion and the decimal `parseInt`. */
module Text {
  import opened Wrappers

  predicate StartsWith(s: string, prefix: string) {
    |prefix| <= |s| && s[..|prefix|] == prefix
  }

  predicate EndsWith(s: string, suffix: string) {
    |suffix| <= |s| && s[|s| - |suffix|..] == suffix
  }

  /** `s.includes(sub)`, defined by walking the start position forward. */
  predicate Contains(s: string, sub: string)
    decreases |s|
  {
    StartsWith(s, sub) || (|s| > 0 && Contains(s[1..], sub))
  }

  /** `sub` occurs in `s` starting at position `i`. */
  predicate OccursAt(s: string, sub: string, i: int) {
    0 <= i <= |s| - |sub| && s[i..i + |sub|] == sub
  }

  /** `includes` holds exactly when `sub` occurs at some position of `s`. */
  lemma {:induction false} ContainsIff(s: string, sub: string)
    ensures Contains(s, sub) <==> exists i :: OccursAt(s, sub, i)
    decreases |s|
  {
    if StartsWith(s, sub) {
      assert OccursAt(s, sub, 0);
    }
    if |s| > 0 {
      ContainsIff(s[1..], sub);
      if Contains(s[1..], sub) {
        var i :| OccursAt(s[1..], sub, i);
        assert s[i + 1..i + 1 + |sub|] == s[1..][i..i + |sub|];
        assert OccursAt(s, sub, i + 1);
      }
    }
    if i :| OccursAt(s, sub, i) {
      if i == 0 {
        assert StartsWith(s, sub);
      } else {
        assert s[1..][i - 1..i - 1 + |sub|] == s[i..i + |sub|];
        assert OccursAt(s[1..], sub, i - 1);
      }
    }
  }

  // ---------------------------------------------------------------------
  // Case mapping (ASCII letters only)

  function LowerChar(c: char): char {
    if 'A' <= c <= 'Z' then (c as int + 32) as char else c
  }

  function UpperChar(c: char): char {
    if 'a' <= c <= 'z' then (c as int - 32) as char else c
  }

  /** `toLowerCase`, restricted to the ASCII letters. */
  function ToLower(s: string): (r: string)
    ensures |r| == |s|
    ensures forall i :: 0 <= i < |s| ==> r[i] == LowerChar(s[i])
  {
    seq(|s|, i requires 0 <= i < |s| => LowerChar(s[i]))
  }

  // ---------------------------------------------------------------------
  // Length in UTF-16 code units

  /** A character outside the Basic Multilingual Plane, which UTF-16 writes
      as a surrogate pair. */
  predicate Astral(c: char) {
    c as int > 0xFFFF
  }

  /** `s.length`: JavaScript counts UTF-16 code units, so an astral
      character counts twice. */
  function Utf16Length(s: string): (n: nat)
    ensures |s| <= n <= 2 * |s|
    ensures n == |s| <==> forall i :: 0 <= i < |s| ==> !Astral(s[i])
    ensures n == 2 * |s| <==> forall i :: 0 <= i < |s| ==> Astral(s[i])
    decreases |s|
  {
    if |s| == 0 then 0
    else
      var n := (if Astral(s[0]) then 2 else 1) + Utf16Length(s[1..]);
      assert forall i :: 1 <= i < |s| ==> s[i] == s[1..][i - 1];
      n
  }

  /** The length of a concatenation is the sum of the lengths. */
  lemma {:induction false} Utf16LengthAppend(a: string, b: string)
    ensures Utf16Length(a + b) == Utf16Length(a) + Utf16Length(b)
    decreases |a|
  {
    if |a| > 0 {
      assert (a + b)[0] == a[0] && (a + b)[1..] == a[1..] + b;
      Utf16LengthAppend(a[1..], b);
    } else {
      assert a + b == b;
    }
  }

  // ---------------------------------------------------------------------
  // Whitespace and trim

  /** The characters JavaScript's `trim` and `parseInt` skip: the ECMAScript
      WhiteSpace and LineTerminator code points. */
  predicate IsWhite(c: char) {
    var n := c as int;
    n == 0x09 || n == 0x0A || n == 0x0B || n == 0x0C || n == 0x0D || n == 0x20
    || n == 0xA0 || n == 0x1680 || (0x2000 <= n <= 0x200A) || n == 0x2028
    || n == 0x2029 || n == 0x202F || n == 0x205F || n == 0x3000 || n == 0xFEFF
  }

  function TrimStart(s: string): (r: string)
    ensures |r| <= |s| && r == s[|s| - |r|..]
    ensures forall i :: 0 <= i < |s| - |r| ==> IsWhite(s[i])
    ensures |r| > 0 ==> !IsWhite(r[0])
    decreases |s|
  {
    if |s| > 0 && IsWhite(s[0]) then TrimStart(s[1..]) else s
  }

  function TrimEnd(s: string): (r: string)
    ensures |r| <= |s| && r == s[..|r|]
    ensures forall i :: |r| <= i < |s| ==> IsWhite(s[i])
    ensures |r| > 0 ==> !IsWhite(r[|r| - 1])
    decreases |s|
  {
    if |s| > 0 && IsWhite(s[|s| - 1]) then TrimEnd(s[..|s| - 1]) else s
  }

  /** `r` is `s[i..i + |r|]` and everything of `s` outside it is whitespace. */
  predicate SliceWithWhiteAround(s: string, r: string, i: int) {
    && 0 <= i <= |s| - |r| && r == s[i..i + |r|]
    && (forall k :: 0 <= k < i ==> IsWhite(s[k]))
    && (forall k :: i + |r| <= k < |s| ==> IsWhite(s[k]))
  }

  /** The first index at or after `i` whose character is not whitespace,
      or `|s|` when there is none. */
  function SkipWhite(s: string, i: nat): (n: nat)
    requires i <= |s|
    ensures i <= n <= |s|
    ensures forall k :: i <= k < n ==> IsWhite(s[k])
    ensures n < |s| ==> !IsWhite(s[n])
    decreases |s| - i
  {
    if i < |s| && IsWhite(s[i]) then SkipWhite(s, i + 1) else i
  }

  /** The end of `s[lo..j]` once its trailing whitespace is cut. */
  function BackWhite(s: string, lo: nat, j: nat): (n: nat)
    requires lo <= j <= |s|
    ensures lo <= n <= j
    ensures forall k :: n <= k < j ==> IsWhite(s[k])
    ensures n > lo ==> !IsWhite(s[n - 1])
    decreases j
  {
    if j > lo && IsWhite(s[j - 1]) then BackWhite(s, lo, j - 1) else j
  }

  /** `trim`: the slice of `s` from its first to its last character that is
      not whitespace; only whitespace is removed around it. */
  function Trim(s: string): (r: string)
    ensures exists i :: SliceWithWhiteAround(s, r, i)
    ensures |r| > 0 ==> !IsWhite(r[0]) && !IsWhite(r[|r| - 1])
  {
    var i := SkipWhite(s, 0);
    var j := BackWhite(s, i, |s|);
    assert SliceWithWhiteAround(s, s[i..j], i);
    s[i..j]
  }

  /** A string made of whitespace only trims to the empty string, and one
      with a non-whitespace character does not. */
  lemma TrimEmptyIff(s: string)
    ensures Trim(s) == "" <==> forall i :: 0 <= i < |s| ==> IsWhite(s[i])
  {
    if Trim(s) != "" {
      var r := Trim(s);
      var i :| SliceWithWhiteAround(s, r, i);
      assert s[i] == r[0];
    }
  }

  // ---------------------------------------------------------------------
  // split and join

  /** `parts.join(sep)`; the empty list joins to the empty string. */
  function Join(parts: seq<string>, sep: string): string
    decreases |parts|
  {
    if |parts| == 0 then ""
    else if |parts| == 1 then parts[0]
    else parts[0] + sep + Join(parts[1..], sep)
  }

  /** `s.split(c)` for a one-character separator. */
  function Split(s: string, c: char): (parts: seq<string>)
    ensures |parts| >= 1
    ensures forall i :: 0 <= i < |parts| ==> c !in parts[i]
    decreases |s|
  {
    if |s| == 0 then [""]
    else if s[0] == c then [""] + Split(s[1..], c)
    else
      var rest := Split(s[1..], c);
      [[s[0]] + rest[0]] + rest[1..]
  }

  /** Joining the pieces of a split with the separator gives back the string. */
  lemma {:induction false} JoinSplit(s: string, c: char)
    ensures Join(Split(s, c), [c]) == s
    decreases |s|
  {
    if |s| > 0 {
      JoinSplit(s[1..], c);
      var rest := Split(s[1..], c);
      if s[0] == c {
        assert Split(s, c) == [""] + rest;
        assert Join([""] + rest, [c]) == "" + [c] + Join(rest, [c]);
      } else {
        var parts := Split(s, c);
        assert parts == [[s[0]] + rest[0]] + rest[1..];
        if |rest| == 1 {
          assert Join(parts, [c]) == [s[0]] + rest[0];
        } else {
          assert parts[1..] == rest[1..];
          assert Join(rest, [c]) == rest[0] + [c] + Join(rest[1..], [c]);
          assert Join(parts, [c]) == [s[0]] + rest[0] + [c] + Join(rest[1..], [c]);
        }
      }
    }
  }

  /** Splitting a join of separator-free pieces gives back the pieces. */
  lemma {:induction false} SplitJoin(parts: seq<string>, c: char)
    requires |parts| >= 1
    requires forall i :: 0 <= i < |parts| ==> c !in parts[i]
    ensures Split(Join(parts, [c]), c) == parts
    decreases |parts|, |parts[0]|
  {
    if |parts[0]| == 0 {
      if |parts| > 1 {
        SplitJoin(parts[1..], c);
        assert Join(parts, [c]) == [c] + Join(parts[1..], [c]);
        assert ([c] + Join(parts[1..], [c]))[1..] == Join(parts[1..], [c]);
        assert parts == [""] + parts[1..];
      }
    } else {
      var head := parts[0];
      var shorter := [head[1..]] + parts[1..];
      assert c !in head[1..] by {
        forall k | 0 <= k < |head[1..]| ensures head[1..][k] != c {
          assert head[1..][k] == head[k + 1];
        }
      }
      SplitJoin(shorter, c);
      var j := Join(parts, [c]);
      if |parts| == 1 {
        assert j == head;
        assert Join(shorter, [c]) == head[1..];
      } else {
        assert j == head + [c] + Join(parts[1..], [c]);
        assert Join(shorter, [c]) == head[1..] + [c] + Join(parts[1..], [c]);
      }
      assert j[0] == head[0] && head[0] != c;
      assert j[1..] == Join(shorter, [c]);
      var rest := Split(j[1..], c);
      assert rest == shorter;
      assert [head[0]] + head[1..] == head;
      assert Split(j, c) == [[head[0]] + rest[0]] + rest[1..];
      assert rest[1..] == parts[1..];
    }
  }

  /** The text before the first `c`, or all of `s` when it holds no `c`. */
  function Before(s: string, c: char): (r: string)
    ensures |r| <= |s| && r == s[..|r|]
    ensures c !in r
    ensures |r| < |s| ==> s[|r|] == c
    decreases |s|
  {
    if |s| == 0 || s[0] == c then "" else [s[0]] + Before(s[1..], c)
  }

  /** The text before the first separator is everything up to it. */
  lemma {:induction false} BeforeSeparator(key: string, c: char, rest: string)
    requires c !in key
    ensures Before(key + [c] + rest, c) == key
    decreases |key|
  {
    if |key| > 0 {
      BeforeSeparator(key[1..], c, rest);
      assert (key + [c] + rest)[1..] == key[1..] + [c] + rest;
    }
  }

  /** The field after the first `c`, as `s.split(c)[1]`; None when `s` holds no `c`. */
  function FieldAfter(s: string, c: char): (r: Option<string>)
    ensures r.None? <==> c !in s
    ensures r.Some? ==> c !in r.value
  {
    var parts := Split(s, c);
    if |parts| > 1 then
      assert c in s by {
        JoinSplit(s, c);
        assert s == parts[0] + [c] + Join(parts[1..], [c]);
        assert s[|parts[0]|] == c;
      }
      Some(parts[1])
    else
      assert c !in s by {
        JoinSplit(s, c);
        assert Join(parts, [c]) == parts[0];
      }
      None
  }

  // ---------------------------------------------------------------------
  // Decimal numbers

  predicate IsDigit(c: char) { '0' <= c <= '9' }

  function DigitValue(c: char): nat
    requires IsDigit(c)
  {
    c as int - '0' as int
  }

  function DigitChar(d: nat): (c: char)
    requires d < 10
    ensures IsDigit(c) && DigitValue(c) == d
  {
    ('0' as int + d) as char
  }

  predicate AllDigits(s: string) {
    forall i :: 0 <= i < |s| ==> IsDigit(s[i])
  }

  /** The value of a run of decimal digits. */
  function DigitsValue(s: string): nat
    requires AllDigits(s)
    decreases |s|
  {
    if |s| == 0 then 0 else DigitsValue(s[..|s| - 1]) * 10 + DigitValue(s[|s| - 1])
  }

  /** The decimal text of a natural number, without leading zeros: `n.toString()`. */
  function NatToString(n: nat): (s: string)
    ensures |s| >= 1 && AllDigits(s)
    ensures DigitsValue(s) == n
    ensures |s| > 1 ==> s[0] != '0'
    decreases n
  {
    if n < 10 then [DigitChar(n)]
    else
      var s := NatToString(n / 10) + [DigitChar(n % 10)];
      assert s[..|s| - 1] == NatToString(n / 10);
      s
  }

  /** Different numbers have different decimal texts. */
  lemma NatToStringInjective(i: nat, j: nat)
    requires i != j
    ensures NatToString(i) != NatToString(j)
  {
    assert DigitsValue(NatToString(i)) == i;
  }

  /** `n.toString()` for an integer. */
  function IntToString(n: int): (s: string)
    ensures |s| >= 1
    ensures n >= 0 ==> s == NatToString(n)
    ensures n < 0 ==> s == "-" + NatToString(-n)
  {
    if n < 0 then "-" + NatToString(-n) else NatToString(n)
  }

  /** The number of leading digits of `s`. */
  function DigitRun(s: string): (k: nat)
    ensures k <= |s| && AllDigits(s[..k])
    ensures k < |s| ==> !IsDigit(s[k])
    decreases |s|
  {
    if |s| > 0 && IsDigit(s[0]) then
      var k := 1 + DigitRun(s[1..]);
      assert forall i :: 1 <= i < k ==> s[..k][i] == s[1..][..k - 1][i - 1];
      k
    else 0
  }

  /** The value of the leading digits, None (NaN) when there are none. */
  function LeadingDigits(s: string): (r: Option<int>)
    ensures r.Some? ==> r.value >= 0
  {
    var k := DigitRun(s);
    if k == 0 then None else Some(DigitsValue(s[..k]))
  }

  /** `parseInt(s)` in base 10: leading whitespace is skipped, one optional
      sign is read, then the longest run of digits; no digits means NaN,
      which is None here. */
  function ParseInt(s: string): Option<int> {
    var t := TrimStart(s);
    if |t| > 0 && t[0] == '-' then
      match LeadingDigits(t[1..])
      case None => None
      case Some(v) => Some(-v)
    else if |t| > 0 && t[0] == '+' then
      match LeadingDigits(t[1..])
      case None => None
      case Some(v) => Some(v)
    else
      match LeadingDigits(t)
      case None => None
      case Some(v) => Some(v)
  }

  /** parseInt reads back what toString writes. */
  lemma ParseIntOfIntToString(n: int)
    ensures ParseInt(IntToString(n)) == Some(n)
  {
    var s := IntToString(n);
    assert !IsWhite(s[0]);
    assert TrimStart(s) == s;
    var d := NatToString(if n < 0 then -n else n);
    assert DigitRun(d) == |d| by { DigitRunAll(d); }
    assert d[..|d|] == d;
    if n < 0 {
      assert s[1..] == d;
    }
  }

  // ---------------------------------------------------------------------
  // Number to string

  /** 10^21: from here on `toString` writes a number in exponent form. */
  const ExponentFrom: int := 1_000_000_000_000_000_000_000

  /** `s` without its trailing zeros. */
  function StripTrailingZeros(s: string): (r: string)
    ensures |r| <= |s| && r == s[..|r|]
    ensures forall i :: |r| <= i < |s| ==> s[i] == '0'
    ensures |r| > 0 ==> r[|r| - 1] != '0'
    decreases |s|
  {
    if |s| > 0 && s[|s| - 1] == '0' then StripTrailingZeros(s[..|s| - 1]) else s
  }

  /** The exponent form of a number at or above 10^21: its first digit,
      then a point and the remaining digits up to the last non-zero one
      when there are any, then `e+` and the power of ten ("1e+21",
      "1.5e+22"). */
  function Exponential(n: nat): (s: string)
    requires n >= ExponentFrom
    ensures |s| > 1 && IsDigit(s[0]) && !IsDigit(s[1])
    ensures s[0] == NatToString(n)[0]
  {
    var digits := NatToString(n);
    var m := StripTrailingZeros(digits);
    [digits[0]] + (if |m| > 1 then "." + m[1..] else "") + "e+" + NatToString(|digits| - 1)
  }

  /** `String(n)` for a whole number: plain decimal below 10^21 in
      magnitude, exponent form from there on. */
  function NumberToString(n: int): (s: string)
    ensures -ExponentFrom < n < ExponentFrom ==> s == IntToString(n)
    ensures n >= ExponentFrom ==> s == Exponential(n)
    ensures n <= -ExponentFrom ==> s == "-" + Exponential(-n)
  {
    if n >= ExponentFrom then Exponential(n)
    else if n <= -ExponentFrom then "-" + Exponential(-n)
    else IntToString(n)
  }

  /** The first digit of a number of two or more digits, which is never 0. */
  function LeadingDigit(n: nat): (d: nat)
    requires n >= 10
    ensures 1 <= d <= 9
    ensures d == DigitValue(NatToString(n)[0])
  {
    var s := NatToString(n);
    assert s == NatToString(n / 10) + [DigitChar(n % 10)];
    DigitValue(s[0])
  }

  /** What `parseInt(String(n))` gives back: `n` itself below 10^21 in
      magnitude, and above that only the signed first digit, since
      parsing stops at the point or the `e`. */
  function Reparse(n: int): (r: int)
    ensures -ExponentFrom < n < ExponentFrom ==> r == n
    ensures n >= 1 ==> 1 <= r <= n
  {
    if n >= ExponentFrom then LeadingDigit(n)
    else if n <= -ExponentFrom then -(LeadingDigit(-n) as int)
    else n
  }

  /** `parseInt` of `String(n)` is `Reparse(n)`: whole numbers read back
      exactly below 10^21 in magnitude, and as their signed first digit
      from there on. */
  lemma ParseIntOfNumberToString(n: int)
    ensures ParseInt(NumberToString(n)) == Some(Reparse(n))
  {
    if -ExponentFrom < n < ExponentFrom {
      ParseIntOfPlainNumber(n);
    } else if n >= ExponentFrom {
      ParseIntOfLargeNumber(n);
    } else {
      ParseIntOfLargeNegativeNumber(n);
    }
  }

  lemma ParseIntOfPlainNumber(n: int)
    requires -ExponentFrom < n < ExponentFrom
    ensures ParseInt(NumberToString(n)) == Some(n)
  {
    ParseIntOfIntToString(n);
  }

  lemma ParseIntOfLargeNumber(n: int)
    requires n >= ExponentFrom
    ensures ParseInt(NumberToString(n)) == Some(LeadingDigit(n))
  {
    ParseIntOfExponential(n);
  }

  lemma ParseIntOfLargeNegativeNumber(n: int)
    requires n <= -ExponentFrom
    ensures ParseInt(NumberToString(n)) == Some(-(LeadingDigit(-n) as int))
  {
    var m: nat := -n;
    var s := NumberToString(n);
    assert s == "-" + Exponential(m);
    ParseIntOfNegativeExponential(m);
    assert ParseInt(s) == Some(-(LeadingDigit(m) as int));
  }

  lemma ParseIntOfExponential(m: nat)
    requires m >= ExponentFrom
    ensures ParseInt(Exponential(m)) == Some(LeadingDigit(m))
  {
    var s := Exponential(m);
    assert !IsWhite(s[0]) && s[0] != '-' && s[0] != '+';
    assert TrimStart(s) == s;
    LeadingDigitsOfExponential(m);
  }

  lemma ParseIntOfNegativeExponential(m: nat)
    requires m >= ExponentFrom
    ensures ParseInt("-" + Exponential(m)) == Some(-(LeadingDigit(m) as int))
  {
    var s := "-" + Exponential(m);
    assert !IsWhite(s[0]) && s[0] == '-';
    assert TrimStart(s) == s;
    assert s[1..] == Exponential(m);
    LeadingDigitsOfExponential(m);
  }

  /** The digit run of the exponent form is its first digit alone. */
  lemma LeadingDigitsOfExponential(m: nat)
    requires m >= ExponentFrom
    ensures LeadingDigits(Exponential(m)) == Some(LeadingDigit(m))
  {
    var e := Exponential(m);
    var first := [e[0]];
    assert AllDigits(first);
    assert !IsDigit(e[1..][0]);
    DigitRunPrefix(first, e[1..]);
    assert first + e[1..] == e;
    assert DigitRun(e) == 1;
    assert e[..1] == first;
    assert first[..0] == [];
    assert DigitsValue(first) == DigitValue(e[0]);
  }

  lemma {:induction false} DigitRunAll(s: string)
    requires AllDigits(s)
    ensures DigitRun(s) == |s|
    decreases |s|
  {
    if |s| > 0 {
      assert AllDigits(s[1..]);
      DigitRunAll(s[1..]);
    }
  }

  /** Digits followed by a non-digit: the run stops at the non-digit. */
  lemma {:induction false} DigitRunPrefix(d: string, rest: string)
    requires AllDigits(d)
    requires |rest| > 0 && !IsDigit(rest[0])
    ensures DigitRun(d + rest) == |d|
    decreases |d|
  {
    if |d| > 0 {
      assert (d + rest)[1..] == d[1..] + rest;
      assert AllDigits(d[1..]);
      DigitRunPrefix(d[1..], rest);
    } else {
      assert d + rest == rest;
    }
  }

  /** `trim` cuts exactly the whitespace before `s[i]` and after `s[j - 1]`
      when those two characters are not whitespace. */
  lemma TrimExact(s: string, i: nat, j: nat)
    requires i < j <= |s|
    requires forall k :: 0 <= k < i ==> IsWhite(s[k])
    requires forall k :: j <= k < |s| ==> IsWhite(s[k])
    requires !IsWhite(s[i]) && !IsWhite(s[j - 1])
    ensures Trim(s) == s[i..j]
  {
    SkipWhiteExact(s, 0, i);
    BackWhiteExact(s, i, |s|, j);
  }

  lemma {:induction false} SkipWhiteExact(s: string, from: nat, i: nat)
    requires from <= i < |s|
    requires forall k :: from <= k < i ==> IsWhite(s[k])
    requires !IsWhite(s[i])
    ensures SkipWhite(s, from) == i
    decreases i - from
  {
    if from < i {
      SkipWhiteExact(s, from + 1, i);
    }
  }

  lemma {:induction false} BackWhiteExact(s: string, lo: nat, j: nat, m: nat)
    requires lo < m <= j <= |s|
    requires forall k :: m <= k < j ==> IsWhite(s[k])
    requires !IsWhite(s[m - 1])
    ensures BackWhite(s, lo, j) == m
    decreases j
  {
    if m < j {
      BackWhiteExact(s, lo, j - 1, m);
    }
  }

  /** A decimal numeral has no whitespace to trim. */
  lemma TrimOfIntToString(n: int)
    ensures Trim(IntToString(n)) == IntToString(n)
  {
    var s := IntToString(n);
    IntToStringHasNoWhite(n);
    TrimExact(s, 0, |s|);
  }

  lemma IntToStringHasNoWhite(n: int)
    ensures forall k :: 0 <= k < |IntToString(n)| ==> !IsWhite(IntToString(n)[k])
  {
    var s := IntToString(n);
    if n >= 0 {
      forall k | 0 <= k < |s| ensures !IsWhite(s[k]) {
        assert IsDigit(s[k]);
      }
    } else {
      var digits := NatToString(-n);
      forall k | 0 <= k < |s| ensures !IsWhite(s[k]) {
        if k > 0 {
          assert s[k] == digits[k - 1] && IsDigit(digits[k - 1]);
        }
      }
    }
  }
}

=== FILE: user_page.dfy ===
/** app/user/page.tsx: the pure parts of the users page — the list filter,
    the API key mask, the avatar initial, the checks that run before the
    reset-password and extend-expiry requests, and the machine count. */
module UserPage {
  import opened Wrappers
  import opened Js
  import Text
  import Lists
  import PageFilter
  import Settings
  import Api
  import ExtendExpiryRoute
  import ApiKey

  /** The fields of a listed user the page reads. A machine name slot is
      None for `null`. */
  datatype User = User(
    id: string, username: string, status: string, apiKey: Option<string>,
    machine1: Option<string>, machine2: Option<string>, machine3: Option<string>)

  function StatusOf(u: User): Option<string> {
    Some(u.status)
  }

  /** The search test: the lowercased username contains the query. */
  predicate UsernameHit(u: User, query: string) {
    Text.Contains(Text.ToLower(u.username), query)
  }

  /** The filter effect over the users the list route returned. */
  function Filtered(users: seq<User>, statusFilter: string, searchQuery: string): seq<User> {
    PageFilter.Apply(users, StatusOf, statusFilter, searchQuery, UsernameHit)
  }

  /** A user is listed exactly when its status is the selected one (or "All"
      is selected) and, for a non-blank query, its lowercased username
      contains the lowercased query; the list keeps the route's order. */
  lemma FilterKeeps(users: seq<User>, statusFilter: string, searchQuery: string, u: User)
    ensures u in Filtered(users, statusFilter, searchQuery) <==>
      && u in users
      && (statusFilter == "All" || u.status == statusFilter)
      && (Text.Trim(searchQuery) == "" || Text.Contains(Text.ToLower(u.username), Text.ToLower(searchQuery)))
    ensures Lists.IsSubsequence(Filtered(users, statusFilter, searchQuery), users)
  {
    PageFilter.ApplyMembers(users, StatusOf, statusFilter, searchQuery, UsernameHit, u);
    PageFilter.ApplyIsSubsequence(users, StatusOf, statusFilter, searchQuery, UsernameHit);
  }

  // ---------------------------------------------------------------------
  // API key display

  const NotSet: string := "Not set"
  const ShownWhole: nat := 20
  const ShownEnds: nat := 8

  /** `showFullApiKey[userId]`: an absent entry is `undefined`, so hidden. */
  predicate Revealed(shown: map<string, bool>, userId: string) {
    userId in shown && shown[userId]
  }

  /** `toggleApiKeyVisibility`. */
  function Toggle(shown: map<string, bool>, userId: string): (r: map<string, bool>)
    ensures Revealed(r, userId) <==> !Revealed(shown, userId)
    ensures forall other :: other != userId ==> (Revealed(r, other) <==> Revealed(shown, other))
  {
    shown[userId := !Revealed(shown, userId)]
  }

  /** Toggling twice shows the key as it was shown before. */
  lemma ToggleTwice(shown: map<string, bool>, userId: string, other: string)
    ensures Revealed(Toggle(Toggle(shown, userId), userId), other) <==> Revealed(shown, other)
  {
  }

  /** `formatApiKey`: "Not set" for a null or empty key; the whole key when
      revealed or short; otherwise its first 8 and last 8 characters around
      "...". */
  function FormatApiKey(apiKey: Option<string>, revealed: bool): (r: string)
    ensures apiKey.None? || apiKey == Some("") ==> r == NotSet
    ensures apiKey.Some? && apiKey.value != "" && (revealed || |apiKey.value| <= ShownWhole) ==> r == apiKey.value
    ensures apiKey.Some? && !revealed && |apiKey.value| > ShownWhole ==>
      var k := apiKey.value;
      && |r| == 2 * ShownEnds + 3
      && r[..ShownEnds] == k[..ShownEnds]
      && r[ShownEnds..ShownEnds + 3] == "..."
      && r[ShownEnds + 3..] == k[|k| - ShownEnds..]
  {
    match apiKey
    case None => NotSet
    case Some(k) =>
      if k == "" then NotSet
      else if revealed then k
      else if |k| <= ShownWhole then k
      else k[..ShownEnds] + "..." + k[|k| - ShownEnds..]
  }

  /** A masked key is never the key itself, and it depends only on the
      key's two ends: keys that differ only in the middle look the same. */
  lemma MaskedKeyHidesMiddle(k1: string, k2: string)
    requires |k1| > ShownWhole && |k2| > ShownWhole
    requires k1[..ShownEnds] == k2[..ShownEnds] && k1[|k1| - ShownEnds..] == k2[|k2| - ShownEnds..]
    ensures FormatApiKey(Some(k1), false) != k1
    ensures FormatApiKey(Some(k1), false) == FormatApiKey(Some(k2), false)
  {
    assert |FormatApiKey(Some(k1), false)| < |k1|;
  }

  /** A key from the API-key generator (32 characters) is masked to 19
      characters unless revealed, and revealing shows it whole. */
  lemma GeneratedKeyMasked(bytes: ApiKey.KeyBytes)
    ensures var k := ApiKey.GenerateApiKey(bytes);
      && |FormatApiKey(Some(k), false)| == 2 * ShownEnds + 3
      && FormatApiKey(Some(k), false) != k
      && FormatApiKey(Some(k), true) == k
  {
    var k := ApiKey.GenerateApiKey(bytes);
    assert |k| == 32;
  }

  // ---------------------------------------------------------------------
  // Avatar

  /** `getInitials`: the first character upper-cased, "" for an empty name. */
  function Initials(username: string): (r: string)
    ensures username == "" <==> r == ""
    ensures |r| <= 1
  {
    if username == "" then "" else [Text.UpperChar(username[0])]
  }

  /** The initial is the username's first character up to case. */
  lemma InitialMatchesName(username: string)
    requires username != ""
    ensures Text.ToLower(Initials(username)) == Text.ToLower(username[..1])
  {
  }

  // ---------------------------------------------------------------------
  // Reset password

  const MinPassword: nat := 6

  /** What `handleResetPassword` does: nothing without a selected user, a
      toast for a short password or a mismatch, or the request. */
  datatype ResetAction =
    | NoUser
    | PasswordTooShort
    | PasswordMismatch
    | SendReset(url: string, body: Value)

  /** The length (in UTF-16 code units) is checked before the confirmation;
      the request goes to the
      selected user's reset route with the new password as the only field. */
  function ResetPassword(selected: Option<string>, newPassword: string, confirmPassword: string): (r: ResetAction)
    ensures selected.None? <==> r == NoUser
    ensures selected.Some? ==> (r == PasswordTooShort <==> Text.Utf16Length(newPassword) < MinPassword)
    ensures selected.Some? && Text.Utf16Length(newPassword) >= MinPassword ==>
      (r == PasswordMismatch <==> newPassword != confirmPassword)
    ensures r.SendReset? ==>
      && Text.Utf16Length(newPassword) >= MinPassword && newPassword == confirmPassword
      && r.url == "/api/users/" + selected.value + "/reset-password"
      && r.body == Obj(map["password" := Str(newPassword)])
  {
    match selected
    case None => NoUser
    case Some(id) =>
      if newPassword == "" || Text.Utf16Length(newPassword) < MinPassword then PasswordTooShort
      else if newPassword != confirmPassword then PasswordMismatch
      else SendReset("/api/users/" + id + "/reset-password", Obj(map["password" := Str(newPassword)]))
  }

  /** A short password is refused as short even when the confirmation does
      not match it. */
  lemma ShortBeforeMismatch(id: string, newPassword: string, confirmPassword: string)
    requires Text.Utf16Length(newPassword) < MinPassword && newPassword != confirmPassword
    ensures ResetPassword(Some(id), newPassword, confirmPassword) == PasswordTooShort
  {
  }

  // ---------------------------------------------------------------------
  // Extend expiry

  /** `extendTarget`: no dialog open, the whole user base (`id: null`,
      shown as "All Users"), or one user. */
  datatype ExtendTarget = NoDialog | AllUsers | OneUser(id: string)

  /** `openExtendDialog`: with a user it targets that user, without one
      every user. */
  function OpenExtendDialog(user: Option<string>): (t: ExtendTarget)
    ensures t != NoDialog
    ensures t.AllUsers? <==> user.None?
    ensures t.OneUser? ==> t.id == user.value
  {
    match user
    case None => AllUsers
    case Some(id) => OneUser(id)
  }

  /** `extendTarget.id` as it is serialised: `null` for every user. */
  function TargetId(t: ExtendTarget): (v: Value)
    ensures v == (if t.OneUser? then Str(t.id) else Null)
  {
    match t
    case OneUser(id) => Str(id)
    case _ => Null
  }

  /** What `handleExtendExpiry` does. */
  datatype ExtendAction = NoTarget | InvalidDays | SendExtend(days: int, body: Value)

  /** `Number(extendDays)` must be an integer and at least 1; there is no
      upper bound here. The body carries the target's id, `null` for every
      user. */
  function ExtendExpiry(target: ExtendTarget, extendDays: string): (r: ExtendAction)
    ensures target.NoDialog? <==> r == NoTarget
    ensures r.SendExtend? ==>
      && r.days >= 1
      && NumberOf(Str(extendDays)) == Num(r.days)
      && Get(r.body, "days") == Num(r.days)
      && Get(r.body, "userId") == (if target.OneUser? then Str(target.id) else Null)
    ensures !target.NoDialog? ==>
      (r.SendExtend? <==> extendDays != "" && NumberOf(Str(extendDays)).Num? && NumberOf(Str(extendDays)).n >= 1)
  {
    if target.NoDialog? then NoTarget
    else
      var daysNum := NumberOf(Str(extendDays));
      if extendDays == "" || !daysNum.Num? || daysNum.n < 1 then InvalidDays
      else SendExtend(daysNum.n, ExtendBody(TargetId(target), daysNum.n))
  }

  /** Blank input reads as 0 and is refused. */
  lemma BlankDaysRefused(target: ExtendTarget, extendDays: string)
    requires !target.NoDialog?
    requires forall i :: 0 <= i < |extendDays| ==> Text.IsWhite(extendDays[i])
    ensures ExtendExpiry(target, extendDays) == InvalidDays
  {
    Text.TrimEmptyIff(extendDays);
  }

  /** Any positive count written out in decimal is sent as that count. */
  lemma DecimalDaysSent(target: ExtendTarget, n: int)
    requires !target.NoDialog? && n >= 1
    ensures ExtendExpiry(target, Text.IntToString(n)) == SendExtend(n, ExtendBody(TargetId(target), n))
  {
    var s := Text.IntToString(n);
    assert NumberOf(Str(s)) == Num(n) by {
      StrictDecimalOfIntToString(n);
      Text.TrimOfIntToString(n);
    }
  }

  /** The dialog opened without a user posts `userId: null`, which the
      extend-expiry route reads as every user: it lists all users. */
  lemma AllUsersExtendsEveryone(extendDays: string, url: string, enc: string -> string)
    ensures var r := ExtendExpiry(OpenExtendDialog(None), extendDays);
      r.SendExtend? ==>
        && !Truthy(Api.Field(Some(r.body), "userId"))
        && ExtendExpiryRoute.ListingUrl(url, Api.Field(Some(r.body), "userId"), enc)
           == url + "/rest/v1/users?select=id,expires_at"
  {
    var r := ExtendExpiry(OpenExtendDialog(None), extendDays);
    if r.SendExtend? {
      assert Api.Field(Some(r.body), "userId") == Null;
    }
  }

  /** The page sends counts above a year (`DecimalDaysSent` has no upper
      bound), and the extend-expiry route refuses that body with a 400. */
  lemma ClientSendsWhatRouteRefuses(env: Settings.Env, userId: Value, n: int)
    requires n > ExtendExpiryRoute.MaxDays
    requires Settings.ServerConfigured(env)
    ensures ExtendExpiryRoute.Validate(env, true, Some(ExtendBody(userId, n)))
         == Failure(Api.Fail(400, "'days' must be between 1 and 365."))
  {
    var sent := ExtendBody(userId, n);
    assert Api.BodyReadable(Some(sent)) && Api.Field(Some(sent), "days") == Num(n);
  }

  /** The body `handleExtendExpiry` posts. */
  function ExtendBody(userId: Value, days: int): (b: Value)
    ensures Get(b, "days") == Num(days) && Get(b, "userId") == userId
  {
    Obj(map["days" := Num(days), "userId" := userId])
  }

  // ---------------------------------------------------------------------
  // Machine count

  /** `filter(name => name)`: a slot counts when it holds a non-empty name. */
  predicate NameSet(name: Option<string>) {
    name.Some? && name.value != ""
  }

  /** The number of machine names set among the three slots. */
  function MachineCount(u: User): (r: nat)
    ensures r <= 3
    ensures r == (if NameSet(u.machine1) then 1 else 0) + (if NameSet(u.machine2) then 1 else 0)
                 + (if NameSet(u.machine3) then 1 else 0)
  {
    var slots := [u.machine1, u.machine2, u.machine3];
    assert slots[1..] == [u.machine2, u.machine3] && slots[1..][1..] == [u.machine3];
    assert |Lists.Filter([u.machine3], NameSet)| == if NameSet(u.machine3) then 1 else 0 by {
      assert [u.machine3][1..] == [];
    }
    assert |Lists.Filter(slots[1..], NameSet)|
        == (if NameSet(u.machine2) then 1 else 0) + (if NameSet(u.machine3) then 1 else 0);
    |Lists.Filter(slots, NameSet)|
  }

  /** No slot set means no machines, every slot set means three, and
      clearing one slot lowers the count by one exactly when it was set. */
  lemma MachineCountBySlot(u: User)
    ensures MachineCount(u) == 0 <==> !NameSet(u.machine1) && !NameSet(u.machine2) && !NameSet(u.machine3)
    ensures MachineCount(u) == 3 <==> NameSet(u.machine1) && NameSet(u.machine2) && NameSet(u.machine3)
    ensures MachineCount(u.(machine1 := None)) + (if NameSet(u.machine1) then 1 else 0) == MachineCount(u)
    ensures MachineCount(u.(machine2 := None)) + (if NameSet(u.machine2) then 1 else 0) == MachineCount(u)
    ensures MachineCount(u.(machine3 := None)) + (if NameSet(u.machine3) then 1 else 0) == MachineCount(u)
  {
  }

  /** "N machine" or "N machines": singular exactly for one. */
  function MachineLabel(n: nat): (r: string)
    ensures r == Text.NatToString(n) + " machine" || r == Text.NatToString(n) + " machines"
    ensures Text.EndsWith(r, "s") <==> n != 1
  {
    var r := Text.NatToString(n) + " machine" + (if n != 1 then "s" else "");
    assert r[|r| - 1] == if n != 1 then 's' else 'e';
    r
  }

  /** `parseInt` of the label reads back the count it shows. */
  lemma MachineLabelReadsBack(n: nat)
    ensures Text.ParseInt(MachineLabel(n)) == Some(n)
  {
    var d := Text.NatToString(n);
    var rest := MachineLabel(n)[|d|..];
    assert MachineLabel(n) == d + rest;
    assert rest[0] == ' ';
    assert !Text.IsWhite(MachineLabel(n)[0]);
    assert Text.TrimStart(MachineLabel(n)) == MachineLabel(n);
    Text.DigitRunPrefix(d, rest);
    assert (d + rest)[..|d|] == d;
  }
}

=== FILE: users_route.dfy ===
/** app/api/users/route.ts: the user listing (a PostgREST query and its
    total) and user creation (validation, the unique API-key search, the
    inserted row). */
module UsersRoute {
  import opened Wrappers
  import opened Js
  import Settings
  import Api
  import opened Query
  import ApiKey
  import Text

  // ---------------------------------------------------------------------
  // GET

  const ListBase: string :=
    "/rest/v1/users?select=id,username,plan,status,machine_name_1,machine_name_2,machine_name_3,discord_id,apikey,expires_at,created_at,updated_at&order=created_at.desc"
  const CountBase: string := "/rest/v1/users?select=id&head=true"
  const FetchFailedText: string := "Failed to fetch users"

  /** The `searchParams.get` values the listing reads; None is `null`. */
  datatype ListParams = ListParams(
    status: Option<string>, search: Option<string>, limit: Option<string>, offset: Option<string>)

  /** The status and username filters, shared by both queries. */
  function Filters(p: ListParams, enc: string -> string): (ps: seq<Param>)
    ensures forall i :: 0 <= i < |ps| ==> ps[i].key in {"status", "username"}
  {
    StatusFilter(p.status, enc)
    + (if Given(p.search) then [Param("username", "ilike.%25" + enc(p.search.value) + "%25")] else [])
  }

  /** The parameters of the data query and of the HEAD count query. */
  function ListParamsOf(p: ListParams, enc: string -> string): seq<Param> {
    Filters(p, enc) + Paging(p.limit, p.offset)
  }

  function CountParamsOf(p: ListParams, enc: string -> string): seq<Param> {
    Filters(p, enc)
  }

  /** The data query: the fixed base, then the filter and paging
      parameters, which the server reads back in order. */
  function ListUrl(url: string, p: ListParams, enc: string -> string): (r: string)
    ensures Text.StartsWith(r, url + ListBase)
    ensures AllSeparable(ListParamsOf(p, enc)) ==> ReadParams(r[|url + ListBase|..]) == ListParamsOf(p, enc)
  {
    AppendedReadsBack(url + ListBase, ListParamsOf(p, enc));
    url + ListBase + Render(ListParamsOf(p, enc))
  }

  /** The count query: the same filters, and no paging. */
  function CountUrl(url: string, p: ListParams, enc: string -> string): (r: string)
    ensures Text.StartsWith(r, url + CountBase)
    ensures AllSeparable(CountParamsOf(p, enc)) ==> ReadParams(r[|url + CountBase|..]) == CountParamsOf(p, enc)
  {
    AppendedReadsBack(url + CountBase, CountParamsOf(p, enc));
    url + CountBase + Render(CountParamsOf(p, enc))
  }

  /** The status filter is sent only when given and not "All", and the
      username pattern only when a search is given. */
  lemma {:induction false} FilterParameters(p: ListParams, enc: string -> string)
    ensures Lookup(Filters(p, enc), "status") ==
      (if StatusFilterActive(p.status) then ["eq." + enc(p.status.value)] else [])
    ensures Lookup(Filters(p, enc), "username") ==
      (if Given(p.search) then ["ilike.%25" + enc(p.search.value) + "%25"] else [])
    ensures Lookup(Filters(p, enc), "limit") == [] && Lookup(Filters(p, enc), "offset") == []
  {
    var s := StatusFilter(p.status, enc);
    var u := if Given(p.search) then [Param("username", "ilike.%25" + enc(p.search.value) + "%25")] else [];
    LookupAppend(s, u, "status");
    LookupAppend(s, u, "username");
    LookupAppend(s, u, "limit");
    LookupAppend(s, u, "offset");
  }

  /** The count query carries exactly the data query's filters: every key
      but `limit` and `offset` reads the same on both, and only the data
      query pages (limit 100 by default, offset only when given). */
  lemma {:induction false} CountQueryMatchesList(p: ListParams, enc: string -> string)
    ensures forall key :: key != "limit" && key != "offset" ==>
      Lookup(ListParamsOf(p, enc), key) == Lookup(CountParamsOf(p, enc), key)
    ensures Lookup(ListParamsOf(p, enc), "limit") ==
      [if Given(p.limit) then NumText(Text.ParseInt(p.limit.value)) else "100"]
    ensures Lookup(ListParamsOf(p, enc), "offset") ==
      (if Given(p.offset) then [NumText(Text.ParseInt(p.offset.value))] else [])
    ensures Lookup(CountParamsOf(p, enc), "limit") == [] && Lookup(CountParamsOf(p, enc), "offset") == []
  {
    var f := Filters(p, enc);
    FilterParameters(p, enc);
    forall key | key != "limit" && key != "offset"
      ensures Lookup(ListParamsOf(p, enc), key) == Lookup(CountParamsOf(p, enc), key)
    {
      LookupAppend(f, Paging(p.limit, p.offset), key);
      PagingOnlyPages(p.limit, p.offset, key);
    }
    LookupAppend(f, Paging(p.limit, p.offset), "limit");
    LookupAppend(f, Paging(p.limit, p.offset), "offset");
  }

  /** `GET /api/users`. `list` answers `ListUrl`, `head` answers `CountUrl`. */
  function Get(env: Settings.Env, authed: bool, list: Remote, head: HeadReply): (r: Response)
    ensures !Settings.ServerConfigured(env) ==> r == Api.Fail(500, Api.ConfigErrorText)
    ensures Settings.ServerConfigured(env) && !authed ==> r == Api.Fail(401, Api.UnauthorizedText)
    ensures Settings.ServerConfigured(env) && authed && r.status != 200 ==> r == Api.Fail(500, FetchFailedText)
    ensures r.status == 200 ==>
      && OkWithBody(list) && !Nullish(list.body.value)
      && Js.Get(r.body, "users") == list.body.value
      && Js.Get(r.body, "count") == Api.LengthJson(list.body.value)
  {
    ListResponse(env, authed, "users", FetchFailedText, list, head)
  }

  // ---------------------------------------------------------------------
  // POST

  const CreateFailedText: string := "Failed to create user"
  const DefaultPlan: int := 30
  const MaxKeyAttempts: nat := 10

  /** `v.length < n` in JavaScript: false when `v` has no length. */
  predicate ShorterThan(v: Value, n: int) {
    Length(v).Some? && Length(v).value < n
  }

  /** The validated fields of a creation request. */
  datatype Signup = Signup(username: Value, password: Value, plan: int, discordId: Value)

  /** `plan ? parseInt(plan) : 30`, None for NaN. A truthy plan is
      converted to a string first, which throws unless it is `Printable`. */
  function PlanOf(plan: Value): (r: Option<int>)
    ensures !Truthy(plan) ==> r == Some(DefaultPlan)
    ensures Truthy(plan) ==> r == ParseIntOf(plan)
  {
    if Truthy(plan) then ParseIntOf(plan) else Some(DefaultPlan)
  }

  /** Both credentials are present and long enough. */
  predicate CredentialsAccepted(body: Option<Value>) {
    && Api.BodyReadable(body)
    && Truthy(Api.Field(body, "username")) && Truthy(Api.Field(body, "password"))
    && !ShorterThan(Api.Field(body, "username"), 3) && !ShorterThan(Api.Field(body, "password"), 6)
  }

  /** The plan can be read and is a positive number. */
  predicate PlanAccepted(plan: Value) {
    (!Truthy(plan) || Printable(plan)) && PlanOf(plan).Some? && PlanOf(plan).value >= 1
  }

  /** The creation checks run in this order, and the plan defaults to
      30 when falsy. A plan that cannot be converted to a string throws
      inside the handler's `try`, which answers 500. */
  function Validate(body: Option<Value>): (r: Result<Signup, Response>)
    ensures !Api.BodyReadable(body) ==> r == Failure(Api.Fail(500, CreateFailedText))
    ensures Api.BodyReadable(body) && !(Truthy(Api.Field(body, "username")) && Truthy(Api.Field(body, "password"))) ==>
      r == Failure(Api.Fail(400, "Username and password are required"))
    ensures Api.BodyReadable(body) && Truthy(Api.Field(body, "username")) && Truthy(Api.Field(body, "password")) ==>
      && (ShorterThan(Api.Field(body, "username"), 3) ==>
            r == Failure(Api.Fail(400, "Username must be at least 3 characters")))
      && (!ShorterThan(Api.Field(body, "username"), 3) && ShorterThan(Api.Field(body, "password"), 6) ==>
            r == Failure(Api.Fail(400, "Password must be at least 6 characters")))
    ensures CredentialsAccepted(body) && Truthy(Api.Field(body, "plan")) && !Printable(Api.Field(body, "plan")) ==>
      r == Failure(Api.Fail(500, CreateFailedText))
    ensures CredentialsAccepted(body) && (!Truthy(Api.Field(body, "plan")) || Printable(Api.Field(body, "plan")))
            && !PlanAccepted(Api.Field(body, "plan")) ==>
      r == Failure(Api.Fail(400, "Plan must be a positive number"))
    ensures r.Success? <==> CredentialsAccepted(body) && PlanAccepted(Api.Field(body, "plan"))
    ensures r.Failure? ==> r.error.status in {400, 500}
    ensures r.Success? ==>
      && r.value == Signup(Api.Field(body, "username"), Api.Field(body, "password"),
                           PlanOf(Api.Field(body, "plan")).value, Api.Field(body, "discord_id"))
      && Truthy(r.value.username) && Truthy(r.value.password)
      && !ShorterThan(r.value.username, 3) && !ShorterThan(r.value.password, 6)
      && r.value.plan >= 1
      && (Truthy(Api.Field(body, "plan")) ==> ParseIntOf(Api.Field(body, "plan")) == Some(r.value.plan))
      && (!Truthy(Api.Field(body, "plan")) ==> r.value.plan == DefaultPlan)
  {
    if !Api.BodyReadable(body) then Failure(Api.Fail(500, CreateFailedText))
    else
      var username := Api.Field(body, "username");
      var password := Api.Field(body, "password");
      var plan := Api.Field(body, "plan");
      if !Truthy(username) || !Truthy(password) then
        Failure(Api.Fail(400, "Username and password are required"))
      else if ShorterThan(username, 3) then
        Failure(Api.Fail(400, "Username must be at least 3 characters"))
      else if ShorterThan(password, 6) then
        Failure(Api.Fail(400, "Password must be at least 6 characters"))
      else if Truthy(plan) && !Printable(plan) then
        Failure(Api.Fail(500, CreateFailedText))
      else
        var planNum := if Truthy(plan) then ParseIntOf(plan) else Some(DefaultPlan);
        if planNum.None? || planNum.value < 1 then
          Failure(Api.Fail(400, "Plan must be a positive number"))
        else
          Success(Signup(username, password, planNum.value, Api.Field(body, "discord_id")))
  }

  /** A plan object with its own `toString` key makes `parseInt` throw:
      the request fails with a 500 rather than the plan's 400. */
  lemma UnprintablePlanThrows(u: string, pw: string)
    requires |u| >= 3 && |pw| >= 6
    ensures Validate(Some(Obj(map["username" := Str(u), "password" := Str(pw),
                                  "plan" := Obj(map["toString" := Num(1)])])))
         == Failure(Api.Fail(500, CreateFailedText))
  {
    var b := Obj(map["username" := Str(u), "password" := Str(pw), "plan" := Obj(map["toString" := Num(1)])]);
    assert Api.Field(Some(b), "plan") == Obj(map["toString" := Num(1)]);
    assert Api.Field(Some(b), "username") == Str(u);
    assert Api.Field(Some(b), "password") == Str(pw);
  }

  /** Any accepted request keeps its credentials and its `discord_id`
      as sent, and a plan of "7" becomes 7. */
  lemma AcceptedSignup(u: string, pw: string, discord: Value)
    requires |u| >= 3 && |pw| >= 6
    ensures Validate(Some(Obj(map["username" := Str(u), "password" := Str(pw), "plan" := Str("7"),
                                  "discord_id" := discord])))
         == Success(Signup(Str(u), Str(pw), 7, discord))
  {
    var b := Some(Obj(map["username" := Str(u), "password" := Str(pw), "plan" := Str("7"), "discord_id" := discord]));
    SignupFields(u, pw, discord);
    SevenIsSeven();
    AcceptedFromParts(b);
  }

  lemma SignupFields(u: string, pw: string, discord: Value)
    requires |u| >= 3 && |pw| >= 6
    ensures var b := Some(Obj(map["username" := Str(u), "password" := Str(pw), "plan" := Str("7"),
                                  "discord_id" := discord]));
      && CredentialsAccepted(b)
      && Api.Field(b, "username") == Str(u) && Api.Field(b, "password") == Str(pw)
      && Api.Field(b, "plan") == Str("7") && Api.Field(b, "discord_id") == discord
  {
    var b := Some(Obj(map["username" := Str(u), "password" := Str(pw), "plan" := Str("7"), "discord_id" := discord]));
    assert Api.Field(b, "username") == Str(u);
    assert Api.Field(b, "password") == Str(pw);
    assert Api.Field(b, "plan") == Str("7");
    assert Api.Field(b, "discord_id") == discord;
    assert Length(Str(u)).value >= 3 && Length(Str(pw)).value >= 6;
  }

  lemma AcceptedFromParts(body: Option<Value>)
    requires CredentialsAccepted(body) && PlanAccepted(Api.Field(body, "plan"))
    ensures Validate(body) == Success(Signup(Api.Field(body, "username"), Api.Field(body, "password"),
                                             PlanOf(Api.Field(body, "plan")).value, Api.Field(body, "discord_id")))
  {
  }

  lemma SevenIsSeven()
    ensures ParseIntOf(Str("7")) == Some(7)
    ensures PlanAccepted(Str("7")) && PlanOf(Str("7")) == Some(7)
  {
    Text.ParseIntOfIntToString(7);
    assert Text.IntToString(7) == "7";
  }

  /** A non-string username has no length, so it passes the length check. */
  lemma NumericUsernameSkipsLengthCheck()
    ensures Validate(Some(Obj(map["username" := Num(7), "password" := Str("secret")]))).Success?
  {
    var b := Obj(map["username" := Num(7), "password" := Str("secret")]);
    assert Api.Field(Some(b), "plan") == Undefined;
    assert PlanAccepted(Undefined);
    assert CredentialsAccepted(Some(b)) by {
      assert Api.Field(Some(b), "username") == Num(7);
      assert Api.Field(Some(b), "password") == Str("secret");
      assert Length(Str("secret")) == Some(6);
    }
  }

  /** Lengths count UTF-16 code units: a character outside the Basic
      Multilingual Plane counts twice, so two characters can make a long
      enough username. */
  lemma AstralCharacterCountsTwice()
    ensures !ShorterThan(Str("\U{1F600}a"), 3)
    ensures ShorterThan(Str("ab"), 3)
  {
    assert Text.Astral("\U{1F600}a"[0]);
  }

  /** An object with its own numeric `length` is measured by that field:
      a username object claiming length 1 is too short. */
  lemma ObjectLengthCounts()
    ensures Validate(Some(Obj(map["username" := Obj(map["length" := Num(1)]), "password" := Str("secret")])))
         == Failure(Api.Fail(400, "Username must be at least 3 characters"))
  {
    var name := Obj(map["length" := Num(1)]);
    var b := Obj(map["username" := name, "password" := Str("secret")]);
    assert Api.Field(Some(b), "username") == name;
    assert Api.Field(Some(b), "password") == Str("secret");
    assert Length(name) == Some(1);
  }

  /** A plan of 0 is falsy and therefore becomes the default, not an error. */
  lemma PlanZeroIsDefault(u: string, pw: string)
    requires |u| >= 3 && |pw| >= 6
    ensures Validate(Some(Obj(map["username" := Str(u), "password" := Str(pw), "plan" := Num(0)]))).Success?
    ensures Validate(Some(Obj(map["username" := Str(u), "password" := Str(pw), "plan" := Num(0)]))).value.plan == 30
  {
    var b := Obj(map["username" := Str(u), "password" := Str(pw), "plan" := Num(0)]);
    assert Api.Field(Some(b), "plan") == Num(0);
    assert Api.Field(Some(b), "username") == Str(u);
    assert Api.Field(Some(b), "password") == Str(pw);
  }

  /** A truthy plan that parses to NaN, or to less than 1, is refused once
      the other fields pass. */
  lemma PlanRefused(body: Option<Value>)
    requires Api.BodyReadable(body)
    requires Truthy(Api.Field(body, "username")) && Truthy(Api.Field(body, "password"))
    requires !ShorterThan(Api.Field(body, "username"), 3) && !ShorterThan(Api.Field(body, "password"), 6)
    requires Truthy(Api.Field(body, "plan")) && Printable(Api.Field(body, "plan"))
    requires ParseIntOf(Api.Field(body, "plan")).None? || ParseIntOf(Api.Field(body, "plan")).value < 1
    ensures Validate(body) == Failure(Api.Fail(400, "Plan must be a positive number"))
  {
  }

  /** "x" is such a plan. */
  lemma NoDigitsIsNaN()
    ensures ParseIntOf(Str("x")) == None
  {
    assert Display(Str("x")) == "x";
    assert Text.TrimStart("x") == "x";
    assert "x"[0] != '-' && "x"[0] != '+';
    assert Text.DigitRun("x") == 0;
    assert Text.LeadingDigits("x") == None;
  }

  /** The three ways one uniqueness check can end. */
  predicate Collides(reply: Remote) {
    OkWithBody(reply) && reply.body.value.Arr? && |reply.body.value.items| > 0
  }

  /** The check request threw, or its 2xx body was not JSON. */
  predicate CheckThrows(reply: Remote) {
    reply.NetworkError? || (IsOk(reply.status) && reply.body.None?)
  }

  /** Anything else ends the search with the current key: an empty or
      non-array 2xx reply, or any non-2xx reply. */
  predicate Clears(reply: Remote) {
    !Collides(reply) && !CheckThrows(reply)
  }

  datatype KeySearch = Unique(key: string, collisions: nat) | Exhausted | Threw(at: nat)

  /** The search for an unused API key: at most ten checks; the key checked at step i comes
      from draw i. `checks(i)` is the reply to the i-th check. */
  method FindUniqueApiKey(draws: nat -> ApiKey.KeyBytes, checks: nat -> Remote) returns (r: KeySearch)
    ensures r.Unique? ==>
      && r.collisions < MaxKeyAttempts
      && r.key == ApiKey.GenerateApiKey(draws(r.collisions))
      && Clears(checks(r.collisions))
      && (forall i :: 0 <= i < r.collisions ==> Collides(checks(i)))
    ensures r.Threw? ==>
      r.at < MaxKeyAttempts && CheckThrows(checks(r.at)) && (forall i :: 0 <= i < r.at ==> Collides(checks(i)))
    ensures r.Exhausted? <==> forall i :: 0 <= i < MaxKeyAttempts ==> Collides(checks(i))
  {
    var attempts: nat := 0;
    while attempts < MaxKeyAttempts
      invariant attempts <= MaxKeyAttempts
      invariant forall i :: 0 <= i < attempts ==> Collides(checks(i))
    {
      var reply := checks(attempts);
      if CheckThrows(reply) {
        return Threw(attempts);
      }
      if !Collides(reply) {
        // the key drawn after the last collision is the one that stays
        return Unique(ApiKey.GenerateApiKey(draws(attempts)), attempts);
      }
      attempts := attempts + 1;
    }
    return Exhausted;
  }

  /** The row inserted for a new user: active, no machines bound, and the
      Discord id `null` when none was given. */
  function NewUserRow(s: Signup, passwordHash: string, apiKey: string): (row: Value)
    ensures Js.Get(row, "status") == Str("Active")
    ensures Js.Get(row, "machine_name_1") == Null && Js.Get(row, "machine_name_2") == Null
    ensures Js.Get(row, "machine_name_3") == Null
    ensures Js.Get(row, "discord_id") == Or(s.discordId, Null)
    ensures Js.Get(row, "username") == s.username
    ensures Js.Get(row, "password_hash") == Str(passwordHash)
    ensures Js.Get(row, "plan") == Num(s.plan)
    ensures Js.Get(row, "apikey") == Str(apiKey)
  {
    Obj(map[
      "username" := s.username,
      "password_hash" := Str(passwordHash),
      "plan" := Num(s.plan),
      "apikey" := Str(apiKey),
      "machine_name_1" := Null,
      "machine_name_2" := Null,
      "machine_name_3" := Null,
      "status" := Str("Active"),
      "discord_id" := Or(s.discordId, Null)])
  }

  /** `const { password_hash, ...rest } = user`: None when `user` is
      `null` or `undefined` (destructuring throws). Anything else keeps its
      own entries (`OwnEntries`) except `password_hash`. */
  function StripPasswordHash(user: Value): (r: Option<Value>)
    ensures r.Some? <==> !Nullish(user)
    ensures r.Some? ==> r.value.Obj? && "password_hash" !in r.value.fields
    ensures r.Some? ==> forall k :: k in OwnEntries(user) && k != "password_hash" ==>
      k in r.value.fields && r.value.fields[k] == OwnEntries(user)[k]
    ensures r.Some? ==> forall k :: k in r.value.fields ==> k in OwnEntries(user)
    ensures user.Obj? ==> r == Some(Obj(user.fields - {"password_hash"}))
  {
    if Nullish(user) then None
    else Some(Obj(OwnEntries(user) - {"password_hash"}))
  }

  /** An array reply loses nothing: every element stays under its index,
      since no index is `password_hash`. */
  lemma StripKeepsElements(items: seq<Value>)
    ensures var r := StripPasswordHash(Arr(items));
      && r.Some?
      && forall i :: 0 <= i < |items| ==> Js.Get(r.value, Text.NatToString(i)) == items[i]
  {
    var r := StripPasswordHash(Arr(items));
    forall i | 0 <= i < |items|
      ensures Js.Get(r.value, Text.NatToString(i)) == items[i]
    {
      IndexKeyIsDigits(i, "password_hash");
    }
  }

  datatype Outcome = Outcome(response: Response, inserted: Option<Value>)

  /** `POST /api/users`. `passwordHash` is the bcrypt digest (None when
      hashing threw), `search` the outcome of `FindUniqueApiKey`, and
      `create` the reply to the insert. */
  function Post(env: Settings.Env, authed: bool, body: Option<Value>, passwordHash: Option<string>,
                search: KeySearch, create: Remote): (o: Outcome)
    ensures !Settings.ServerConfigured(env) ==> o == Outcome(Api.Fail(500, Api.ConfigErrorText), None)
    ensures Settings.ServerConfigured(env) && !authed ==> o == Outcome(Api.Fail(401, Api.UnauthorizedText), None)
    ensures Settings.ServerConfigured(env) && authed && Validate(body).Failure? ==>
      o == Outcome(Validate(body).error, None)
    ensures Settings.ServerConfigured(env) && authed && Validate(body).Success? ==>
      o == Insert(Validate(body).value, passwordHash, search, create)
    ensures o.inserted.Some? ==> Settings.ServerConfigured(env) && authed && Validate(body).Success?
  {
    if !Settings.ServerConfigured(env) then Outcome(Api.Fail(500, Api.ConfigErrorText), None)
    else if !authed then Outcome(Api.Fail(401, Api.UnauthorizedText), None)
    else
      match Validate(body)
      case Failure(refusal) => Outcome(refusal, None)
      case Success(s) => Insert(s, passwordHash, search, create)
  }

  /** User creation after validation: hashing, the key search, the insert. */
  function Insert(s: Signup, passwordHash: Option<string>, search: KeySearch, create: Remote): (o: Outcome)
    ensures o.inserted.Some? <==> passwordHash.Some? && search.Unique?
    ensures o.inserted.Some? ==> o.inserted.value == NewUserRow(s, passwordHash.value, search.key)
    ensures passwordHash.Some? && search.Exhausted? ==> o.response == Api.Fail(500, "Failed to generate unique API key")
    ensures o.inserted.None? ==> o.response.status == 500
    ensures o.inserted.Some? ==> o.response == CreateResponse(create)
  {
    if passwordHash.None? then Outcome(Api.Fail(500, CreateFailedText), None)
    else
      match search
      case Threw(_) => Outcome(Api.Fail(500, CreateFailedText), None)
      case Exhausted => Outcome(Api.Fail(500, "Failed to generate unique API key"), None)
      case Unique(key, _) => Outcome(CreateResponse(create), Some(NewUserRow(s, passwordHash.value, key)))
  }

  /** The insert reply turned into the response. */
  function CreateResponse(create: Remote): (r: Response)
    ensures create.Reply? && !IsOk(create.status) ==>
      r == (if create.status == 409 then Api.Fail(409, "Username already exists")
            else Api.Fail(500, CreateFailedText))
    ensures r.status == 201 <==>
      OkWithBody(create) && !Nullish(Api.FirstOrSelf(create.body.value))
    ensures r.status == 201 ==>
      && Js.Get(r.body, "message") == Str("User created successfully")
      && Js.Get(r.body, "user") == StripPasswordHash(Api.FirstOrSelf(create.body.value)).value
      && Js.Get(Js.Get(r.body, "user"), "password_hash") == Undefined
    ensures r.status != 201 ==> r.status in {409, 500}
  {
    if create.Reply? && !IsOk(create.status) then
      if create.status == 409 then Api.Fail(409, "Username already exists") else Api.Fail(500, CreateFailedText)
    else if !OkWithBody(create) then Api.Fail(500, CreateFailedText)
    else
      match StripPasswordHash(Api.FirstOrSelf(create.body.value))
      case None => Api.Fail(500, CreateFailedText)
      case Some(user) =>
        Response(201, Obj(map["message" := Str("User created successfully"), "user" := user]))
  }
}

=== FILE: wrappers.dfy ===
/** Option and Result, the two failure-carrying shapes the rest of the model
    uses in place of JavaScript's `null`/`NaN` returns and thrown errors. */
module Wrappers {

  datatype Option<+T> = None | Some(value: T) {
    /** The value in Some, or the default for None. */
    function GetOr(default: T): T {
      match this
      case Some(v) => v
      case None => default
    }
  }

  datatype Result<+R, +E> = Success(value: R) | Failure(error: E)
}
